=== FILE: README.md ===
# VMAP / VAST decoding, modelled in Dafny

This project models the decoding core of the Go package `vmap`, the one in Eyevinn/VMAP. That core covers three things:

- **`DecodeVmap` and `DecodeVast`.** They pull XML tokens one at a time. Each element type's `UnmarshalToken` fills a VMAP document (ad breaks, with their tracking events and embedded VAST documents) or a VAST document (ads, their inline parts, creatives, linear parts, media files and extensions).
- **`xmlStringToString`.** It rewrites XML character references in element text, in place.
- **The text codecs of `Duration` and `TimeOffset`.** A duration is a clock text such as "00:01:00.300". A time offset is "start", "end", "n%", "#n" or a clock text.

Each part is modelled in the form the Go code takes:

- **Decoders** (module `Decoder`). Go's loops are imperative Dafny methods. Each one is proved to compute a function:
  - `Elements` holds one function per element decoder;
  - `Documents` holds `DecodeVast` and `DecodeVmap`;
  - `ElementFacts` and `Documents` hold the lemmas about these functions.
- **Tokens.** The token stream is a value: a sequence of tokens, the error the tokenizer reports after the last one (end of input or a malformed document), and an abstract `isEndElementOf`. The decoders thread a cursor through it.
- **Records.** Go's records become datatypes, and a nil pointer becomes `None`.
- **Errors.** An error a decoder returns is a `Failure`. A panic (a tokenizer error at the top level, or the nil `Linear` dereference) is an `Outcome` of its own.
- **`xmlStringToString`** (module `Entities`). It is an in-place method on a byte array and is proved against `Unescape`, a scan over the input.
- **Codecs** (module `Codecs`). They are functions. `time.ParseDuration` sits in `GoDuration`, as far as these codecs reach it.

Modules, in dependency order:

| module | contents |
|---|---|
| `ByteText` | bytes, the `strconv` and `strings` operations the codecs use |
| `Entities` | `xmlStringToString` and `decodeSpecialCharacterFromHexCode` |
| `GoDuration` | `time.ParseDuration` on integer terms |
| `Codecs` | `Duration` and `TimeOffset` text forms |
| `Tokens`, `Records`, `Failures` | tokens, the document records, decoder errors |
| `Attributes` | the attribute loop shared by every decoder |
| `Leaves` | element text, attribute switches, leaf elements |
| `Elements` | one function per `UnmarshalToken` |
| `Documents` | `DecodeVast`, `DecodeVmap` as functions |
| `Decoder` | the decoders as methods |
| `ElementFacts` | properties of the element decoders |

The package carries two copies of the decoders: one in `vmap/structure.go:53-490` and one in `vmap/decoder.go:12-501`. They are built on different tokenizer imports. The model follows `decoder.go`.

## Model

| member | source | states |
|---|---|---|
| `ByteText.Atoi` | vmap/decoder.go:206-211 | the integer `strconv.Atoi` reads: defined exactly when the text is an optionally signed run of digits whose value fits in 64 bits |
| `ByteText.ParseInt8` | vmap/structure.go:661-675 | `strconv.ParseInt(s, 10, 8)`: defined exactly when the text is a signed decimal in [-128, 127] |
| `ByteText.FormatIntParses` | vmap/structure.go:686-688 | the decimal text `%d` prints for n parses back as n |
| `ByteText.TrimSpaceSurrounded` | vmap/structure.go:581 | `strings.TrimSpace` removes the white space around a text that neither starts nor ends with white space |
| `Entities.DecodeSpecialCharacter` | vmap/decoder.go:542-558 | the rune of a reference payload is within the 32-bit range, and a predefined entity gives one of the five characters `&`, `<`, `>`, `'` and `"` |
| `Entities.HexDigitsPrefix` | vmap/decoder.go:556-557 | the base-16 digit loop reads hex digits as their positional number `HexNumber` after what it has accumulated, and stops with a range error exactly when that number passes 32 bits |
| `Entities.UnnamedHexValue` | vmap/decoder.go:556-557 | a payload that is no predefined entity and whose digits, after at most one sign, are all hexadecimal decodes to their number `HexNumber`, negated after '-', clamped to the 32-bit range |
| `Entities.UnnamedNotHex` | vmap/decoder.go:556-557 | a payload with no digits, or whose digits meet a non-hex byte before they overflow, decodes to 0, because the parse error is ignored |
| `Entities.EncodeRune` | vmap/decoder.go:530-533 | the byte count of `[]byte(string(r))`: 1, 2 or 4 bytes for the scalar values of those ranges, 3 for everything else |
| `Entities.EncodeRuneIsUtf8` | vmap/decoder.go:530-533 | a scalar value is written as a well-shaped UTF-8 sequence that decodes back to it (`Utf8Value`); a negative value, a surrogate or a value above U+10FFFF is written as U+FFFD |
| `Entities.NamedReference` | vmap/decoder.go:542-555 | `&amp;`, `&lt;`, `&gt;`, `&apos;` and `&quot;` decode to their one character |
| `Entities.SingleReference` | vmap/decoder.go:503-540 | a lone `&body;` decodes to the reference value of `body` |
| `Entities.SignedReference` | vmap/decoder.go:530-557 | a sign is read with the number, as `strconv.ParseInt` accepts it: `&#-41;` is -0x41, which decodes to U+FFFD |
| `Entities.DecimalReferenceReadAsHex` | vmap/decoder.go:519-520 | the '#' of a decimal reference is dropped and the digits are read as hexadecimal: `&#65;` gives U+0065 |
| `Entities.HexReference` | vmap/decoder.go:519-520 | `&#xE9;` gives the two UTF-8 bytes of é |
| `Entities.UnparseableReference` | vmap/decoder.go:556-557 | `&foo;` gives one zero byte |
| `Entities.UnescapeShorter` | vmap/decoder.go:503-540 | the decoded text is never longer than the input, so writing it into the input's own buffer never overtakes the read cursor |
| `Entities.UnescapeIdentity` | vmap/decoder.go:525-528 | a text without '&' is returned unchanged |
| `Entities.SpecialCharactersSample` | vmap/structure_test.go:313-325 | the sample title `Hej&amp;ö\n&lt;&gt;&quot;` decodes to `Hej&ö\n<>"` |
| `Entities.XmlStringToString` | vmap/decoder.go:503-540 | the in-place rewrite: the prefix it returns is `Unescape` of the old buffer, and the bytes after it are untouched |
| `GoDuration.ParseDuration` | vmap/structure.go:609 | `time.ParseDuration` on integer terms: a result, when there is one, lies in the 64-bit range |
| `GoDuration.TermThenRest` | vmap/structure.go:594-608 | one term "digits+unit" adds digits × unit to the sum, and parsing goes on after the unit |
| `Codecs.UnmarshalDuration` | vmap/structure.go:579-615 | blank text gives 0; a trimmed text without exactly three ':'-separated groups is `InvalidDurationFormat`; any value lies in the 64-bit range |
| `Codecs.ClockValue` | vmap/structure.go:586-614 | "H:M:S" of digit groups is worth H hours + M minutes + S seconds |
| `Codecs.ClockMillisValue` | vmap/structure.go:599-604 | "H:M:S.F" of digit groups is worth H hours + M minutes + S seconds + F milliseconds |
| `Codecs.TenSeconds` | vmap/structure_test.go:243-246 | "00:00:10" is 10 s |
| `Codecs.OneMinute` | vmap/structure_test.go:247-249 | "00:01:00" is 1 min |
| `Codecs.OneMinuteAndMillis` | vmap/structure_test.go:251-253 | "00:01:00.300" is 1 min 300 ms |
| `Codecs.FourHoursAndMore` | vmap/structure_test.go:255-257 | "04:01:12.345" is 4 h 1 min 12 s 345 ms |
| `Codecs.TwoGroupsRejected` | vmap/structure_test.go:262-263 | "01:04" is rejected as `InvalidDurationFormat` |
| `Codecs.FourGroupsRejected` | vmap/structure_test.go:259-260 | "01:04:01:12.345" is rejected as `InvalidDurationFormat` |
| `Codecs.DurationTrimmed` | vmap/structure.go:581 | white space around a duration text does not change its value |
| `Codecs.MarshalDuration` | vmap/structure.go:617-632 | zero prints as "00:00:00"; any clock text is at least that long, and for a non-negative duration starts and ends with a digit |
| `Codecs.MarshalWithMillis` | vmap/structure.go:621-630 | a positive duration with a millisecond part prints as "%02d:%02d:%02d.%03d" of hours, minutes mod 60, seconds mod 60 and milliseconds mod 1000 |
| `Codecs.MarshalWholeSeconds` | vmap/structure.go:621-627 | without a millisecond part it prints as "%02d:%02d:%02d" |
| `Codecs.DurationRoundTrip` | vmap/structure.go:579-632 | a duration of whole milliseconds in [0, MaxInt64] is encoded and decoded back to the same value |
| `Codecs.UnmarshalTimeOffset` | vmap/structure.go:652-680 | the forms are tried in the order "start"/"end", "n%", "#n", duration. The percent field changes only for a '%' text with an 8-bit value, and the position only for "start", "end" or an 8-bit "#n" without a '%' suffix. "start" and "end" set the position to `OffsetStart` and `OffsetEnd` whatever the offset held. A '%' or '#' number that is no 8-bit decimal is `PercentSyntax` or `PositionSyntax`, with the offset unchanged. The duration changes only for the duration form. There it stores the duration codec's value, or zero with the codec's error |
| `Codecs.OffsetErrorIgnoresPrior` | vmap/structure.go:652-680 | whether a text is rejected does not depend on the offset's previous value |
| `Codecs.MarshalTimeOffset` | vmap/structure.go:682-693 | a present duration wins and is written by the duration codec. Without one, a non-zero position is written as "#n" with the decimal n. A percentage, when there is neither, gives a '%' text. The empty text is written exactly for the zero offset |
| `Codecs.PositionRoundTrip` | vmap/structure.go:669-675 | the text of a non-zero 8-bit position is read back as that position, and nothing else in the offset changes |
| `Codecs.StartRoundTrip` | vmap/structure.go:654-656 | "start" reads as `OffsetStart`, which writes as "#-1" and reads back as `OffsetStart` |
| `Codecs.EndRoundTrip` | vmap/structure.go:657-659 | "end" reads as `OffsetEnd`, which round-trips through "#-2" |
| `Codecs.DurationOffsetRoundTrip` | vmap/structure.go:677-684 | the text of a duration offset of whole milliseconds is read back as the same duration |
| `Codecs.PercentTextRejected` | vmap/structure.go:689-691 | the text a percentage offset is written as ("50.000000%") is rejected by the decoder with `PercentSyntax`, and the offset is left as it was |
| `Codecs.PercentRoundTrip` | vmap/structure.go:661-667 | with the percentage written as an integer "n%", it reads back as the same percentage |
| `Codecs.PercentBeforePosition` | vmap/structure.go:661-676 | "#5%" is taken as a percentage, not a position, and is rejected |
| `Codecs.DurationSetOnError` | vmap/structure.go:677-679 | a malformed duration offset still leaves a zero duration behind, with the error |
| `Codecs.SecondsFractionReadAsMillis` | vmap/structure.go:599-609 | "00:00:.5" decodes to 5 ms. The empty part before the '.' leaves the seconds unit right after "00", so the text "00h00ms5ms" reads "00" as milliseconds too |
| `Codecs.FractionalMinutesRejected` | vmap/structure.go:594-612 | "00:.5:00" decodes to the syntax error, because the model's `time.ParseDuration` has no fractional terms (listed under "Left out") |
| `Attributes.ReadAttrs` | vmap/decoder.go:203-215 | the attribute switch over `se.Attrs`, returning at the first error: it computes `FoldAttrs` |
| `Attributes.FoldFails` | vmap/decoder.go:206-210 | an attribute that fails whatever came before makes the whole attribute loop fail |
| `Attributes.FoldKeeps` | vmap/decoder.go:100-117 | a field that no attribute case writes is the same after the loop |
| `Attributes.FoldIdle` | vmap/decoder.go:203-215 | attributes that no case matches leave the value as it was |
| `Attributes.LastNamed` | vmap/decoder.go:203-215 | the last attribute of a name: there is none exactly when no attribute has that name, and otherwise it is one of the attributes, with that name |
| `Attributes.LastNamedAt` | vmap/decoder.go:203-215 | an attribute with the name and no later attribute of that name is the last of that name |
| `Attributes.FoldSnoc` | vmap/decoder.go:203-215 | the loop over one more attribute handles it after all the others, unless the loop had already stopped |
| `Attributes.FoldSucceeds` | vmap/decoder.go:203-215 | attributes whose cases cannot fail leave the loop without an error |
| `Attributes.FoldLastWins` | vmap/decoder.go:203-215 | when one attribute name sets a field and no other name touches it, a loop that succeeds leaves in the field the value of the last attribute of that name, or the field's old value when there is none |
| `Attributes.FoldKeepsUnnamed` | vmap/decoder.go:104-117 | without any attribute of a name, a field only that name touches keeps its value |
| `Attributes.FoldOnlyNamed` | vmap/decoder.go:104-117 | with a single attribute of a name that updates a field from its old value, the loop leaves the update of the first value |
| `Leaves.ReadText` | vmap/decoder.go:150-154 | element text is the CDATA bytes verbatim, otherwise `xmlStringToString` of the character data, and never longer than the data |
| `Leaves.TextVerbatim` | vmap/decoder.go:150-154 | CDATA text, and any text without '&', is kept byte for byte |
| `Leaves.TrackingOf` | vmap/decoder.go:355-372 | a `Tracking` leaf holds its text and the last `event` attribute |
| `Leaves.ImpressionOf` | vmap/decoder.go:264-278 | an `Impression` leaf holds its text and the last `id` attribute |
| `Leaves.UniversalAdIdOf` | vmap/decoder.go:340-354 | a `UniversalAdId` leaf holds its text as the id and the last `idRegistry` attribute |
| `Leaves.ClickThroughOf` | vmap/decoder.go:373-386 | a `ClickThrough` leaf holds its text and the last `id` attribute |
| `Leaves.ClickTrackingOf` | vmap/decoder.go:387-404 | a `ClickTracking` leaf holds its text and the last `id` attribute |
| `Leaves.ParameterOf` | vmap/decoder.go:480-498 | a `CreativeParameter` holds its text as the value and the last `creativeId`, `name` and `type` attributes |
| `Leaves.MediaFileOf` | vmap/decoder.go:418-455 | a `MediaFile` element fails only with a number syntax error; when it does not fail it is `DescribedMediaFile`: its text, the last `bitrate`, `width` and `height` as integers, and the last `delivery`, `type` and `codec` |
| `Leaves.MediaFileAttrsRead` | vmap/decoder.go:423-448 | each field the `MediaFile` attributes fill holds the last attribute of its name once the loop succeeds |
| `Leaves.MediaFileNumbers` | vmap/decoder.go:423-440 | `bitrate`, `width` and `height` hold the integers of their last attributes once the loop succeeds |
| `Leaves.MediaFileBadNumber` | vmap/decoder.go:426-440 | a `bitrate`, `height` or `width` that `strconv.Atoi` rejects makes the `MediaFile` fail |
| `Leaves.MediaFileNumbersRead` | vmap/decoder.go:421-454 | with readable numbers the `MediaFile` is read whole: no error, and every field is what its attributes and text describe (`DescribedMediaFile`) |
| `Leaves.VmapNameNeedsAttribute` | vmap/decoder.go:68-78 | the root's attribute loop never fails; it sets `XMLName.Local` to "VMAP" exactly when there is at least one attribute |
| `Leaves.VmapRootAttributes` | vmap/decoder.go:68-78 | the root's `version` and `vmap` hold the last attributes of those names, `XMLName.Space` also the last `vmap`; ad breaks are kept; the loop never fails |
| `Leaves.AdAttributes` | vmap/decoder.go:203-215 | once every `sequence` is a number, the Ad's attributes do not fail: `id` is the last `id` and `sequence` the integer of the last `sequence`; `InLine` is kept |
| `Leaves.VastAttributes` | vmap/decoder.go:168-174 | the VAST's `version` is the last `version` attribute; its ads are kept |
| `Leaves.CreativeAttributes` | vmap/decoder.go:315-325 | the creative's `id` and `adId` are the last attributes of those names; `sequence` is not read; the rest is kept |
| `Leaves.ExtensionAttributes` | vmap/decoder.go:460-466 | the extension's type is the last `type` attribute; its parameters are kept |
| `Leaves.AdBreakAttributes` | vmap/decoder.go:104-117 | once every `timeOffset` reads, the break's attributes do not fail: id and type are the last `breakId` and `breakType`, the offset is kept when there is no `timeOffset`, and `AdSource` and the tracking events are kept |
| `Leaves.AdBreakSingleOffset` | vmap/decoder.go:111-115 | with one `timeOffset` attribute, the offset is what `TimeOffset.UnmarshalText` makes of its text over the offset held before |
| `Leaves.AdBreakBadOffset` | vmap/decoder.go:111-115 | a `timeOffset` attribute that does not parse makes the break's attribute loop fail |
| `Elements.ExtensionElement` | vmap/decoder.go:459-501 | a success ends just after the end token of the element, which is the last token pulled. The extension type is the last `type` attribute, and creative parameters are only appended |
| `Elements.CreativeChild` | vmap/decoder.go:339-456 | one child of a creative keeps its `id` and `adId` and only appends to the linear part's lists. It panics with a nil dereference exactly for a `ClickThrough` while `Linear` is nil |
| `Elements.CreativeChildren` | vmap/decoder.go:327-457 | a success ends just after an end token of the element; ids are kept and lists only grow. Once `Linear` exists, the nil dereference cannot happen. What each child appends or sets is in the `ElementFacts.*Appended` and `ElementFacts.*Set` rows |
| `Elements.CreativeElement` | vmap/decoder.go:314-457 | a success ends just after an end token of the creative; `id` and `adId` are the last attributes of those names, whatever the children do |
| `Elements.InLineLeaf` | vmap/decoder.go:264-309 | `Impression`, `AdSystem`, `AdTitle` and `Error` children leave creatives and extensions alone and only append impressions |
| `Elements.InLineChildren` | vmap/decoder.go:242-312 | a success ends just after an end token of the element; impressions, creatives and extensions are only appended. `ElementFacts.CreativeAppended`, `ExtensionAppended`, `ImpressionAppended`, `AdSystemSet`, `AdTitleSet` and `ErrorSet` give what each child appends or sets |
| `Elements.AdChildren` | vmap/decoder.go:216-240 | a success ends just after an end token of the element; the ad's `id` and `sequence` stay as the attributes set them |
| `Elements.AdElement` | vmap/decoder.go:202-240 | a success ends just after an end token of the ad; once every `sequence` attribute is a number, `id` is the last `id` and `sequence` the integer of the last `sequence`. `ElementFacts.AdBadSequence` covers the other case |
| `Elements.VastChildren` | vmap/decoder.go:176-200 | a success ends just after an end token of the element; the version is kept and ads are only appended. `ElementFacts.AdAppended` gives what each `Ad` child appends |
| `Elements.VastElement` | vmap/decoder.go:167-200 | a success ends just after an end token of the element; `version` is the last `version` attribute; ads are only appended. `ElementFacts.AdAppended` gives what each `Ad` child appends |
| `Elements.WithVast` | vmap/decoder.go:131-144 | storing a VAST in `AdSource.VASTData.VAST` keeps both pointers non-nil |
| `Elements.AdBreakChildren` | vmap/decoder.go:119-164 | a success ends just after an end token of the element; `AdSource` and `VASTData` stay non-nil; id, type and offset are kept; tracking events, once present, are only appended. `ElementFacts.BreakTrackingAppended` gives what a `Tracking` child appends |
| `Elements.AdBreakElement` | vmap/decoder.go:99-165 | `AdSource` and `VASTData` are non-nil after the call, whatever happens; a success ends just after an end token of the break; once every `timeOffset` reads, the break id and type are the last `breakId` and `breakType`, and the offset is kept when there is no `timeOffset` attribute |
| `ElementFacts.ExtensionCollects` | vmap/decoder.go:467-500 | the Extension loop stops right after the first end token of its element. It holds every `CreativeParameter` start token before that token, decoded, in document order, after the parameters it already had |
| `ElementFacts.ExtensionTruncated` | vmap/decoder.go:468-471 | without its end token the loop pulls every token and returns the tokenizer's error, end of input included |
| `ElementFacts.TrackingAppended` | vmap/decoder.go:355-372 | a `Tracking` child of a Creative allocates `Linear` if needed. It appends the decoded event to the tracking events already there, and the loop goes on with the next token |
| `ElementFacts.ClickTrackingAppended` | vmap/decoder.go:387-404 | a `ClickTracking` child is appended to `Linear`'s click trackings in the same way |
| `ElementFacts.MediaFileAppended` | vmap/decoder.go:418-455 | a `MediaFile` child with readable numbers is appended to `Linear`'s media files |
| `ElementFacts.UniversalAdIdSet` | vmap/decoder.go:340-354 | a `UniversalAdId` child replaces the creative's universal ad id with its registry and text |
| `ElementFacts.ClickThroughSet` | vmap/decoder.go:373-386 | once `Linear` exists, a `ClickThrough` child replaces its click-through and the loop goes on |
| `ElementFacts.DurationSet` | vmap/decoder.go:405-417 | a `Duration` child whose text decodes allocates `Linear` if needed and sets its duration to the decoded value |
| `ElementFacts.InLineSkips` | vmap/decoder.go:243-310 | stray end tokens and children the InLine switch does not name leave the InLine loop where it was |
| `ElementFacts.CreativeAppended` | vmap/decoder.go:255-263 | a `Creative` child that decodes is appended to the InLine's creatives, after those already there, and the loop resumes after its end token |
| `ElementFacts.ExtensionAppended` | vmap/decoder.go:291-300 | an `Extension` child that decodes is appended to the InLine's extensions, and the loop resumes after its end token |
| `ElementFacts.ImpressionAppended` | vmap/decoder.go:264-278 | an `Impression` child is appended to the InLine's impressions |
| `ElementFacts.AdSystemSet` | vmap/decoder.go:279-284 | an `AdSystem` child replaces the InLine's ad system with its text |
| `ElementFacts.AdTitleSet` | vmap/decoder.go:285-290 | an `AdTitle` child replaces the InLine's ad title with its text |
| `ElementFacts.ErrorSet` | vmap/decoder.go:301-309 | an `Error` child replaces the InLine's error element with one that holds its text |
| `ElementFacts.CreativeFailureStops` | vmap/decoder.go:258-262 | a `Creative` child that fails stops the InLine loop with its error, just after the tokens it pulled |
| `ElementFacts.InLineTruncated` | vmap/decoder.go:243-247 | an InLine without its end token and without nested Creatives or Extensions pulls every token. It returns the tokenizer's error, end of input included, and its creatives and extensions are unchanged |
| `ElementFacts.AdSkips` | vmap/decoder.go:216-239 | stray end tokens and children other than `InLine` leave the Ad loop where it was |
| `ElementFacts.InLineStored` | vmap/decoder.go:228-237 | an `InLine` child that decodes becomes the Ad's `InLine`, and the loop resumes after its end token |
| `ElementFacts.AdTruncatedInLine` | vmap/decoder.go:228-236 | when an Ad's `InLine` child is cut off, the tokenizer's error of the nested loop is passed up by the Ad loop, after every token is pulled |
| `ElementFacts.AdAppended` | vmap/decoder.go:188-197 | an `Ad` child that decodes is appended to the VAST's ads, after those already there, and the loop resumes after its end token |
| `ElementFacts.AdFailureStops` | vmap/decoder.go:192-196 | an `Ad` child that fails stops the VAST loop with its error, keeping the ads decoded before it |
| `ElementFacts.VastSkips` | vmap/decoder.go:184-198 | stray end tokens and start tokens other than `Ad` are passed over by the VAST loop |
| `ElementFacts.AdBreakSkips` | vmap/decoder.go:127-163 | the AdBreak loop passes over stray end tokens and children other than `VAST` and `Tracking` |
| `ElementFacts.CreativeSkips` | vmap/decoder.go:336-456 | the Creative loop passes over stray end tokens and unknown children |
| `ElementFacts.SelfClosingVastChild` | vmap/decoder.go:131-135 | a self-closing `<VAST/>` child stores an empty VAST, and with the break's end token next the break is complete |
| `ElementFacts.VastChildStored` | vmap/decoder.go:136-144 | a `VAST` child that decodes is stored as the break's VAST, and the loop resumes after its end token |
| `ElementFacts.BreakTrackingAppended` | vmap/decoder.go:145-161 | a `Tracking` child of an AdBreak allocates the tracking list if it is nil. It appends the decoded event after the ones already there, and the loop goes on with the next token |
| `ElementFacts.AdBreakBadTimeOffset` | vmap/decoder.go:111-115 | a bad `timeOffset` aborts the break with the offset error before any child token is pulled |
| `ElementFacts.BreakSingleOffset` | vmap/decoder.go:111-115 | with one `timeOffset` attribute, which reads, the decoded break holds what `TimeOffset.UnmarshalText` makes of its text |
| `ElementFacts.AdBadSequence` | vmap/decoder.go:206-210 | a `sequence` that `strconv.Atoi` rejects aborts the ad with a number syntax error before any child token is pulled |
| `ElementFacts.AdOtherAttributes` | vmap/decoder.go:203-215 | attributes other than `id` and `sequence` are ignored |
| `ElementFacts.CreativeBadDuration` | vmap/decoder.go:405-417 | a `Duration` whose text does not decode aborts the creative. `Linear` is allocated, its duration is unchanged, and the error is the codec's |
| `ElementFacts.ClickThroughBeforeLinear` | vmap/decoder.go:373-374 | a `ClickThrough` before any child that allocates `Linear` is the nil dereference |
| `Documents.Stopped` | vmap/decoder.go:36-39 | a nested decoder's error is returned with the value so far, wrapped as that error. Exactly the nil dereference panics instead, with a nil-pointer panic |
| `Documents.AtEnd` | vmap/decoder.go:20-26 | at the end of the token stream, end of input returns the value, with "not found" exactly when no root was met; any other tokenizer error panics |
| `Documents.VastScan` | vmap/decoder.go:19-46 | once a "VAST" token is met, the result is never "not found"; "not found" implies a normal end of input and the value so far |
| `Documents.VastNotFoundIff` | vmap/decoder.go:43-45 | `DecodeVast` reports "no VAST token found" exactly when the input ends normally and no token is named "VAST"; the value is then the zero VAST. With no such token and a tokenizer error, it panics |
| `Documents.SelfClosingVastRoot` | vmap/decoder.go:28-32 | a document that is just `<VAST/>` decodes to the zero VAST without error, whatever its attributes |
| `Documents.ClickThroughFirstPanics` | vmap/decoder.go:373-374 | `<VAST><Ad><InLine><Creative><ClickThrough>` panics with a nil dereference |
| `Documents.VmapScan` | vmap/decoder.go:57-96 | once "VMAP" is met, never "not found"; "not found" implies a normal end of input; ad breaks are only appended; without a later "VMAP" token the root's version, vmap and name are kept. `Documents.AdBreakAppended` gives what each `AdBreak` appends |
| `Documents.RootAttributesRead` | vmap/decoder.go:65-78 | with one "VMAP" token and no "AdBreak" before it, a returned VMAP holds the last `version` and `vmap` attributes of that token, and `XMLName.Space` is the last `vmap` too |
| `Documents.VmapScanSkips` | vmap/decoder.go:65-90 | tokens named neither "VMAP" nor "AdBreak" are passed over |
| `Documents.AdBreakAppended` | vmap/decoder.go:80-89 | an `AdBreak` token whose break decodes appends that break to the document's ad breaks, after those already there, and the scan resumes after its end token |
| `Documents.AdBreakFailureStops` | vmap/decoder.go:84-88 | an `AdBreak` that fails ends `DecodeVmap` with the breaks decoded before it and the break's error, or the nil-dereference panic |
| `Documents.VmapNoRoot` | vmap/decoder.go:93-95 | without "VMAP" and "AdBreak" tokens the result is the zero VMAP with "not found", or a panic on a tokenizer error |
| `Documents.VmapRootFirst` | vmap/decoder.go:66-67 | a "VMAP" token before any "AdBreak" means the root is found |
| `Documents.RootNameNeedsAttribute` | vmap/decoder.go:66-78 | for a document that is just the root, `XMLName.Local` is "VMAP" exactly when the root has attributes |
| `Documents.AdBreakOutsideRoot` | vmap/decoder.go:80-89 | an `AdBreak` that comes before `<VMAP>` is decoded and kept, with `AdSource` and `VASTData` allocated |
| `Decoder.ReadTracking` | vmap/decoder.go:145-162 | a `Tracking` element: its `event` attribute and its text |
| `Decoder.UnmarshalExtension` | vmap/decoder.go:459-501 | computes `Elements.ExtensionElement` |
| `Decoder.ReadCreativeChild` | vmap/decoder.go:339-456 | computes `Elements.CreativeChild` |
| `Decoder.UnmarshalCreative` | vmap/decoder.go:314-457 | computes `Elements.CreativeElement` |
| `Decoder.ReadInLineLeaf` | vmap/decoder.go:264-309 | computes `Elements.InLineLeaf` |
| `Decoder.UnmarshalInLine` | vmap/decoder.go:242-312 | computes `Elements.InLineChildren` |
| `Decoder.UnmarshalAd` | vmap/decoder.go:202-240 | computes `Elements.AdElement` |
| `Decoder.UnmarshalVast` | vmap/decoder.go:167-200 | computes `Elements.VastElement` |
| `Decoder.UnmarshalAdBreak` | vmap/decoder.go:99-165 | computes `Elements.AdBreakElement` |
| `Decoder.DecodeVast` | vmap/decoder.go:12-47 | computes `Documents.VastDocument`: returns, or panics, exactly as stated there |
| `Decoder.DecodeVmap` | vmap/decoder.go:49-97 | computes `Documents.VmapDocument` |

## Left out

- The XML tokenizer is not part of this model, so input bytes are not tokenized. The decoders take the token sequence, the error the tokenizer reports after the last token, and its `IsEndElementOf`, which is left abstract. A token's name is its local name.
- `sync.Pool` token reuse (`GetToken`, `Copy`, `PutToken`) is left out. It has no effect on the decoded values.
- The second copy of the decoders, in `vmap/structure.go:53-490`, is not modelled; the model follows `vmap/decoder.go`. The `encoding/xml` struct tags, the JSON output and `VMAP/structure.go` are left out too.
- The decoders never write `VAST.Text`, `VAST.Xsi`, `VAST.NoNamespaceSchemaLocation`, `VMAP.Text` or `Linear.CustomClick`, so the records omit them. They stay at their zero values.
- `Records.TimeOffset` keeps the percentage as the integer n of "n%". Go stores the `float32` n / 100; floating point is not modelled.
- `GoDuration.ParseDuration`: fractional terms ("1.5h") and a term that starts with '.' are rejected, where Go accepts them. The clock text only produces them from odd hour or minute groups. For example, "00:.5:00" becomes "00h.5m00s", which Go reads as 30 s; the model gives the syntax error (`Codecs.FractionalMinutesRejected`). A '.' in the seconds group never produces such a term, because it is rewritten into a milliseconds term first (`Codecs.SecondsFractionReadAsMillis`).
- `Codecs.MarshalDuration`: hours, minutes and seconds come from integer division truncating toward zero. Go truncates the `float64` results of `Hours()`, `Minutes()` and `Seconds()`, which can differ only for durations near the `float64` precision limit.
- `Codecs.MarshalTimeOffset`: a percentage is printed as "n.000000%", the `%f` text of n. Go prints `float32(n)/100*100`, whose rounding is not modelled. Both texts contain a '.'.
- `Codecs.DurationRoundTrip`: covers durations of whole milliseconds in [0, MaxInt64] only. The encoder drops sub-millisecond parts, and negative durations print signed fields that the decoder does not read back.
- `ByteText.TrimSpace`: ASCII white space only. Go's `strings.TrimSpace` also trims Unicode white space.
- `Elements.AdBreakElement`: with several `timeOffset` attributes, each one is read over the offset the previous one left. The model computes that chain, but the lemmas state the offset only for none (`Elements.AdBreakElement`) or one such attribute (`ElementFacts.BreakSingleOffset`).
- `Documents.RootAttributesRead`: with several "VMAP" tokens, each one's attributes are read over the values the previous one left. The lemma states the root fields only for a single "VMAP" token.
- The top-level decoders panic on the nil `Linear` dereference and on a tokenizer error other than end of input. The model reports these as a `Panicked` outcome and does not model unwinding.

## Findings

| source | as written | input that shows it | evidently intended | confidence | as-written member | corrected member |
|---|---|---|---|---|---|---|
| vmap/structure.go:689-691 | a percentage offset is encoded with `%f`, giving "50.000000%", but `UnmarshalText` reads the part before '%' with `strconv.ParseInt(…, 10, 8)`, which rejects the '.' | `TimeOffset{Percent: 0.5}` (p = 50) encodes to "50.000000%", which decodes to a percentage syntax error | encode the percentage as the integer the decoder reads, "50%", so that encoding then decoding gives back the offset | not executed | `Codecs.PercentTextRejected` | `Codecs.PercentRoundTrip` |

=== FILE: attributes.dfy ===
/**
 * The attribute loop every decoder runs over a start token: the attributes
 * in document order, each handed to the `switch` on its name, stopping at
 * the first one whose handling fails. The switch of each element is a
 * `step` function; the loop itself is written once here.
 */
module Attributes {
  import opened ByteText
  import opened Tokens
  import opened Failures

  /** The value after handling `attrs` in order from `x`, stopping at the first failure. */
  function FoldAttrs<T>(attrs: seq<Attr>, x: T, step: (T, Attr) -> Step<T>): Step<T>
    decreases |attrs|
  {
    if attrs == [] then Step(x, None)
    else
      var s := step(x, attrs[0]);
      if s.failure.Some? then s else FoldAttrs(attrs[1..], s.value, step)
  }

  /** `for i := range se.Attrs { switch ... }`, returning at the first error. */
  method ReadAttrs<T>(attrs: seq<Attr>, x: T, step: (T, Attr) -> Step<T>) returns (r: Step<T>)
    ensures r == FoldAttrs(attrs, x, step)
  {
    var value := x;
    var k := 0;
    while k < |attrs|
      invariant 0 <= k <= |attrs|
      invariant FoldAttrs(attrs[k..], value, step) == FoldAttrs(attrs, x, step)
    {
      assert attrs[k..][0] == attrs[k] && attrs[k..][1..] == attrs[k + 1..];
      var s := step(value, attrs[k]);
      if s.failure.Some? {
        return s;
      }
      value := s.value;
      k := k + 1;
    }
    assert attrs[k..] == [];
    r := Step(value, None);
  }

  /** An attribute whose handling fails whatever the value so far makes the whole loop fail. */
  lemma {:induction false} FoldFails<T>(attrs: seq<Attr>, x: T, step: (T, Attr) -> Step<T>, k: nat)
    requires k < |attrs|
    requires forall y: T :: step(y, attrs[k]).failure.Some?
    ensures FoldAttrs(attrs, x, step).failure.Some?
    decreases k
  {
    var s := step(x, attrs[0]);
    if s.failure.None? {
      assert attrs[1..][k - 1] == attrs[k];
      FoldFails(attrs[1..], s.value, step, k - 1);
    }
  }

  /** The loop fails only with failures that some single attribute can cause. */
  lemma {:induction false} FoldFailureKinds<T>(attrs: seq<Attr>, x: T, step: (T, Attr) -> Step<T>, kinds: set<Failure>)
    requires forall y: T, a: Attr :: step(y, a).failure.Some? ==> step(y, a).failure.value in kinds
    ensures FoldAttrs(attrs, x, step).failure.Some? ==> FoldAttrs(attrs, x, step).failure.value in kinds
    decreases |attrs|
  {
    if attrs != [] {
      var s := step(x, attrs[0]);
      if s.failure.None? {
        FoldFailureKinds(attrs[1..], s.value, step, kinds);
      }
    }
  }

  /** A part of the value that no attribute changes is the same after the loop. */
  lemma {:induction false} FoldKeeps<T, U>(attrs: seq<Attr>, x: T, step: (T, Attr) -> Step<T>, part: T -> U)
    requires forall y: T, a: Attr :: part(step(y, a).value) == part(y)
    ensures part(FoldAttrs(attrs, x, step).value) == part(x)
    decreases |attrs|
  {
    if attrs != [] {
      var s := step(x, attrs[0]);
      if s.failure.None? {
        FoldKeeps(attrs[1..], s.value, step, part);
      }
    }
  }

  /** Attributes that each leave the value as it is and do not fail leave the loop without effect. */
  lemma {:induction false} FoldIdle<T>(attrs: seq<Attr>, x: T, step: (T, Attr) -> Step<T>)
    requires forall k | 0 <= k < |attrs| :: step(x, attrs[k]) == Step(x, None)
    ensures FoldAttrs(attrs, x, step) == Step(x, None)
    decreases |attrs|
  {
    if attrs != [] {
      assert step(x, attrs[0]) == Step(x, None);
      assert forall k | 0 <= k < |attrs[1..]| :: attrs[1..][k] == attrs[k + 1];
      FoldIdle(attrs[1..], x, step);
    }
  }

  /* ---------- what a known attribute stores ---------- */

  /** The last attribute of `attrs` named `name`, if there is one. */
  function LastNamed(attrs: seq<Attr>, name: string): (r: Option<Attr>)
    ensures r.None? <==> forall k | 0 <= k < |attrs| :: attrs[k].name != name
    ensures r.Some? ==> r.value in attrs && r.value.name == name
  {
    if attrs == [] then None
    else if attrs[|attrs| - 1].name == name then Some(attrs[|attrs| - 1])
    else LastNamed(attrs[..|attrs| - 1], name)
  }

  /** The attribute at `k` is the last one named `name` when none after it has that name. */
  lemma {:induction false} LastNamedAt(attrs: seq<Attr>, name: string, k: nat)
    requires k < |attrs| && attrs[k].name == name
    requires forall m | k < m < |attrs| :: attrs[m].name != name
    ensures LastNamed(attrs, name) == Some(attrs[k])
    decreases |attrs|
  {
    if k < |attrs| - 1 {
      LastNamedAt(attrs[..|attrs| - 1], name, k);
    }
  }

  /** The value of the last attribute named `name`, or `absent` when there is none. */
  function LastValue(attrs: seq<Attr>, name: string, absent: Bytes): Bytes
  {
    match LastNamed(attrs, name)
    case Some(a) => a.value
    case None => absent
  }

  /** The integer `strconv.Atoi` reads from an attribute's value, 0 when it reads none. */
  function NumberOf(a: Attr): int
  {
    match Atoi(a.value)
    case Some(n) => n
    case None => 0
  }

  /** The integer of the last attribute named `name`, or `absent` when there is none. */
  function LastNumber(attrs: seq<Attr>, name: string, absent: int): int
  {
    match LastNamed(attrs, name)
    case Some(a) => NumberOf(a)
    case None => absent
  }

  /** Handling one more attribute after the loop is handling it as the loop's last. */
  lemma {:induction false} FoldSnoc<T>(attrs: seq<Attr>, a: Attr, x: T, step: (T, Attr) -> Step<T>)
    ensures FoldAttrs(attrs + [a], x, step) ==
      var s := FoldAttrs(attrs, x, step);
      if s.failure.Some? then s else step(s.value, a)
    decreases |attrs|
  {
    if attrs == [] {
      assert [] + [a] == [a] && [a][1..] == [];
    } else {
      assert (attrs + [a])[0] == attrs[0] && (attrs + [a])[1..] == attrs[1..] + [a];
      var s := step(x, attrs[0]);
      if s.failure.None? {
        FoldSnoc(attrs[1..], a, s.value, step);
      }
    }
  }

  /** Attributes that all leave the value as it is and do not fail leave the loop without failure. */
  lemma {:induction false} FoldSucceeds<T>(attrs: seq<Attr>, x: T, step: (T, Attr) -> Step<T>)
    requires forall k, y: T | 0 <= k < |attrs| :: step(y, attrs[k]).failure.None?
    ensures FoldAttrs(attrs, x, step).failure.None?
    decreases |attrs|
  {
    if attrs != [] {
      assert forall k | 0 <= k < |attrs[1..]| :: attrs[1..][k] == attrs[k + 1];
      FoldSucceeds(attrs[1..], step(x, attrs[0]).value, step);
    }
  }

  /** Attributes none of which is named `name` keep a `part` that only that name touches. */
  lemma {:induction false} FoldKeepsUnnamed<T, U>(attrs: seq<Attr>, x: T, step: (T, Attr) -> Step<T>, name: string, part: T -> U)
    requires forall k | 0 <= k < |attrs| :: attrs[k].name != name
    requires forall y: T, a: Attr :: a.name != name && step(y, a).failure.None? ==> part(step(y, a).value) == part(y)
    ensures FoldAttrs(attrs, x, step).failure.None? ==> part(FoldAttrs(attrs, x, step).value) == part(x)
    decreases |attrs|
  {
    if attrs != [] {
      var s := step(x, attrs[0]);
      if s.failure.None? {
        assert forall k | 0 <= k < |attrs[1..]| :: attrs[1..][k] == attrs[k + 1];
        FoldKeepsUnnamed(attrs[1..], s.value, step, name, part);
      }
    }
  }

  /**
   * When an attribute named `name` sets `part` of the value to `get` of
   * itself and no other attribute touches `part`, a loop that succeeds
   * leaves there what the last such attribute set, or what `part` held
   * before when there is none: the last attribute of a name wins.
   */
  lemma {:induction false} FoldLastWins<T, U>(attrs: seq<Attr>, x: T, step: (T, Attr) -> Step<T>,
                                             name: string, part: T -> U, get: Attr -> U)
    requires forall y: T, a: Attr :: a.name != name && step(y, a).failure.None? ==> part(step(y, a).value) == part(y)
    requires forall y: T, a: Attr :: a.name == name && step(y, a).failure.None? ==> part(step(y, a).value) == get(a)
    ensures FoldAttrs(attrs, x, step).failure.None? ==>
      part(FoldAttrs(attrs, x, step).value) == match LastNamed(attrs, name) case Some(a) => get(a) case None => part(x)
    decreases |attrs|
  {
    if attrs != [] {
      var init, a := attrs[..|attrs| - 1], attrs[|attrs| - 1];
      assert attrs == init + [a];
      FoldSnoc(init, a, x, step);
      FoldLastWins(init, x, step, name, part, get);
    }
  }

  /**
   * When an attribute named `name` updates `part` by `upd` and only the
   * attribute at `k` has that name, a loop that succeeds leaves there what
   * `upd` makes of the part's first value and that attribute.
   */
  lemma {:induction false} FoldOnlyNamed<T, U>(attrs: seq<Attr>, x: T, step: (T, Attr) -> Step<T>,
                                              name: string, part: T -> U, upd: (U, Attr) -> U, k: nat)
    requires k < |attrs| && attrs[k].name == name
    requires forall m | 0 <= m < |attrs| && m != k :: attrs[m].name != name
    requires forall y: T, a: Attr :: a.name != name && step(y, a).failure.None? ==> part(step(y, a).value) == part(y)
    requires forall y: T, a: Attr :: a.name == name && step(y, a).failure.None? ==> part(step(y, a).value) == upd(part(y), a)
    ensures FoldAttrs(attrs, x, step).failure.None? ==> part(FoldAttrs(attrs, x, step).value) == upd(part(x), attrs[k])
    decreases |attrs|
  {
    var init, a := attrs[..|attrs| - 1], attrs[|attrs| - 1];
    assert attrs == init + [a];
    FoldSnoc(init, a, x, step);
    if k == |attrs| - 1 {
      FoldKeepsUnnamed(init, x, step, name, part);
    } else {
      FoldOnlyNamed(init, x, step, name, part, upd, k);
    }
  }
}

=== FILE: bytes.dfy ===
/**
 * Byte strings and the small pieces of Go's `strings`, `strconv` and `fmt`
 * packages that the decoder and the text codecs rely on: decimal parsing
 * (`strconv.Atoi`, `strconv.ParseInt(s, 10, bits)`), decimal printing
 * (`%d`, `%02d`, `%03d`), `strings.Split` on one separator byte and
 * `strings.TrimSpace` on ASCII white space.
 */
module ByteText {

  /** A Go `byte`. Go strings are byte strings, so text is `seq<byte>`. */
  newtype byte = x: int | 0 <= x < 256
  type Bytes = seq<byte>

  datatype Option<+T> = None | Some(value: T)

  const MaxInt64: int := 0x7FFF_FFFF_FFFF_FFFF
  const MinInt64: int := -0x8000_0000_0000_0000

  const ZERO: byte := 0x30
  const PLUS: byte := 0x2B
  const MINUS: byte := 0x2D
  const HASH: byte := 0x23     // '#'
  const DOT: byte := 0x2E      // '.'
  const COLON: byte := 0x3A    // ':'
  const PERCENT: byte := 0x25  // '%'

  predicate IsDigit(b: byte) { 0x30 <= b <= 0x39 }

  predicate AllDigits(s: Bytes) { forall i | 0 <= i < |s| :: IsDigit(s[i]) }

  /** Value of a run of decimal digits, most significant first. */
  function DecimalValue(s: Bytes): nat
    requires AllDigits(s)
  {
    if s == [] then 0 else DecimalValue(s[..|s| - 1]) * 10 + (s[|s| - 1] - ZERO) as int
  }

  /** Shortest decimal text of `n` (what `%d` prints for a non-negative value). */
  function DecimalDigits(n: nat): (s: Bytes)
    ensures 1 <= |s| && AllDigits(s)
    ensures n < 10 <==> |s| == 1
  {
    if n < 10 then [ZERO + n as byte] else DecimalDigits(n / 10) + [ZERO + (n % 10) as byte]
  }

  function Zeros(k: nat): (s: Bytes)
    ensures |s| == k && AllDigits(s)
    ensures forall i | 0 <= i < k :: s[i] == ZERO
  {
    if k == 0 then [] else [ZERO] + Zeros(k - 1)
  }

  /** `s` left-padded with '0' to at least `w` bytes. */
  function ZeroPad(s: Bytes, w: nat): (r: Bytes)
    ensures |r| == if |s| >= w then |s| else w
  {
    if |s| >= w then s else Zeros(w - |s|) + s
  }

  /** What Go's `fmt.Sprintf("%0<w>d", n)` prints: the sign counts towards the width. */
  function PadInt(n: int, w: nat): (r: Bytes)
    ensures n >= 0 ==> r == ZeroPad(DecimalDigits(n), w)
    ensures n < 0 ==> r == [MINUS] + ZeroPad(DecimalDigits(-n), if w > 0 then w - 1 else 0)
  {
    if n >= 0 then ZeroPad(DecimalDigits(n), w)
    else [MINUS] + ZeroPad(DecimalDigits(-n), if w > 0 then w - 1 else 0)
  }

  /** What Go's `%d` prints. */
  function FormatInt(n: int): Bytes
  {
    PadInt(n, 0)
  }

  /**
   * `strconv.ParseInt(s, 10, bits)` without the range check: an optional
   * sign followed by at least one decimal digit. Anything else is a syntax
   * error (`None`).
   */
  function ParseSignedDecimal(s: Bytes): (r: Option<int>)
    ensures r.Some? <==>
      (exists k | 0 <= k <= 1 :: k < |s| && (k == 1 ==> s[0] == PLUS || s[0] == MINUS) && AllDigits(s[k..]))
  {
    if s == [] then None
    else if s[0] == PLUS || s[0] == MINUS then
      var body := s[1..];
      if body != [] && AllDigits(body) then
        Some(if s[0] == MINUS then 0 - DecimalValue(body) else DecimalValue(body))
      else
        assert !AllDigits(s[0..]) by { assert !IsDigit(s[0..][0]); }
        None
    else if AllDigits(s) then
      assert s[0..] == s;
      Some(DecimalValue(s))
    else
      assert !AllDigits(s[1..]) || !(s[0] == PLUS || s[0] == MINUS);
      None
  }

  /** `strconv.ParseInt(s, 10, 8)`: a signed decimal in [-128, 127]. */
  function ParseInt8(s: Bytes): (r: Option<int>)
    ensures r.Some? ==> -128 <= r.value <= 127
    ensures r.Some? <==> ParseSignedDecimal(s).Some? && -128 <= ParseSignedDecimal(s).value <= 127
  {
    match ParseSignedDecimal(s)
    case Some(v) => if -128 <= v <= 127 then Some(v) else None
    case None => None
  }

  /** `strconv.Atoi` on a 64-bit platform: a signed decimal in the `int64` range. */
  function Atoi(s: Bytes): (r: Option<int>)
    ensures r.Some? ==> MinInt64 <= r.value <= MaxInt64
    ensures r.Some? <==> ParseSignedDecimal(s).Some? && MinInt64 <= ParseSignedDecimal(s).value <= MaxInt64
  {
    match ParseSignedDecimal(s)
    case Some(v) => if MinInt64 <= v <= MaxInt64 then Some(v) else None
    case None => None
  }

  lemma DecimalValueSnoc(s: Bytes, d: byte)
    requires AllDigits(s) && IsDigit(d)
    ensures AllDigits(s + [d])
    ensures DecimalValue(s + [d]) == DecimalValue(s) * 10 + (d - ZERO) as int
  {
    assert (s + [d])[..|s + [d]| - 1] == s;
  }

  /** Leading zeros do not change a decimal value. */
  lemma {:induction false} DecimalValueZeros(k: nat, s: Bytes)
    requires AllDigits(s)
    ensures AllDigits(Zeros(k) + s)
    ensures DecimalValue(Zeros(k) + s) == DecimalValue(s)
  {
    if s == [] {
      assert Zeros(k) + s == Zeros(k);
      ZerosValue(k);
    } else {
      var init, last := s[..|s| - 1], s[|s| - 1];
      assert s == init + [last];
      DecimalValueZeros(k, init);
      assert Zeros(k) + s == (Zeros(k) + init) + [last];
      DecimalValueSnoc(Zeros(k) + init, last);
    }
  }

  lemma {:induction false} ZerosValue(k: nat)
    ensures DecimalValue(Zeros(k)) == 0
  {
    if k > 0 {
      ZerosValue(k - 1);
      assert Zeros(k) == Zeros(k - 1) + [ZERO];  // both are k zeros
      DecimalValueSnoc(Zeros(k - 1), ZERO);
    }
  }

  /** Reading back what `DecimalDigits` prints gives the number. */
  lemma {:induction false} DecimalDigitsValue(n: nat)
    ensures DecimalValue(DecimalDigits(n)) == n
  {
    if n >= 10 {
      DecimalDigitsValue(n / 10);
      DecimalValueSnoc(DecimalDigits(n / 10), ZERO + (n % 10) as byte);
    }
  }

  /** Reading back what `%0<w>d` prints for a non-negative value gives the value. */
  lemma PaddedDecimalValue(n: nat, w: nat)
    ensures AllDigits(ZeroPad(DecimalDigits(n), w))
    ensures DecimalValue(ZeroPad(DecimalDigits(n), w)) == n
  {
    DecimalDigitsValue(n);
    var s := DecimalDigits(n);
    if |s| < w { DecimalValueZeros(w - |s|, s); }
  }

  /** `%d` followed by `ParseInt`/`Atoi` is the identity. */
  lemma FormatIntParses(n: int)
    ensures ParseSignedDecimal(FormatInt(n)) == Some(n)
  {
    if n >= 0 {
      PaddedDecimalValue(n, 0);
      assert FormatInt(n) == DecimalDigits(n);
      assert FormatInt(n)[0] != PLUS && FormatInt(n)[0] != MINUS by { assert IsDigit(FormatInt(n)[0]); }
    } else {
      PaddedDecimalValue(-n, 0);
      assert FormatInt(n) == [MINUS] + DecimalDigits(-n);
      assert FormatInt(n)[1..] == DecimalDigits(-n);
    }
  }

  /** `%0<w>d` of a non-negative value: at least `w` digits, worth the value. */
  lemma PadIntDigits(n: nat, w: nat)
    ensures |PadInt(n, w)| >= w && PadInt(n, w) != []
    ensures AllDigits(PadInt(n, w)) && DecimalValue(PadInt(n, w)) == n
  {
    PaddedDecimalValue(n, w);
  }

  /** `%d` ends with a digit, and starts with one for a non-negative value. */
  lemma FormatIntEnds(n: int)
    ensures FormatInt(n) != [] && IsDigit(FormatInt(n)[|FormatInt(n)| - 1])
    ensures n >= 0 ==> IsDigit(FormatInt(n)[0])
  {
    if n >= 0 {
      PadIntDigits(n, 0);
    } else {
      var digits := ZeroPad(DecimalDigits(-n), 0);
      PaddedDecimalValue(-n, 0);
      assert FormatInt(n) == [MINUS] + digits;
    }
  }

  /** Number of occurrences of `b` in `s`. */
  function Count(s: Bytes, b: byte): nat
  {
    if s == [] then 0 else (if s[0] == b then 1 else 0) + Count(s[1..], b)
  }

  /** Go's `strings.Split(s, sep)` for a one-byte separator: n separators give n+1 parts. */
  function Split(s: Bytes, sep: byte): (parts: seq<Bytes>)
    ensures |parts| == 1 + Count(s, sep)
  {
    if s == [] then [[]]
    else
      var rest := Split(s[1..], sep);
      if s[0] == sep then [[]] + rest
      else [[s[0]] + rest[0]] + rest[1..]
  }

  /** A text without the separator is one part. */
  lemma {:induction false} SplitNoSeparator(s: Bytes, sep: byte)
    requires forall i | 0 <= i < |s| :: s[i] != sep
    ensures Split(s, sep) == [s]
  {
    if s != [] {
      SplitNoSeparator(s[1..], sep);
      assert [s[0]] + s[1..] == s;
    }
  }

  /** Splitting `a + [sep] + b` where `a` has no separator: `a` first, then the parts of `b`. */
  lemma {:induction false} SplitAfterPart(a: Bytes, sep: byte, b: Bytes)
    requires forall i | 0 <= i < |a| :: a[i] != sep
    ensures Split(a + [sep] + b, sep) == [a] + Split(b, sep)
  {
    if a == [] {
      assert a + [sep] + b == [sep] + b;
      assert ([sep] + b)[1..] == b;
    } else {
      SplitAfterPart(a[1..], sep, b);
      assert (a + [sep] + b)[1..] == a[1..] + [sep] + b;
      assert [a[0]] + a[1..] == a;
    }
  }

  /** ASCII white space as `strings.TrimSpace` sees it: '\t', '\n', '\v', '\f', '\r', ' '. */
  predicate IsSpace(b: byte) { b == 0x20 || 0x09 <= b <= 0x0D }

  /** Index of the first byte at or after `i` that is not white space, or `|s|`. */
  function FirstNonSpace(s: Bytes, i: nat): (k: nat)
    requires i <= |s|
    ensures i <= k <= |s|
    decreases |s| - i
  {
    if i == |s| || !IsSpace(s[i]) then i else FirstNonSpace(s, i + 1)
  }

  /** One past the last byte in `s[lo..j]` that is not white space, or `lo`. */
  function EndNonSpace(s: Bytes, lo: nat, j: nat): (k: nat)
    requires lo <= j <= |s|
    ensures lo <= k <= j
    decreases j - lo
  {
    if j == lo || !IsSpace(s[j - 1]) then j else EndNonSpace(s, lo, j - 1)
  }

  lemma {:induction false} FirstNonSpaceIs(s: Bytes, i: nat)
    requires i <= |s|
    ensures forall k | i <= k < FirstNonSpace(s, i) :: IsSpace(s[k])
    ensures FirstNonSpace(s, i) < |s| ==> !IsSpace(s[FirstNonSpace(s, i)])
    decreases |s| - i
  {
    if i < |s| && IsSpace(s[i]) {
      FirstNonSpaceIs(s, i + 1);
    }
  }

  lemma {:induction false} EndNonSpaceIs(s: Bytes, lo: nat, j: nat)
    requires lo <= j <= |s|
    ensures forall k | EndNonSpace(s, lo, j) <= k < j :: IsSpace(s[k])
    ensures EndNonSpace(s, lo, j) > lo ==> !IsSpace(s[EndNonSpace(s, lo, j) - 1])
    decreases j - lo
  {
    if j > lo && IsSpace(s[j - 1]) {
      EndNonSpaceIs(s, lo, j - 1);
    }
  }

  /** `strings.TrimSpace` restricted to ASCII white space. */
  function TrimSpace(s: Bytes): Bytes
  {
    var i := FirstNonSpace(s, 0);
    s[i..EndNonSpace(s, i, |s|)]
  }

  /**
   * `TrimSpace` cuts the white space off both ends and nothing else: what it
   * keeps starts and ends with a byte that is not white space, and everything
   * it cuts is white space.
   */
  lemma TrimSpaceCuts(s: Bytes)
    ensures var i := FirstNonSpace(s, 0); var j := EndNonSpace(s, i, |s|);
      TrimSpace(s) == s[i..j] &&
      (i < j ==> !IsSpace(s[i]) && !IsSpace(s[j - 1])) &&
      (forall k | 0 <= k < i :: IsSpace(s[k])) && (forall k | j <= k < |s| :: IsSpace(s[k]))
  {
    var i := FirstNonSpace(s, 0);
    FirstNonSpaceIs(s, 0);
    EndNonSpaceIs(s, i, |s|);
  }

  /** A text that starts and ends with a non-space byte is left alone. */
  lemma TrimSpaceUnchanged(s: Bytes)
    requires s != [] && !IsSpace(s[0]) && !IsSpace(s[|s| - 1])
    ensures TrimSpace(s) == s
  {
    assert FirstNonSpace(s, 0) == 0;
    assert EndNonSpace(s, 0, |s|) == |s|;
  }

  lemma {:induction false} FirstNonSpaceAt(s: Bytes, i: nat, k: nat)
    requires i <= k < |s| && !IsSpace(s[k])
    requires forall m | i <= m < k :: IsSpace(s[m])
    ensures FirstNonSpace(s, i) == k
    decreases k - i
  {
    if i < k {
      FirstNonSpaceAt(s, i + 1, k);
    }
  }

  lemma {:induction false} EndNonSpaceAt(s: Bytes, lo: nat, j: nat, k: nat)
    requires lo < k <= j <= |s| && !IsSpace(s[k - 1])
    requires forall m | k <= m < j :: IsSpace(s[m])
    ensures EndNonSpace(s, lo, j) == k
    decreases j - k
  {
    if k < j {
      EndNonSpaceAt(s, lo, j - 1, k);
    }
  }

  /** White space around a text that starts and ends with other bytes is cut, and only that. */
  lemma TrimSpaceSurrounded(before: Bytes, text: Bytes, after: Bytes)
    requires forall m | 0 <= m < |before| :: IsSpace(before[m])
    requires forall m | 0 <= m < |after| :: IsSpace(after[m])
    requires text != [] && !IsSpace(text[0]) && !IsSpace(text[|text| - 1])
    ensures TrimSpace(before + text + after) == text
  {
    var s := before + text + after;
    FirstNonSpaceAt(s, 0, |before|);
    EndNonSpaceAt(s, |before|, |s|, |before| + |text|);
    assert s[|before|..|before| + |text|] == text;
  }

  predicate HasSuffix(s: Bytes, b: byte) { s != [] && s[|s| - 1] == b }
  predicate HasPrefix(s: Bytes, b: byte) { s != [] && s[0] == b }
}

=== FILE: codecs.dfy ===
/**
 * The text forms of `Duration` and `TimeOffset`, the two attribute types of
 * VMAP and VAST that are not plain strings or integers.
 *
 * A VAST duration is a clock text "HH:MM:SS" or "HH:MM:SS.mmm". The decoder
 * rewrites it into a Go duration text ("HHhMMmSSs", "HHhMMmSSsmmmms") and
 * hands that to `time.ParseDuration`. A VMAP time offset is "start", "end",
 * a percentage "n%", a position "#n" or such a clock text.
 *
 * Durations are integer nanoseconds, as Go's `time.Duration`.
 */
module Codecs {
  import opened ByteText
  import opened GoDuration

  datatype TextError =
    | InvalidDurationFormat  // the clock text does not have three groups
    | DurationSyntax         // `time.ParseDuration` rejected the rewritten text
    | PercentSyntax          // "n%" where n is not an 8-bit decimal
    | PositionSyntax         // "#n" where n is not an 8-bit decimal

  datatype Result<T> = Ok(value: T) | Err(error: TextError)

  /* ---------- Duration ---------- */

  /**
   * The part of the Go duration text that `Duration.UnmarshalText` builds
   * from the seconds group: the group followed by "s" or, when it holds a
   * '.', the part before the first '.' followed by "s" and the part after it
   * followed by "ms" (any further '.'-separated part is dropped).
   */
  function SecondsText(seconds: Bytes): Bytes
  {
    if Count(seconds, DOT) > 0 then
      var parts := Split(seconds, DOT);
      parts[0] + SecondUnit + (parts[1] + MilliUnit)
    else seconds + SecondUnit
  }

  /** The whole text handed to `time.ParseDuration`: "<h>h<m>m" and the seconds part. */
  function DurationText(hours: Bytes, minutes: Bytes, seconds: Bytes): Bytes
  {
    hours + HourUnit + (minutes + MinuteUnit + SecondsText(seconds))
  }

  /** `Duration.UnmarshalText`. */
  function UnmarshalDuration(data: Bytes): (r: Result<int>)
    ensures r.Ok? ==> MinInt64 <= r.value <= MaxInt64
    ensures TrimSpace(data) == [] ==> r == Ok(0)
    ensures TrimSpace(data) != [] && Count(TrimSpace(data), COLON) != 2 ==> r == Err(InvalidDurationFormat)
  {
    var s := TrimSpace(data);
    if s == [] then Ok(0)
    else
      var parts := Split(s, COLON);
      if |parts| != 3 then Err(InvalidDurationFormat)
      else match ParseDuration(DurationText(parts[0], parts[1], parts[2]))
        case None => Err(DurationSyntax)
        case Some(d) => Ok(d)
  }

  /** Go's integer division, which truncates toward zero. */
  function TDiv(a: int, b: nat): int
    requires b > 0
  {
    if a >= 0 then a / b else 0 - (0 - a) / b
  }

  /** Go's `%`, whose result has the sign of the dividend. */
  function TRem(a: int, b: nat): int
    requires b > 0
  {
    a - b * TDiv(a, b)
  }

  const ZeroClock: Bytes := [ZERO, ZERO] + [COLON] + ([ZERO, ZERO] + [COLON] + [ZERO, ZERO])  // "00:00:00"

  /**
   * `Duration.MarshalText`: "00:00:00" for zero, otherwise "%02d:%02d:%02d"
   * of the whole hours, the minutes and the seconds, followed by ".%03d" of
   * the milliseconds only when that count is positive.
   */
  function MarshalDuration(d: int): (text: Bytes)
    ensures |text| >= 8
    ensures d == 0 ==> text == ZeroClock
    ensures d >= 0 ==> IsDigit(text[0]) && IsDigit(text[|text| - 1])
  {
    if d == 0 then ZeroClock
    else
      var hours := TDiv(d, Hour);
      var minutes := TRem(TDiv(d, Minute), 60);
      var seconds := TRem(TDiv(d, Second), 60);
      var millis := TRem(TDiv(d, Millisecond), 1000);
      var secondsField := if millis > 0 then PadInt(seconds, 2) + [DOT] + PadInt(millis, 3) else PadInt(seconds, 2);
      assert |PadInt(hours, 2)| >= 2 && |PadInt(minutes, 2)| >= 2 && |secondsField| >= 2;
      assert d >= 0 ==> IsDigit(PadInt(hours, 2)[0]) && IsDigit(secondsField[|secondsField| - 1]) by {
        if d >= 0 {
          PadIntDigits(hours, 2);
          PadIntDigits(seconds, 2);
          if millis > 0 {
            PadIntDigits(millis, 3);
          }
        }
      }
      PadInt(hours, 2) + [COLON] + (PadInt(minutes, 2) + [COLON] + secondsField)
  }

  /** Two digits: their value. */
  lemma TwoDigits(a: byte, b: byte)
    requires IsDigit(a) && IsDigit(b)
    ensures AllDigits([a, b]) && DecimalValue([a, b]) == (a - ZERO) as int * 10 + (b - ZERO) as int
  {
    DecimalValueSnoc([], a);
    assert [] + [a] == [a];
    DecimalValueSnoc([a], b);
    assert [a] + [b] == [a, b];
  }

  /** Three digits: their value. */
  lemma ThreeDigits(a: byte, b: byte, c: byte)
    requires IsDigit(a) && IsDigit(b) && IsDigit(c)
    ensures AllDigits([a, b, c])
    ensures DecimalValue([a, b, c]) == (a - ZERO) as int * 100 + (b - ZERO) as int * 10 + (c - ZERO) as int
  {
    TwoDigits(a, b);
    DecimalValueSnoc([a, b], c);
    assert [a, b] + [c] == [a, b, c];
  }

  /** Nothing in a run of digits is a separator, white space or part of a unit name. */
  lemma DigitsAreNotSeparators(g: Bytes)
    requires AllDigits(g)
    ensures forall m | 0 <= m < |g| :: g[m] != COLON && g[m] != DOT && !IsSpace(g[m]) && !IsUnitByte(g[m])
  {
  }

  /** A clock text "H:M:X" with digit groups H and M is not trimmed and splits into its three groups. */
  lemma ClockGroups(h: Bytes, m: Bytes, third: Bytes)
    requires h != [] && m != [] && third != [] && AllDigits(h) && AllDigits(m)
    requires forall k | 0 <= k < |third| :: third[k] != COLON
    requires !IsSpace(third[|third| - 1])
    ensures TrimSpace(h + [COLON] + (m + [COLON] + third)) == h + [COLON] + (m + [COLON] + third)
    ensures Split(h + [COLON] + (m + [COLON] + third), COLON) == [h, m, third]
  {
    var rest := m + [COLON] + third;
    var text := h + [COLON] + rest;
    DigitsAreNotSeparators(h);
    DigitsAreNotSeparators(m);
    assert text[0] == h[0] && text[|text| - 1] == third[|third| - 1];
    TrimSpaceUnchanged(text);
    SplitAfterPart(h, COLON, rest);
    SplitAfterPart(m, COLON, third);
    SplitNoSeparator(third, COLON);
  }

  /** The hours and minutes terms of the duration text, followed by `rest`. */
  lemma ClockTerms(h: Bytes, m: Bytes, rest: Bytes, v1: nat, v2: nat)
    requires h != [] && m != [] && AllDigits(h) && AllDigits(m)
    requires rest != [] && IsDigit(rest[0])
    requires v1 == DecimalValue(h) * Hour && v2 == v1 + DecimalValue(m) * Minute && v2 <= MaxInt64
    ensures Terms(h + HourUnit + (m + MinuteUnit + rest), 0) == Terms(rest, v2)
  {
    TermThenRest(h, HourUnit, Hour, m + MinuteUnit + rest, 0, v1);
    TermThenRest(m, MinuteUnit, Minute, rest, v1, v2);
  }

  /** `time.ParseDuration` of a text that starts with a digit: the sum of its terms, if it fits. */
  lemma ParseUnsigned(s: Bytes)
    requires |s| > 1 && IsDigit(s[0])
    ensures ParseDuration(s) == match Terms(s, 0)
      case None => None
      case Some(d) => if d > MaxInt64 then None else Some(d)
  {
  }

  /** A clock text that splits into three groups decodes to what its duration text sums to. */
  lemma ClockDecodes(h: Bytes, m: Bytes, third: Bytes, v: nat)
    requires h != [] && IsDigit(h[0])
    requires var text := h + [COLON] + (m + [COLON] + third);
      TrimSpace(text) == text && Split(text, COLON) == [h, m, third]
    requires Terms(DurationText(h, m, third), 0) == Some(v) && v <= MaxInt64
    ensures UnmarshalDuration(h + [COLON] + (m + [COLON] + third)) == Ok(v)
  {
    var text := h + [COLON] + (m + [COLON] + third);
    assert text[0] == h[0];
    ParseUnsigned(DurationText(h, m, third));
  }

  /** "H:M:S" splits into its three groups, and the seconds text is "<S>s". */
  lemma SecondsGroups(h: Bytes, m: Bytes, sec: Bytes)
    requires h != [] && m != [] && sec != [] && AllDigits(h) && AllDigits(m) && AllDigits(sec)
    ensures var text := h + [COLON] + (m + [COLON] + sec);
      TrimSpace(text) == text && Split(text, COLON) == [h, m, sec]
    ensures SecondsText(sec) == sec + SecondUnit
  {
    DigitsAreNotSeparators(sec);
    ClockGroups(h, m, sec);
    SplitNoSeparator(sec, DOT);
  }

  /** The terms "<H>h<M>m<S>s" add up to H hours, M minutes and S seconds. */
  lemma SecondsTerms(h: Bytes, m: Bytes, sec: Bytes, v: nat)
    requires h != [] && m != [] && sec != [] && AllDigits(h) && AllDigits(m) && AllDigits(sec)
    requires v == DecimalValue(h) * Hour + DecimalValue(m) * Minute + DecimalValue(sec) * Second
    requires v <= MaxInt64
    ensures Terms(h + HourUnit + (m + MinuteUnit + (sec + SecondUnit)), 0) == Some(v)
  {
    var v1 := DecimalValue(h) * Hour;
    var v2 := v1 + DecimalValue(m) * Minute;
    ClockTerms(h, m, sec + SecondUnit, v1, v2);
    LastTerm(sec, SecondUnit, Second, v2, v);
  }

  /** "H:M:S" of digit groups is worth H hours, M minutes and S seconds. */
  lemma ClockValue(h: Bytes, m: Bytes, sec: Bytes, v: nat)
    requires h != [] && m != [] && sec != [] && AllDigits(h) && AllDigits(m) && AllDigits(sec)
    requires v == DecimalValue(h) * Hour + DecimalValue(m) * Minute + DecimalValue(sec) * Second
    requires v <= MaxInt64
    ensures UnmarshalDuration(h + [COLON] + (m + [COLON] + sec)) == Ok(v)
  {
    SecondsGroups(h, m, sec);
    SecondsTerms(h, m, sec, v);
    ClockDecodes(h, m, sec, v);
  }

  /** "H:M:S.F" splits into H, M and "S.F", whose seconds text is "<S>s<F>ms". */
  lemma MillisGroups(h: Bytes, m: Bytes, sec: Bytes, f: Bytes)
    requires h != [] && m != [] && sec != [] && f != []
    requires AllDigits(h) && AllDigits(m) && AllDigits(sec) && AllDigits(f)
    ensures var text := h + [COLON] + (m + [COLON] + (sec + [DOT] + f));
      TrimSpace(text) == text && Split(text, COLON) == [h, m, sec + [DOT] + f]
    ensures SecondsText(sec + [DOT] + f) == sec + SecondUnit + (f + MilliUnit)
  {
    var fraction := sec + [DOT] + f;
    DigitsAreNotSeparators(sec);
    DigitsAreNotSeparators(f);
    assert forall k | 0 <= k < |fraction| :: fraction[k] != COLON;
    assert fraction[|fraction| - 1] == f[|f| - 1];
    ClockGroups(h, m, fraction);
    SplitAfterPart(sec, DOT, f);
    SplitNoSeparator(f, DOT);
    assert Split(fraction, DOT) == [sec, f];
  }

  /** The terms "<H>h<M>m<S>s<F>ms" add up to H hours, M minutes, S seconds and F milliseconds. */
  lemma MillisTerms(h: Bytes, m: Bytes, sec: Bytes, f: Bytes, v: nat)
    requires h != [] && m != [] && sec != [] && f != []
    requires AllDigits(h) && AllDigits(m) && AllDigits(sec) && AllDigits(f)
    requires v == DecimalValue(h) * Hour + DecimalValue(m) * Minute + DecimalValue(sec) * Second
                  + DecimalValue(f) * Millisecond
    requires v <= MaxInt64
    ensures Terms(h + HourUnit + (m + MinuteUnit + (sec + SecondUnit + (f + MilliUnit))), 0) == Some(v)
  {
    var v1 := DecimalValue(h) * Hour;
    var v2 := v1 + DecimalValue(m) * Minute;
    var v3 := v2 + DecimalValue(sec) * Second;
    ClockTerms(h, m, sec + SecondUnit + (f + MilliUnit), v1, v2);
    TermThenRest(sec, SecondUnit, Second, f + MilliUnit, v2, v3);
    LastTerm(f, MilliUnit, Millisecond, v3, v);
  }

  /** "H:M:S.F" of digit groups is worth H hours, M minutes, S seconds and F milliseconds. */
  lemma ClockMillisValue(h: Bytes, m: Bytes, sec: Bytes, f: Bytes, v: nat)
    requires h != [] && m != [] && sec != [] && f != []
    requires AllDigits(h) && AllDigits(m) && AllDigits(sec) && AllDigits(f)
    requires v == DecimalValue(h) * Hour + DecimalValue(m) * Minute + DecimalValue(sec) * Second
                  + DecimalValue(f) * Millisecond
    requires v <= MaxInt64
    ensures UnmarshalDuration(h + [COLON] + (m + [COLON] + (sec + [DOT] + f))) == Ok(v)
  {
    MillisGroups(h, m, sec, f);
    MillisTerms(h, m, sec, f, v);
    ClockDecodes(h, m, sec + [DOT] + f, v);
  }

  /** "00:00:10" is ten seconds. */
  lemma TenSeconds()
    ensures UnmarshalDuration([ZERO, ZERO] + [COLON] + ([ZERO, ZERO] + [COLON] + [0x31, ZERO])) == Ok(10 * Second)
  {
    TwoDigits(ZERO, ZERO);
    TwoDigits(0x31, ZERO);
    ClockValue([ZERO, ZERO], [ZERO, ZERO], [0x31, ZERO], 10 * Second);
  }

  /** "00:01:00" is one minute. */
  lemma OneMinute()
    ensures UnmarshalDuration([ZERO, ZERO] + [COLON] + ([ZERO, 0x31] + [COLON] + [ZERO, ZERO])) == Ok(Minute)
  {
    TwoDigits(ZERO, ZERO);
    TwoDigits(ZERO, 0x31);
    ClockValue([ZERO, ZERO], [ZERO, 0x31], [ZERO, ZERO], Minute);
  }

  /** "00:01:00.300" is one minute and 300 milliseconds. */
  lemma OneMinuteAndMillis()
    ensures UnmarshalDuration([ZERO, ZERO] + [COLON] + ([ZERO, 0x31] + [COLON] + ([ZERO, ZERO] + [DOT] + [0x33, ZERO, ZERO])))
         == Ok(Minute + 300 * Millisecond)
  {
    TwoDigits(ZERO, ZERO);
    TwoDigits(ZERO, 0x31);
    ThreeDigits(0x33, ZERO, ZERO);
    ClockMillisValue([ZERO, ZERO], [ZERO, 0x31], [ZERO, ZERO], [0x33, ZERO, ZERO], Minute + 300 * Millisecond);
  }

  /** "04:01:12.345" is 4 hours, 1 minute, 12 seconds and 345 milliseconds. */
  lemma FourHoursAndMore()
    ensures UnmarshalDuration([ZERO, 0x34] + [COLON] + ([ZERO, 0x31] + [COLON] + ([0x31, 0x32] + [DOT] + [0x33, 0x34, 0x35])))
         == Ok(4 * Hour + Minute + 12 * Second + 345 * Millisecond)
  {
    TwoDigits(ZERO, 0x34);
    TwoDigits(ZERO, 0x31);
    TwoDigits(0x31, 0x32);
    ThreeDigits(0x33, 0x34, 0x35);
    ClockMillisValue([ZERO, 0x34], [ZERO, 0x31], [0x31, 0x32], [0x33, 0x34, 0x35], 4 * Hour + Minute + 12 * Second + 345 * Millisecond);
  }

  /** "01:04" has two groups: rejected. */
  lemma TwoGroupsRejected()
    ensures UnmarshalDuration([ZERO, 0x31] + [COLON] + [ZERO, 0x34]) == Err(InvalidDurationFormat)
  {
    var text := [ZERO, 0x31] + [COLON] + [ZERO, 0x34];
    assert text[0] == ZERO && text[|text| - 1] == 0x34;
    TrimSpaceUnchanged(text);
    SplitAfterPart([ZERO, 0x31], COLON, [ZERO, 0x34]);
    SplitNoSeparator([ZERO, 0x34], COLON);
  }

  /** "01:04:01:12.345" has four groups: rejected. */
  lemma FourGroupsRejected()
    ensures UnmarshalDuration([ZERO, 0x31] + [COLON] + ([ZERO, 0x34] + [COLON] + ([ZERO, 0x31] + [COLON]
                              + [0x31, 0x32, DOT, 0x33, 0x34, 0x35]))) == Err(InvalidDurationFormat)
  {
    var last: Bytes := [0x31, 0x32, DOT, 0x33, 0x34, 0x35];
    var third := [ZERO, 0x31] + [COLON] + last;
    var second := [ZERO, 0x34] + [COLON] + third;
    var text := [ZERO, 0x31] + [COLON] + second;
    assert text[0] == ZERO && text[|text| - 1] == 0x35;
    TrimSpaceUnchanged(text);
    SplitAfterPart([ZERO, 0x31], COLON, second);
    SplitAfterPart([ZERO, 0x34], COLON, third);
    SplitAfterPart([ZERO, 0x31], COLON, last);
    SplitNoSeparator(last, COLON);
  }

  /** White space around the text does not change what it decodes to. */
  lemma DurationTrimmed(before: Bytes, text: Bytes, after: Bytes)
    requires forall m | 0 <= m < |before| :: IsSpace(before[m])
    requires forall m | 0 <= m < |after| :: IsSpace(after[m])
    requires text != [] && !IsSpace(text[0]) && !IsSpace(text[|text| - 1])
    ensures UnmarshalDuration(before + text + after) == UnmarshalDuration(text)
  {
    TrimSpaceSurrounded(before, text, after);
    TrimSpaceUnchanged(text);
  }

  /** Hours, minutes, seconds and milliseconds of a whole number of milliseconds add up to it. */
  lemma ClockParts(d: nat)
    requires d % Millisecond == 0
    ensures (d / Hour) * Hour + ((d / Minute) % 60) * Minute + ((d / Second) % 60) * Second
            + ((d / Millisecond) % 1000) * Millisecond == d
  {
    var q := d / Millisecond;
    var s := d / Second;
    var mi := d / Minute;
    assert s == q / 1000;
    assert mi == s / 60;
    assert d / Hour == mi / 60;
    assert d == q * Millisecond;
    assert q == s * 1000 + q % 1000;
    assert s == mi * 60 + s % 60;
    assert mi == (d / Hour) * 60 + mi % 60;
  }

  /** The fields `MarshalDuration` prints for a positive duration, as plain divisions. */
  lemma ClockFields(d: nat)
    requires d > 0
    ensures TDiv(d, Hour) == d / Hour
    ensures TRem(TDiv(d, Minute), 60) == (d / Minute) % 60
    ensures TRem(TDiv(d, Second), 60) == (d / Second) % 60
    ensures TRem(TDiv(d, Millisecond), 1000) == (d / Millisecond) % 1000
  {
  }

  /** The text `MarshalDuration` prints for a positive duration with a millisecond part. */
  lemma MarshalWithMillis(d: nat)
    requires d > 0 && (d / Millisecond) % 1000 > 0
    ensures MarshalDuration(d) == PadInt(d / Hour, 2) + [COLON] + (PadInt((d / Minute) % 60, 2) + [COLON]
                                  + (PadInt((d / Second) % 60, 2) + [DOT] + PadInt((d / Millisecond) % 1000, 3)))
  {
    ClockFields(d);
  }

  /** The text `MarshalDuration` prints for a positive duration of whole seconds. */
  lemma MarshalWholeSeconds(d: nat)
    requires d > 0 && (d / Millisecond) % 1000 == 0
    ensures MarshalDuration(d) == PadInt(d / Hour, 2) + [COLON] + (PadInt((d / Minute) % 60, 2) + [COLON]
                                  + PadInt((d / Second) % 60, 2))
  {
    ClockFields(d);
  }

  /** Padded clock fields with a millisecond part are read back as the duration they add up to. */
  lemma PaddedMillisDecode(hours: nat, minutes: nat, seconds: nat, millis: nat, d: nat)
    requires hours * Hour + minutes * Minute + seconds * Second + millis * Millisecond == d <= MaxInt64
    ensures UnmarshalDuration(PadInt(hours, 2) + [COLON] + (PadInt(minutes, 2) + [COLON]
                              + (PadInt(seconds, 2) + [DOT] + PadInt(millis, 3)))) == Ok(d)
  {
    PadIntDigits(hours, 2);
    PadIntDigits(minutes, 2);
    PadIntDigits(seconds, 2);
    PadIntDigits(millis, 3);
    ClockMillisValue(PadInt(hours, 2), PadInt(minutes, 2), PadInt(seconds, 2), PadInt(millis, 3), d);
  }

  /** Padded clock fields of whole seconds are read back as the duration they add up to. */
  lemma PaddedSecondsDecode(hours: nat, minutes: nat, seconds: nat, d: nat)
    requires hours * Hour + minutes * Minute + seconds * Second == d <= MaxInt64
    ensures UnmarshalDuration(PadInt(hours, 2) + [COLON] + (PadInt(minutes, 2) + [COLON] + PadInt(seconds, 2))) == Ok(d)
  {
    PadIntDigits(hours, 2);
    PadIntDigits(minutes, 2);
    PadIntDigits(seconds, 2);
    ClockValue(PadInt(hours, 2), PadInt(minutes, 2), PadInt(seconds, 2), d);
  }

  /** The round trip of a positive duration whose millisecond part is not zero. */
  lemma RoundTripWithMillis(d: nat)
    requires 0 < d <= MaxInt64 && d % Millisecond == 0 && (d / Millisecond) % 1000 > 0
    ensures UnmarshalDuration(MarshalDuration(d)) == Ok(d)
  {
    MarshalWithMillis(d);
    ClockParts(d);
    PaddedMillisDecode(d / Hour, (d / Minute) % 60, (d / Second) % 60, (d / Millisecond) % 1000, d);
  }

  /** The round trip of a positive duration of whole seconds. */
  lemma RoundTripWholeSeconds(d: nat)
    requires 0 < d <= MaxInt64 && d % Millisecond == 0 && (d / Millisecond) % 1000 == 0
    ensures UnmarshalDuration(MarshalDuration(d)) == Ok(d)
  {
    MarshalWholeSeconds(d);
    ClockParts(d);
    PaddedSecondsDecode(d / Hour, (d / Minute) % 60, (d / Second) % 60, d);
  }

  /**
   * A duration of whole milliseconds in [0, MaxInt64] survives encoding and
   * decoding: the clock text the encoder prints is read back as the same
   * number of nanoseconds.
   */
  lemma DurationRoundTrip(d: int)
    requires 0 <= d <= MaxInt64 && d % Millisecond == 0
    ensures UnmarshalDuration(MarshalDuration(d)) == Ok(d)
  {
    if d == 0 {
      TwoDigits(ZERO, ZERO);
      ClockValue([ZERO, ZERO], [ZERO, ZERO], [ZERO, ZERO], 0);
    } else if (d / Millisecond) % 1000 > 0 {
      RoundTripWithMillis(d);
    } else {
      RoundTripWholeSeconds(d);
    }
  }

  /* ---------- TimeOffset ---------- */

  const OffsetStart: int := -1
  const OffsetEnd: int := -2

  /**
   * `TimeOffset`: `duration` is the `*Duration` field (`None` for nil),
   * `position` the position number (`OffsetStart`, `OffsetEnd` or the n of
   * "#n"), and `percent` the n of "n%" (Go keeps float32(n) / 100).
   */
  datatype TimeOffset = TimeOffset(duration: Option<int>, position: int, percent: int)

  const StartText: Bytes := [0x73, 0x74, 0x61, 0x72, 0x74]  // "start"
  const EndText: Bytes := [0x65, 0x6E, 0x64]                 // "end"

  /** The offset after `UnmarshalText` and the error it returned. */
  datatype OffsetResult = OffsetResult(offset: TimeOffset, error: Option<TextError>)

  /**
   * `TimeOffset.UnmarshalText` on a receiver that holds `to`. The forms are
   * tried in the order "start" / "end", a '%' suffix, a '#' prefix, and
   * last a duration; each form writes its own field only. The duration form
   * sets the duration even when the text does not parse (to zero).
   */
  function UnmarshalTimeOffset(to: TimeOffset, data: Bytes): (r: OffsetResult)
    ensures r.offset.percent != to.percent ==>
      HasSuffix(data, PERCENT) && r.error.None? && -128 <= r.offset.percent <= 127
    ensures r.offset.position != to.position ==>
      (data == StartText && r.offset.position == OffsetStart) ||
      (data == EndText && r.offset.position == OffsetEnd) ||
      (HasPrefix(data, HASH) && !HasSuffix(data, PERCENT) && r.error.None? && -128 <= r.offset.position <= 127)
    ensures r.offset.duration != to.duration ==> !HasSuffix(data, PERCENT) && !HasPrefix(data, HASH)
    ensures data != StartText && data != EndText && !HasSuffix(data, PERCENT) && !HasPrefix(data, HASH) ==>
      r.offset.duration.Some? && (r.error.None? <==> UnmarshalDuration(data).Ok?)
    ensures r.error.Some? && (HasSuffix(data, PERCENT) || HasPrefix(data, HASH)) ==> r.offset == to
    // "start" and "end" set the position whatever the offset held
    ensures data == StartText ==> r == OffsetResult(to.(position := OffsetStart), None)
    ensures data == EndText ==> r == OffsetResult(to.(position := OffsetEnd), None)
    // a number that is no 8-bit decimal is an error, and the offset is kept
    ensures HasSuffix(data, PERCENT) && ParseInt8(data[..|data| - 1]).None? ==> r == OffsetResult(to, Some(PercentSyntax))
    ensures !HasSuffix(data, PERCENT) && HasPrefix(data, HASH) && ParseInt8(data[1..]).None? ==>
      r == OffsetResult(to, Some(PositionSyntax))
    // the duration form stores the codec's value, or zero with the codec's error
    ensures data != StartText && data != EndText && !HasSuffix(data, PERCENT) && !HasPrefix(data, HASH) ==>
      r == match UnmarshalDuration(data)
           case Ok(d) => OffsetResult(to.(duration := Some(d)), None)
           case Err(e) => OffsetResult(to.(duration := Some(0)), Some(e))
  {
    if data == StartText then OffsetResult(to.(position := OffsetStart), None)
    else if data == EndText then OffsetResult(to.(position := OffsetEnd), None)
    else if HasSuffix(data, PERCENT) then
      match ParseInt8(data[..|data| - 1])
      case None => OffsetResult(to, Some(PercentSyntax))
      case Some(p) => OffsetResult(to.(percent := p), None)
    else if HasPrefix(data, HASH) then
      match ParseInt8(data[1..])
      case None => OffsetResult(to, Some(PositionSyntax))
      case Some(p) => OffsetResult(to.(position := p), None)
    else
      match UnmarshalDuration(data)
      case Ok(d) => OffsetResult(to.(duration := Some(d)), None)
      case Err(e) => OffsetResult(to.(duration := Some(0)), Some(e))
  }

  /** Whether the text is rejected does not depend on what the offset held before. */
  lemma OffsetErrorIgnoresPrior(to: TimeOffset, other: TimeOffset, data: Bytes)
    ensures UnmarshalTimeOffset(to, data).error == UnmarshalTimeOffset(other, data).error
  {
  }

  /** What Go's "%f" prints after the integer part of a whole number. */
  const SixZeroDecimals: Bytes := [DOT, ZERO, ZERO, ZERO, ZERO, ZERO, ZERO]  // ".000000"

  /**
   * `TimeOffset.MarshalText`: the duration if there is one, else "#n" for a
   * non-zero position, else "%f%%" of the percentage, else the empty text.
   */
  function MarshalTimeOffset(to: TimeOffset): (text: Bytes)
    ensures text == [] <==> to.duration.None? && to.position == 0 && to.percent == 0
    ensures to.duration.Some? ==> text == MarshalDuration(to.duration.value)
    ensures to.duration.None? && to.position != 0 ==> HasPrefix(text, HASH)
    ensures to.duration.None? && to.position != 0 ==> text == [HASH] + FormatInt(to.position)
    ensures to.duration.None? && to.position == 0 && to.percent != 0 ==> HasSuffix(text, PERCENT)
  {
    match to.duration
    case Some(d) => MarshalDuration(d)
    case None =>
      if to.position != 0 then [HASH] + FormatInt(to.position)
      else if to.percent != 0 then FormatInt(to.percent) + SixZeroDecimals + [PERCENT]
      else []
  }

  /** `MarshalTimeOffset` with the percentage printed as the integer the decoder reads. */
  function MarshalTimeOffsetCorrected(to: TimeOffset): (text: Bytes)
    ensures text == [] <==> to.duration.None? && to.position == 0 && to.percent == 0
  {
    if to.duration.None? && to.position == 0 && to.percent != 0 then FormatInt(to.percent) + [PERCENT]
    else MarshalTimeOffset(to)
  }

  /** "#" and a text that is no percentage are read as the position that text parses to. */
  lemma PositionText(to: TimeOffset, number: Bytes, n: int)
    requires number != [] && number[|number| - 1] != PERCENT && ParseInt8(number) == Some(n)
    ensures UnmarshalTimeOffset(to, [HASH] + number) == OffsetResult(to.(position := n), None)
  {
    var text := [HASH] + number;
    assert text[1..] == number;
    assert text[0] == HASH && text[|text| - 1] == number[|number| - 1];
  }

  /** A position "#n" is written and read back as the same position; nothing else changes. */
  lemma PositionRoundTrip(prior: TimeOffset, n: int, percent: int)
    requires -128 <= n <= 127 && n != 0
    ensures UnmarshalTimeOffset(prior, MarshalTimeOffset(TimeOffset(None, n, percent)))
         == OffsetResult(prior.(position := n), None)
  {
    FormatIntEnds(n);
    FormatIntParses(n);
    PositionText(prior, FormatInt(n), n);
  }

  /**
   * "start" is read as the position `OffsetStart`, which is written back as
   * "#-1" and read again as `OffsetStart`.
   */
  lemma StartRoundTrip(prior: TimeOffset)
    ensures var start := UnmarshalTimeOffset(TimeOffset(None, 0, 0), StartText).offset;
      start == TimeOffset(None, OffsetStart, 0) &&
      UnmarshalTimeOffset(prior, MarshalTimeOffset(start)) == OffsetResult(prior.(position := OffsetStart), None)
  {
    PositionRoundTrip(prior, OffsetStart, 0);
  }

  /** "end" likewise, through "#-2". */
  lemma EndRoundTrip(prior: TimeOffset)
    ensures var end := UnmarshalTimeOffset(TimeOffset(None, 0, 0), EndText).offset;
      end == TimeOffset(None, OffsetEnd, 0) &&
      UnmarshalTimeOffset(prior, MarshalTimeOffset(end)) == OffsetResult(prior.(position := OffsetEnd), None)
  {
    PositionRoundTrip(prior, OffsetEnd, 0);
  }

  /** A duration offset of whole milliseconds is written and read back as the same duration. */
  lemma DurationOffsetRoundTrip(prior: TimeOffset, d: int, position: int, percent: int)
    requires 0 <= d <= MaxInt64 && d % Millisecond == 0
    ensures UnmarshalTimeOffset(prior, MarshalTimeOffset(TimeOffset(Some(d), position, percent)))
         == OffsetResult(prior.(duration := Some(d)), None)
  {
    var text := MarshalDuration(d);
    assert text != StartText && text != EndText by {
      assert IsDigit(text[0]);
    }
    DurationRoundTrip(d);
  }

  /**
   * A percentage offset is written with a fraction ("50.000000%"), which the
   * decoder's 8-bit integer parse rejects: the text the encoder produces
   * cannot be read back.
   */
  lemma PercentTextRejected(prior: TimeOffset, p: int)
    requires p != 0
    ensures UnmarshalTimeOffset(prior, MarshalTimeOffset(TimeOffset(None, 0, p)))
         == OffsetResult(prior, Some(PercentSyntax))
  {
    var number := FormatInt(p) + SixZeroDecimals;
    var text := number + [PERCENT];
    assert text[..|text| - 1] == number;
    assert text != StartText && text != EndText by {
      assert text[|text| - 1] == PERCENT;
    }
    FormatIntEnds(p);
    var dot := |FormatInt(p)|;
    assert number[dot] == DOT;
    assert forall k | 0 <= k <= 1 :: !AllDigits(number[k..]) by {
      forall k | 0 <= k <= 1
        ensures !AllDigits(number[k..])
      {
        assert number[k..][dot - k] == DOT;
      }
    }
  }

  /** With the percentage written as an integer, "n%" reads back as the same percentage. */
  lemma PercentRoundTrip(prior: TimeOffset, p: int)
    requires -128 <= p <= 127 && p != 0
    ensures UnmarshalTimeOffset(prior, MarshalTimeOffsetCorrected(TimeOffset(None, 0, p)))
         == OffsetResult(prior.(percent := p), None)
  {
    FormatIntParses(p);
    PercentText(prior, FormatInt(p), p);
  }

  /** A text followed by '%' is read as the percentage that text parses to. */
  lemma PercentText(to: TimeOffset, number: Bytes, p: int)
    requires ParseInt8(number) == Some(p)
    ensures UnmarshalTimeOffset(to, number + [PERCENT]) == OffsetResult(to.(percent := p), None)
  {
    var text := number + [PERCENT];
    assert text[..|text| - 1] == number;
    assert text[|text| - 1] == PERCENT;
  }

  /** A text with both a '#' prefix and a '%' suffix is read as a percentage. */
  lemma PercentBeforePosition(prior: TimeOffset)
    ensures UnmarshalTimeOffset(prior, [HASH, 0x35, PERCENT]) == OffsetResult(prior, Some(PercentSyntax))
  {
    var text: Bytes := [HASH, 0x35, PERCENT];
    var number: Bytes := [HASH, 0x35];
    assert text[..|text| - 1] == number;
    assert number[0..] == number && !IsDigit(number[0]);
    assert number[1..] == [0x35] && number[0] != PLUS && number[0] != MINUS;
  }

  /** A malformed clock text still leaves a (zero) duration behind. */
  lemma DurationSetOnError(prior: TimeOffset)
    ensures UnmarshalTimeOffset(prior, [ZERO, 0x31] + [COLON] + [ZERO, 0x34])
         == OffsetResult(prior.(duration := Some(0)), Some(InvalidDurationFormat))
  {
    TwoGroupsRejected();
  }

  /**
   * A '.' in the seconds group ends the seconds term: "00:00:.5" becomes
   * "00h00ms5ms", whose "00" takes the unit "ms", and is worth 5 ms.
   */
  lemma SecondsFractionReadAsMillis()
    ensures UnmarshalDuration([ZERO, ZERO] + [COLON] + ([ZERO, ZERO] + [COLON] + [DOT, 0x35])) == Ok(5 * Millisecond)
  {
    var zz: Bytes := [ZERO, ZERO];
    var five: Bytes := [0x35];
    var third: Bytes := [DOT, 0x35];  // ".5"
    TwoDigits(ZERO, ZERO);
    DecimalValueSnoc([], 0x35);
    assert [] + [0x35] == five;
    ClockGroups(zz, zz, third);
    assert [] + [DOT] + five == third;
    SplitAfterPart([], DOT, five);
    SplitNoSeparator(five, DOT);
    assert SecondsText(third) == [] + SecondUnit + (five + MilliUnit);
    assert DurationText(zz, zz, third) == zz + HourUnit + (zz + MilliUnit + (five + MilliUnit));
    TermThenRest(zz, HourUnit, Hour, zz + MilliUnit + (five + MilliUnit), 0, 0);
    TermThenRest(zz, MilliUnit, Millisecond, five + MilliUnit, 0, 0);
    LastTerm(five, MilliUnit, Millisecond, 0, 5 * Millisecond);
    ClockDecodes(zz, zz, third, 5 * Millisecond);
  }

  /**
   * A fraction in the minutes group reaches `time.ParseDuration` as a
   * fractional term ("00:.5:00" becomes "00h.5m00s"), which the model does
   * not read: the text is rejected.
   */
  lemma FractionalMinutesRejected()
    ensures UnmarshalDuration([ZERO, ZERO] + [COLON] + ([DOT, 0x35] + [COLON] + [ZERO, ZERO])) == Err(DurationSyntax)
  {
    var zz: Bytes := [ZERO, ZERO];
    var half: Bytes := [DOT, 0x35];  // ".5"
    var text := zz + [COLON] + (half + [COLON] + zz);
    assert text[0] == ZERO && text[|text| - 1] == ZERO;
    TrimSpaceUnchanged(text);
    SplitAfterPart(zz, COLON, half + [COLON] + zz);
    SplitAfterPart(half, COLON, zz);
    SplitNoSeparator(zz, COLON);
    assert Split(text, COLON) == [zz, half, zz];
    SplitNoSeparator(zz, DOT);
    TwoDigits(ZERO, ZERO);
    var rest := half + MinuteUnit + (zz + SecondUnit);
    assert DurationText(zz, half, zz) == zz + HourUnit + rest;
    TermThenRest(zz, HourUnit, Hour, rest, 0, 0);
    assert Terms(rest, 0) == None;
    ParseUnsigned(DurationText(zz, half, zz));
  }
}

=== FILE: decoder.dfy ===
/**
 * The decoders of `decoder.go` as they run: each `UnmarshalToken` pulls
 * tokens from the cursor `pos` in a loop, writes the receiver's fields and
 * appends children as it meets them, and returns the receiver's new value,
 * the cursor after the last token it pulled and the error it returned.
 * Each method is proved to compute the function of `Elements` or
 * `Documents` that specifies it.
 */
module Decoder {
  import opened ByteText
  import opened Tokens
  import opened Failures
  import opened Attributes
  import opened Records
  import opened Codecs
  import opened Leaves
  import opened Elements
  import opened Documents

  /** A `Tracking` element: its `event` attribute and its text. */
  method ReadTracking(t: Token) returns (e: TrackingEvent)
    ensures e == TrackingOf(t)
  {
    var a := ReadAttrs(t.attrs, TrackingEvent([], []), TrackingAttr);
    var text := ReadText(t);
    e := a.value.(text := text);
  }

  method UnmarshalExtension(ts: TokenStream, se: Token, pos: nat, e0: Extension) returns (r: Parsed<Extension>)
    requires pos <= |ts.tokens|
    ensures r == ExtensionElement(ts, se, pos, e0)
  {
    var a := ReadAttrs(se.attrs, e0, ExtensionAttr);
    var e := a.value;
    var i := pos;
    while true
      invariant pos <= i <= |ts.tokens|
      invariant ExtensionChildren(ts, se, i, e) == ExtensionElement(ts, se, pos, e0)
      decreases |ts.tokens| - i
    {
      if i == |ts.tokens| {
        return Parsed(e, i, Some(TokenizerError(ts.terminal)));
      }
      var t := ts.tokens[i];
      i := i + 1;
      if ts.isEndElementOf(t, se) {
        return Parsed(e, i, None);
      }
      if t.isEnd {
        continue;
      }
      if t.name == "CreativeParameter" {
        var par := ReadAttrs(t.attrs, CreativeParameter([], [], [], []), ParameterAttr);
        var text := ReadText(t);
        e := e.(creativeParameters := e.creativeParameters + [par.value.(value := text)]);
      }
    }
  }

  /** The `switch` of `Creative.UnmarshalToken` on one start token. */
  method ReadCreativeChild(c: Creative, t: Token) returns (s: Step<Creative>)
    ensures s == CreativeChild(c, t)
  {
    if t.name == "UniversalAdId" {
      var u := ReadAttrs(t.attrs, UniversalAdId([], []), UniversalAdIdAttr);
      var text := ReadText(t);
      s := Step(c.(universalAdId := Some(u.value.(id := text))), None);
    } else if t.name == "Tracking" {
      var l := LinearOf(c);
      var e := ReadTracking(t);
      s := Step(c.(linear := Some(l.(trackingEvents := l.trackingEvents + [e]))), None);
    } else if t.name == "ClickThrough" {
      if c.linear.None? {
        return Step(c, Some(NilLinear));
      }
      var a := ReadAttrs(t.attrs, ClickThrough([], []), ClickThroughAttr);
      var text := ReadText(t);
      s := Step(c.(linear := Some(c.linear.value.(clickThrough := Some(a.value.(text := text))))), None);
    } else if t.name == "ClickTracking" {
      var l := LinearOf(c);
      var a := ReadAttrs(t.attrs, ClickTracking([], []), ClickTrackingAttr);
      var text := ReadText(t);
      s := Step(c.(linear := Some(l.(clickTracking := l.clickTracking + [a.value.(text := text)]))), None);
    } else if t.name == "Duration" {
      var l := LinearOf(c);
      var text := ReadText(t);
      var d := UnmarshalDuration(text);
      if d.Err? {
        return Step(c.(linear := Some(l)), Some(BadDuration(d.error)));
      }
      s := Step(c.(linear := Some(l.(duration := d.value))), None);
    } else if t.name == "MediaFile" {
      var l := LinearOf(c);
      var m := ReadAttrs(t.attrs, EmptyMediaFile, MediaFileAttr);
      if m.failure.Some? {
        return Step(c.(linear := Some(l)), m.failure);
      }
      var text := ReadText(t);
      s := Step(c.(linear := Some(l.(mediaFiles := l.mediaFiles + [m.value.(text := text)]))), None);
    } else {
      s := Step(c, None);
    }
  }

  method UnmarshalCreative(ts: TokenStream, se: Token, pos: nat, c0: Creative) returns (r: Parsed<Creative>)
    requires pos <= |ts.tokens|
    ensures r == CreativeElement(ts, se, pos, c0)
  {
    var a := ReadAttrs(se.attrs, c0, CreativeAttr);
    var c := a.value;
    var i := pos;
    while true
      invariant pos <= i <= |ts.tokens|
      invariant CreativeChildren(ts, se, i, c) == CreativeElement(ts, se, pos, c0)
      decreases |ts.tokens| - i
    {
      if i == |ts.tokens| {
        return Parsed(c, i, Some(TokenizerError(ts.terminal)));
      }
      var t := ts.tokens[i];
      i := i + 1;
      if ts.isEndElementOf(t, se) {
        return Parsed(c, i, None);
      }
      if t.isEnd {
        continue;
      }
      var s := ReadCreativeChild(c, t);
      if s.failure.Some? {
        return Parsed(s.value, i, s.failure);
      }
      c := s.value;
    }
  }

  /** The leaf cases of `InLine.UnmarshalToken`. */
  method ReadInLineLeaf(l: InLine, t: Token) returns (r: InLine)
    ensures r == InLineLeaf(l, t)
  {
    r := l;
    if t.name == "Impression" {
      var a := ReadAttrs(t.attrs, Impression([], []), ImpressionAttr);
      var text := ReadText(t);
      r := l.(impression := l.impression + [a.value.(text := text)]);
    } else if t.name == "AdSystem" {
      var text := ReadText(t);
      r := l.(adSystem := text);
    } else if t.name == "AdTitle" {
      var text := ReadText(t);
      r := l.(adTitle := text);
    } else if t.name == "Error" {
      var text := ReadText(t);
      r := l.(error := Some(ErrorElement(text)));
    }
  }

  method UnmarshalInLine(ts: TokenStream, se: Token, pos: nat, l0: InLine) returns (r: Parsed<InLine>)
    requires pos <= |ts.tokens|
    ensures r == InLineChildren(ts, se, pos, l0)
  {
    var l := l0;
    var i := pos;
    while true
      invariant pos <= i <= |ts.tokens|
      invariant InLineChildren(ts, se, i, l) == InLineChildren(ts, se, pos, l0)
      decreases |ts.tokens| - i
    {
      if i == |ts.tokens| {
        return Parsed(l, i, Some(TokenizerError(ts.terminal)));
      }
      var t := ts.tokens[i];
      i := i + 1;
      if ts.isEndElementOf(t, se) {
        return Parsed(l, i, None);
      }
      if t.isEnd {
        continue;
      }
      if t.name == "Creative" {
        var c := UnmarshalCreative(ts, t, i, EmptyCreative);
        if c.failure.Some? {
          return Parsed(l, c.next, c.failure);
        }
        l := l.(creatives := l.creatives + [c.value]);
        i := c.next;
      } else if t.name == "Extension" {
        var e := UnmarshalExtension(ts, t, i, EmptyExtension);
        if e.failure.Some? {
          return Parsed(l, e.next, e.failure);
        }
        l := l.(extensions := l.extensions + [e.value]);
        i := e.next;
      } else {
        l := ReadInLineLeaf(l, t);
      }
    }
  }

  method UnmarshalAd(ts: TokenStream, se: Token, pos: nat, ad0: Ad) returns (r: Parsed<Ad>)
    requires pos <= |ts.tokens|
    ensures r == AdElement(ts, se, pos, ad0)
  {
    var a := ReadAttrs(se.attrs, ad0, AdAttr);
    if a.failure.Some? {
      return Parsed(a.value, pos, a.failure);
    }
    var ad := a.value;
    var i := pos;
    while true
      invariant pos <= i <= |ts.tokens|
      invariant AdChildren(ts, se, i, ad) == AdElement(ts, se, pos, ad0)
      decreases |ts.tokens| - i
    {
      if i == |ts.tokens| {
        return Parsed(ad, i, Some(TokenizerError(ts.terminal)));
      }
      var t := ts.tokens[i];
      i := i + 1;
      if ts.isEndElementOf(t, se) {
        return Parsed(ad, i, None);
      }
      if t.isEnd {
        continue;
      }
      if t.name == "InLine" {
        var l := UnmarshalInLine(ts, t, i, EmptyInLine);
        if l.failure.Some? {
          return Parsed(ad, l.next, l.failure);
        }
        ad := ad.(inLine := Some(l.value));
        i := l.next;
      }
    }
  }

  method UnmarshalVast(ts: TokenStream, se: Token, pos: nat, v0: Vast) returns (r: Parsed<Vast>)
    requires pos <= |ts.tokens|
    ensures r == VastElement(ts, se, pos, v0)
  {
    var a := ReadAttrs(se.attrs, v0, VastAttr);
    var v := a.value;
    var i := pos;
    while true
      invariant pos <= i <= |ts.tokens|
      invariant VastChildren(ts, se, i, v) == VastElement(ts, se, pos, v0)
      decreases |ts.tokens| - i
    {
      if i == |ts.tokens| {
        return Parsed(v, i, Some(TokenizerError(ts.terminal)));
      }
      var t := ts.tokens[i];
      i := i + 1;
      if ts.isEndElementOf(t, se) {
        return Parsed(v, i, None);
      }
      if t.isEnd {
        continue;
      }
      if t.name == "Ad" {
        var ad := UnmarshalAd(ts, t, i, EmptyAd);
        if ad.failure.Some? {
          return Parsed(v, ad.next, ad.failure);
        }
        v := v.(ads := v.ads + [ad.value]);
        i := ad.next;
      }
    }
  }

  method UnmarshalAdBreak(ts: TokenStream, se: Token, pos: nat, b0: AdBreak) returns (r: Parsed<AdBreak>)
    requires pos <= |ts.tokens|
    ensures r == AdBreakElement(ts, se, pos, b0)
  {
    var reset := b0.(adSource := Some(AdSource(Some(VastData(None)))));
    var a := ReadAttrs(se.attrs, reset, AdBreakAttr);
    FoldKeeps(se.attrs, reset, AdBreakAttr, (x: AdBreak) => x.adSource);
    if a.failure.Some? {
      return Parsed(a.value, pos, a.failure);
    }
    var b := a.value;
    var i := pos;
    while true
      invariant pos <= i <= |ts.tokens| && HasVastData(b)
      invariant AdBreakChildren(ts, se, i, b) == AdBreakElement(ts, se, pos, b0)
      decreases |ts.tokens| - i
    {
      if i == |ts.tokens| {
        return Parsed(b, i, Some(TokenizerError(ts.terminal)));
      }
      var t := ts.tokens[i];
      i := i + 1;
      if ts.isEndElementOf(t, se) {
        return Parsed(b, i, None);
      }
      if t.isEnd {
        continue;
      }
      if t.name == "VAST" {
        if t.selfClosing {
          b := WithVast(b, EmptyVast);
        } else {
          var v := UnmarshalVast(ts, t, i, EmptyVast);
          if v.failure.Some? {
            return Parsed(b, v.next, v.failure);
          }
          b := WithVast(b, v.value);
          i := v.next;
        }
      } else if t.name == "Tracking" {
        var events := if b.trackingEvents.Some? then b.trackingEvents.value else [];
        var e := ReadTracking(t);
        b := b.(trackingEvents := Some(events + [e]));
      }
    }
  }

  /** `DecodeVast`. */
  method DecodeVast(ts: TokenStream) returns (r: Outcome<Vast>)
    ensures r == VastDocument(ts)
  {
    var vast := EmptyVast;
    var found := false;
    var i := 0;
    while true
      invariant i <= |ts.tokens|
      invariant VastScan(ts, i, vast, found) == VastDocument(ts)
      decreases |ts.tokens| - i
    {
      if i == |ts.tokens| {
        if ts.terminal != EndOfInput {
          return Panicked(TokenizerPanic(ts.terminal));
        }
        break;
      }
      var t := ts.tokens[i];
      i := i + 1;
      if t.name == "VAST" {
        found := true;
        if !t.selfClosing {
          var p := UnmarshalVast(ts, t, i, vast);
          vast := p.value;
          if p.failure == Some(NilLinear) {
            return Panicked(NilPointer);
          } else if p.failure.Some? {
            return Returned(vast, Some(Failed(p.failure.value)));
          }
          i := p.next;
        }
      }
    }
    if !found {
      return Returned(vast, Some(NotFound));
    }
    r := Returned(vast, None);
  }

  /** `DecodeVmap`. */
  method DecodeVmap(ts: TokenStream) returns (r: Outcome<Vmap>)
    ensures r == VmapDocument(ts)
  {
    var vmap := EmptyVmap;
    var found := false;
    var i := 0;
    while true
      invariant i <= |ts.tokens|
      invariant VmapScan(ts, i, vmap, found) == VmapDocument(ts)
      decreases |ts.tokens| - i
    {
      if i == |ts.tokens| {
        if ts.terminal != EndOfInput {
          return Panicked(TokenizerPanic(ts.terminal));
        }
        break;
      }
      var t := ts.tokens[i];
      i := i + 1;
      if t.name == "VMAP" {
        found := true;
        var a := ReadAttrs(t.attrs, vmap, VmapAttr);
        vmap := a.value;
      } else if t.name == "AdBreak" {
        var b := UnmarshalAdBreak(ts, t, i, EmptyAdBreak);
        if b.failure == Some(NilLinear) {
          return Panicked(NilPointer);
        } else if b.failure.Some? {
          return Returned(vmap, Some(Failed(b.failure.value)));
        }
        vmap := vmap.(adBreaks := vmap.adBreaks + [b.value]);
        i := b.next;
      }
    }
    if !found {
      return Returned(vmap, Some(NotFound));
    }
    r := Returned(vmap, None);
  }
}

=== FILE: documents.dfy ===
/**
 * `DecodeVast` and `DecodeVmap` as functions of the token stream. Both scan
 * every token at the top level and dispatch on the local name alone (an end
 * token with the root's name counts too). A tokenizer error other than the
 * end of input panics; a decoder that dereferences a nil pointer panics; any
 * other error of a nested decoder is returned together with the value
 * decoded so far.
 */
module Documents {
  import opened ByteText
  import opened Tokens
  import opened Failures
  import opened Attributes
  import opened Records
  import opened Codecs
  import opened Leaves
  import opened Elements

  datatype DecodeError = NotFound | Failed(failure: Failure)
  datatype Panic = TokenizerPanic(error: StreamError) | NilPointer

  /** What a top-level decoder does: return a value and an error, or panic. */
  datatype Outcome<T> = Returned(value: T, error: Option<DecodeError>) | Panicked(panic: Panic)

  /** A nested decoder stopped with `f`: a nil dereference panics, anything else is returned. */
  function Stopped<T>(value: T, f: Failure): (r: Outcome<T>)
    ensures r.Panicked? <==> f == NilLinear
    ensures r.Panicked? ==> r.panic == NilPointer
    ensures r.Returned? ==> r.value == value && r.error == Some(Failed(f))
  {
    if f == NilLinear then Panicked(NilPointer) else Returned(value, Some(Failed(f)))
  }

  /** The scan pulled past the last token. */
  function AtEnd<T>(ts: TokenStream, value: T, found: bool): (r: Outcome<T>)
    ensures r.Returned? <==> ts.terminal == EndOfInput
    ensures r.Returned? ==> r.value == value && (r.error.None? <==> found)
  {
    if ts.terminal == EndOfInput then Returned(value, if found then None else Some(NotFound))
    else Panicked(TokenizerPanic(ts.terminal))
  }

  predicate IsNotFound<T>(r: Outcome<T>)
  {
    r.Returned? && r.error == Some(NotFound)
  }

  /* ---------- DecodeVast ---------- */

  /**
   * The loop of `DecodeVast` from token `i`, with `v` decoded so far and
   * `found` set once a token named "VAST" has been met. A self-closing root
   * is not decoded at all: not even its attributes are read.
   */
  function VastScan(ts: TokenStream, i: nat, v: Vast, found: bool): (r: Outcome<Vast>)
    requires i <= |ts.tokens|
    ensures found ==> !IsNotFound(r)
    ensures IsNotFound(r) ==> ts.terminal == EndOfInput && r.value == v
    decreases |ts.tokens| - i
  {
    if i == |ts.tokens| then AtEnd(ts, v, found)
    else
      var t := ts.tokens[i];
      if t.name == "VAST" then
        if t.selfClosing then VastScan(ts, i + 1, v, true)
        else
          var r := VastElement(ts, t, i + 1, v);
          if r.failure.Some? then Stopped(r.value, r.failure.value)
          else VastScan(ts, r.next, r.value, true)
      else VastScan(ts, i + 1, v, found)
  }

  /** `DecodeVast` on the tokens of a document. */
  function VastDocument(ts: TokenStream): Outcome<Vast>
  {
    VastScan(ts, 0, EmptyVast, false)
  }

  /** Without any token named "VAST" the scan runs to the end of the stream. */
  lemma {:induction false} VastScanMissing(ts: TokenStream, i: nat, v: Vast, found: bool)
    requires i <= |ts.tokens|
    requires forall k | i <= k < |ts.tokens| :: ts.tokens[k].name != "VAST"
    ensures VastScan(ts, i, v, found) == AtEnd(ts, v, found)
    decreases |ts.tokens| - i
  {
    if i < |ts.tokens| {
      VastScanMissing(ts, i + 1, v, found);
    }
  }

  /** A scan that ends in "not found" met no token named "VAST". */
  lemma {:induction false} VastScanNotFound(ts: TokenStream, i: nat, v: Vast)
    requires i <= |ts.tokens|
    requires IsNotFound(VastScan(ts, i, v, false))
    ensures forall k | i <= k < |ts.tokens| :: ts.tokens[k].name != "VAST"
    decreases |ts.tokens| - i
  {
    if i < |ts.tokens| {
      assert ts.tokens[i].name != "VAST";
      VastScanNotFound(ts, i + 1, v);
    }
  }

  /**
   * `DecodeVast` reports "no VAST token found" exactly when the input ends
   * normally and no token is named "VAST"; the value is then the zero VAST.
   * With no such token and a tokenizer error at the end, it panics.
   */
  lemma VastNotFoundIff(ts: TokenStream)
    ensures IsNotFound(VastDocument(ts)) <==>
      ts.terminal == EndOfInput && forall k | 0 <= k < |ts.tokens| :: ts.tokens[k].name != "VAST"
    ensures IsNotFound(VastDocument(ts)) ==> VastDocument(ts).value == EmptyVast
    ensures ts.terminal != EndOfInput && (forall k | 0 <= k < |ts.tokens| :: ts.tokens[k].name != "VAST") ==>
      VastDocument(ts) == Panicked(TokenizerPanic(ts.terminal))
  {
    if IsNotFound(VastDocument(ts)) {
      VastScanNotFound(ts, 0, EmptyVast);
    }
    if forall k | 0 <= k < |ts.tokens| :: ts.tokens[k].name != "VAST" {
      VastScanMissing(ts, 0, EmptyVast, false);
    }
  }

  /** A self-closing `<VAST/>` root gives the zero VAST and no error, whatever its attributes. */
  lemma SelfClosingVastRoot(ts: TokenStream)
    requires |ts.tokens| == 1 && ts.tokens[0].name == "VAST" && ts.tokens[0].selfClosing
    requires ts.terminal == EndOfInput
    ensures VastDocument(ts) == Returned(EmptyVast, None)
  {
    assert VastScan(ts, 1, EmptyVast, true) == Returned(EmptyVast, None);
  }

  /**
   * A `ClickThrough` that is the first child of a creative dereferences a
   * nil `Linear`: the whole decode panics.
   */
  lemma ClickThroughFirstPanics(ts: TokenStream)
    requires |ts.tokens| == 5
    requires ts.tokens[0].name == "VAST" && !ts.tokens[0].selfClosing
    requires ts.tokens[1].name == "Ad" && ts.tokens[1].attrs == []
    requires ts.tokens[2].name == "InLine" && ts.tokens[3].name == "Creative"
    requires ts.tokens[4].name == "ClickThrough"
    requires forall k | 1 <= k < 5 :: !ts.tokens[k].isEnd
    requires forall j, k | 0 <= j < k < 5 :: !ts.isEndElementOf(ts.tokens[k], ts.tokens[j])
    ensures VastDocument(ts) == Panicked(NilPointer)
  {
    var t := ts.tokens;
    var c := CreativeElement(ts, t[3], 4, EmptyCreative);
    assert FoldAttrs(t[3].attrs, EmptyCreative, CreativeAttr).value.linear.None? by {
      FoldKeeps(t[3].attrs, EmptyCreative, CreativeAttr, (x: Creative) => x.linear);
    }
    assert c.failure == Some(NilLinear);
    assert InLineChildren(ts, t[2], 3, EmptyInLine).failure == Some(NilLinear);
    assert AdElement(ts, t[1], 2, EmptyAd).failure == Some(NilLinear);
    assert VastElement(ts, t[0], 1, EmptyVast).failure == Some(NilLinear);
  }

  /* ---------- DecodeVmap ---------- */

  /**
   * The loop of `DecodeVmap` from token `i`. It never enters the root: a
   * token named "VMAP" only has its attributes read, and every token named
   * "AdBreak" met by the scan, inside the root or not, is decoded and
   * appended.
   */
  function VmapScan(ts: TokenStream, i: nat, v: Vmap, found: bool): (r: Outcome<Vmap>)
    requires i <= |ts.tokens|
    ensures found ==> !IsNotFound(r)
    ensures IsNotFound(r) ==> ts.terminal == EndOfInput
    ensures r.Returned? ==> v.adBreaks <= r.value.adBreaks
    ensures r.Returned? && (forall k | i <= k < |ts.tokens| :: ts.tokens[k].name != "VMAP") ==>
      r.value.version == v.version && r.value.vmap == v.vmap && r.value.xmlName == v.xmlName
    decreases |ts.tokens| - i
  {
    if i == |ts.tokens| then AtEnd(ts, v, found)
    else
      var t := ts.tokens[i];
      if t.name == "VMAP" then
        FoldKeeps(t.attrs, v, VmapAttr, (x: Vmap) => x.adBreaks);
        VmapScan(ts, i + 1, FoldAttrs(t.attrs, v, VmapAttr).value, true)
      else if t.name == "AdBreak" then
        var b := AdBreakElement(ts, t, i + 1, EmptyAdBreak);
        if b.failure.Some? then Stopped(v, b.failure.value)
        else VmapScan(ts, b.next, v.(adBreaks := v.adBreaks + [b.value]), found)
      else VmapScan(ts, i + 1, v, found)
  }

  /** `DecodeVmap` on the tokens of a document. */
  function VmapDocument(ts: TokenStream): Outcome<Vmap>
  {
    VmapScan(ts, 0, EmptyVmap, false)
  }

  /** Tokens named neither "VMAP" nor "AdBreak" are passed over. */
  lemma {:induction false} VmapScanSkips(ts: TokenStream, i: nat, j: nat, v: Vmap, found: bool)
    requires i <= j <= |ts.tokens|
    requires forall k | i <= k < j :: ts.tokens[k].name != "VMAP" && ts.tokens[k].name != "AdBreak"
    ensures VmapScan(ts, i, v, found) == VmapScan(ts, j, v, found)
    decreases j - i
  {
    if i < j {
      VmapScanSkips(ts, i + 1, j, v, found);
    }
  }

  /**
   * An "AdBreak" token whose break decodes appends that break to the VMAP's
   * ad breaks, after the ones it already had, and the scan goes on right
   * after the break's end token.
   */
  lemma AdBreakAppended(ts: TokenStream, i: nat, j: nat, v: Vmap, found: bool)
    requires i <= j < |ts.tokens| && ts.tokens[j].name == "AdBreak"
    requires forall k | i <= k < j :: ts.tokens[k].name != "VMAP" && ts.tokens[k].name != "AdBreak"
    requires AdBreakElement(ts, ts.tokens[j], j + 1, EmptyAdBreak).failure.None?
    ensures var b := AdBreakElement(ts, ts.tokens[j], j + 1, EmptyAdBreak);
      VmapScan(ts, i, v, found) == VmapScan(ts, b.next, v.(adBreaks := v.adBreaks + [b.value]), found)
  {
    VmapScanSkips(ts, i, j, v, found);
  }

  /**
   * An "AdBreak" whose break fails ends `DecodeVmap` with the breaks decoded
   * before it and the break's error (or the nil-pointer panic).
   */
  lemma AdBreakFailureStops(ts: TokenStream, i: nat, j: nat, v: Vmap, found: bool)
    requires i <= j < |ts.tokens| && ts.tokens[j].name == "AdBreak"
    requires forall k | i <= k < j :: ts.tokens[k].name != "VMAP" && ts.tokens[k].name != "AdBreak"
    requires AdBreakElement(ts, ts.tokens[j], j + 1, EmptyAdBreak).failure.Some?
    ensures VmapScan(ts, i, v, found) == Stopped(v, AdBreakElement(ts, ts.tokens[j], j + 1, EmptyAdBreak).failure.value)
  {
    VmapScanSkips(ts, i, j, v, found);
  }

  /**
   * A document in which neither "VMAP" nor "AdBreak" occurs gives the zero
   * VMAP with "no VMAP token found", or panics when the tokenizer fails.
   */
  lemma VmapNoRoot(ts: TokenStream)
    requires forall k | 0 <= k < |ts.tokens| :: ts.tokens[k].name != "VMAP" && ts.tokens[k].name != "AdBreak"
    ensures VmapDocument(ts) == AtEnd(ts, EmptyVmap, false)
  {
    VmapScanSkips(ts, 0, |ts.tokens|, EmptyVmap, false);
  }

  /** When a "VMAP" token comes before any "AdBreak", the root is found. */
  lemma VmapRootFirst(ts: TokenStream, k: nat)
    requires k < |ts.tokens| && ts.tokens[k].name == "VMAP"
    requires forall j | 0 <= j < k :: ts.tokens[j].name != "VMAP" && ts.tokens[j].name != "AdBreak"
    ensures !IsNotFound(VmapDocument(ts))
  {
    VmapScanSkips(ts, 0, k, EmptyVmap, false);
  }

  /**
   * `XMLName.Local` is set only by a root that has attributes: a document
   * holding just the root gets "VMAP" there if the root has an attribute,
   * and keeps the empty name otherwise.
   */
  lemma RootNameNeedsAttribute(ts: TokenStream)
    requires |ts.tokens| == 1 && ts.tokens[0].name == "VMAP" && ts.terminal == EndOfInput
    ensures VmapDocument(ts).Returned? && VmapDocument(ts).error.None?
    ensures VmapDocument(ts).value.xmlName.local == if ts.tokens[0].attrs == [] then "" else "VMAP"
  {
    var v := FoldAttrs(ts.tokens[0].attrs, EmptyVmap, VmapAttr).value;
    VmapNameNeedsAttribute(ts.tokens[0].attrs, EmptyVmap);
    assert VmapScan(ts, 1, v, true) == Returned(v, None);
    assert VmapDocument(ts) == VmapScan(ts, 1, v, true);
  }

  /**
   * An `AdBreak` outside the root element is decoded and kept: here it
   * comes before `<VMAP>`, and the result holds it, with its `AdSource` and
   * `VASTData` allocated but no VAST.
   */
  lemma AdBreakOutsideRoot(ts: TokenStream)
    requires |ts.tokens| == 3 && ts.terminal == EndOfInput
    requires ts.tokens[0].name == "AdBreak" && ts.tokens[0].attrs == []
    requires ts.isEndElementOf(ts.tokens[1], ts.tokens[0])
    requires ts.tokens[2].name == "VMAP" && ts.tokens[2].attrs == []
    ensures VmapDocument(ts) == Returned(EmptyVmap.(adBreaks := [EmptyAdBreak.(adSource := Some(AdSource(Some(VastData(None)))))]), None)
  {
    var b := EmptyAdBreak.(adSource := Some(AdSource(Some(VastData(None)))));
    var v := EmptyVmap.(adBreaks := [b]);
    assert FoldAttrs(ts.tokens[0].attrs, b, AdBreakAttr) == Step(b, None);
    assert AdBreakChildren(ts, ts.tokens[0], 1, b) == Parsed(b, 2, None);
    assert AdBreakElement(ts, ts.tokens[0], 1, EmptyAdBreak) == Parsed(b, 2, None);
    assert EmptyVmap.adBreaks + [b] == [b];
    assert VmapDocument(ts) == VmapScan(ts, 2, v, false);
    assert FoldAttrs(ts.tokens[2].attrs, v, VmapAttr) == Step(v, None);
    assert VmapScan(ts, 3, v, true) == Returned(v, None);
  }

  /**
   * When a document has one "VMAP" token and no "AdBreak" before it, the
   * decoded VMAP's `version` and `vmap` are the last root attributes of
   * those names, and `XMLName.Space` is the `vmap` value.
   */
  lemma RootAttributesRead(ts: TokenStream, k: nat)
    requires k < |ts.tokens| && ts.tokens[k].name == "VMAP"
    requires forall j | 0 <= j < k :: ts.tokens[j].name != "VMAP" && ts.tokens[j].name != "AdBreak"
    requires forall j | k < j < |ts.tokens| :: ts.tokens[j].name != "VMAP"
    ensures var r := VmapDocument(ts); var attrs := ts.tokens[k].attrs;
      r.Returned? ==>
        r.value.version == LastValue(attrs, "version", []) && r.value.vmap == LastValue(attrs, "vmap", []) &&
        r.value.xmlName.space == r.value.vmap
  {
    VmapScanSkips(ts, 0, k, EmptyVmap, false);
    VmapRootAttributes(ts.tokens[k].attrs, EmptyVmap);
  }
}

=== FILE: element_facts.dfy ===
/**
 * Properties of the element decoders of `decoder.go`, stated on the
 * functions of `Elements`: where a decoder stops, what it collects and in
 * which order, what it passes over, and which errors abort it.
 */
module ElementFacts {
  import opened ByteText
  import opened Tokens
  import opened Failures
  import opened Attributes
  import opened Records
  import opened Codecs
  import opened Leaves
  import opened Elements

  /** No token of `ts.tokens[i..j]` is the end token of `se`. */
  predicate NoEndBetween(ts: TokenStream, se: Token, i: nat, j: nat)
    requires i <= j <= |ts.tokens|
  {
    forall m | i <= m < j :: !ts.isEndElementOf(ts.tokens[m], se)
  }

  /** The parameter a token contributes to an Extension: one for a `CreativeParameter` start token. */
  function ParameterHere(t: Token): (r: seq<CreativeParameter>)
    ensures |r| <= 1
  {
    if !t.isEnd && t.name == "CreativeParameter" then [ParameterOf(t)] else []
  }

  /** The `CreativeParameter` start tokens of `toks`, decoded, in document order. */
  function ParameterTokens(toks: seq<Token>): (r: seq<CreativeParameter>)
    ensures |r| <= |toks|
  {
    if toks == [] then [] else ParameterHere(toks[0]) + ParameterTokens(toks[1..])
  }

  lemma ParameterTokensFirst(toks: seq<Token>, i: nat, k: nat)
    requires i < k <= |toks|
    ensures ParameterTokens(toks[i..k]) == ParameterHere(toks[i]) + ParameterTokens(toks[i + 1..k])
  {
    assert toks[i..k][1..] == toks[i + 1..k];
  }

  /** One token of an Extension loop that is not the end of `se`. */
  lemma ExtensionStep(ts: TokenStream, se: Token, i: nat, e: Extension)
    requires i < |ts.tokens| && !ts.isEndElementOf(ts.tokens[i], se)
    ensures ExtensionChildren(ts, se, i, e) ==
      ExtensionChildren(ts, se, i + 1, e.(creativeParameters := e.creativeParameters + ParameterHere(ts.tokens[i])))
  {
    assert e.creativeParameters + [] == e.creativeParameters;
  }

  /** Appending two runs of parameters one after the other appends their concatenation. */
  lemma ParametersJoin(e: Extension, here: seq<CreativeParameter>, rest: seq<CreativeParameter>)
    ensures var e' := e.(creativeParameters := e.creativeParameters + here);
      e'.(creativeParameters := e'.creativeParameters + rest) == e.(creativeParameters := e.creativeParameters + (here + rest))
  {
    assert e.creativeParameters + here + rest == e.creativeParameters + (here + rest);
  }

  /**
   * An Extension loop stops right after the first end token of its start
   * token and holds every `CreativeParameter` met before it, in document
   * order, after the ones it already had.
   */
  lemma {:induction false} ExtensionCollects(ts: TokenStream, se: Token, i: nat, k: nat, e: Extension)
    requires i <= k < |ts.tokens| && ts.isEndElementOf(ts.tokens[k], se) && NoEndBetween(ts, se, i, k)
    ensures ExtensionChildren(ts, se, i, e) ==
      Parsed(e.(creativeParameters := e.creativeParameters + ParameterTokens(ts.tokens[i..k])), k + 1, None)
    decreases k - i
  {
    if i == k {
      assert ts.tokens[i..k] == [];
      assert e.creativeParameters + [] == e.creativeParameters;
    } else {
      var here := ParameterHere(ts.tokens[i]);
      var e' := e.(creativeParameters := e.creativeParameters + here);
      ExtensionStep(ts, se, i, e);
      ExtensionCollects(ts, se, i + 1, k, e');
      ParameterTokensFirst(ts.tokens, i, k);
      ParametersJoin(e, here, ParameterTokens(ts.tokens[i + 1..k]));
    }
  }

  /**
   * Without its end token the Extension loop pulls every token and returns
   * the tokenizer's terminal error, the end of input included.
   */
  lemma {:induction false} ExtensionTruncated(ts: TokenStream, se: Token, i: nat, e: Extension)
    requires i <= |ts.tokens| && NoEndBetween(ts, se, i, |ts.tokens|)
    ensures ExtensionChildren(ts, se, i, e).failure == Some(TokenizerError(ts.terminal))
    ensures ExtensionChildren(ts, se, i, e).next == |ts.tokens|
    decreases |ts.tokens| - i
  {
    if i < |ts.tokens| {
      ExtensionStep(ts, se, i, e);
      ExtensionTruncated(ts, se, i + 1, e.(creativeParameters := e.creativeParameters + ParameterHere(ts.tokens[i])));
    }
  }

  /* ---------- what the loops pass over ---------- */

  /**
   * Stray end tokens and start tokens other than `Ad` leave a VAST loop
   * where it was.
   */
  lemma {:induction false} VastSkips(ts: TokenStream, se: Token, i: nat, j: nat, v: Vast)
    requires i <= j <= |ts.tokens| && NoEndBetween(ts, se, i, j)
    requires forall m | i <= m < j :: ts.tokens[m].isEnd || ts.tokens[m].name != "Ad"
    ensures VastChildren(ts, se, i, v) == VastChildren(ts, se, j, v)
    decreases j - i
  {
    if i < j {
      assert !ts.isEndElementOf(ts.tokens[i], se);
      VastSkips(ts, se, i + 1, j, v);
    }
  }

  /** The same for an AdBreak loop, which acts on `VAST` and `Tracking` children only. */
  lemma {:induction false} AdBreakSkips(ts: TokenStream, se: Token, i: nat, j: nat, b: AdBreak)
    requires i <= j <= |ts.tokens| && NoEndBetween(ts, se, i, j) && HasVastData(b)
    requires forall m | i <= m < j :: ts.tokens[m].isEnd || (ts.tokens[m].name != "VAST" && ts.tokens[m].name != "Tracking")
    ensures AdBreakChildren(ts, se, i, b) == AdBreakChildren(ts, se, j, b)
    decreases j - i
  {
    if i < j {
      assert !ts.isEndElementOf(ts.tokens[i], se);
      AdBreakSkips(ts, se, i + 1, j, b);
    }
  }

  /** The same for a Creative loop, whose known children are the Linear's parts and `UniversalAdId`. */
  lemma {:induction false} CreativeSkips(ts: TokenStream, se: Token, i: nat, j: nat, c: Creative)
    requires i <= j <= |ts.tokens| && NoEndBetween(ts, se, i, j)
    requires forall m | i <= m < j :: ts.tokens[m].isEnd || ts.tokens[m].name !in CreativeChildNames
    ensures CreativeChildren(ts, se, i, c) == CreativeChildren(ts, se, j, c)
    decreases j - i
  {
    if i < j {
      assert !ts.isEndElementOf(ts.tokens[i], se);
      var t := ts.tokens[i];
      assert !t.isEnd ==> CreativeChild(c, t) == Step(c, None);
      CreativeSkips(ts, se, i + 1, j, c);
    }
  }

  /** The names `Creative.UnmarshalToken` acts on. */
  const CreativeChildNames: set<string> :=
    {"UniversalAdId", "Tracking", "ClickThrough", "ClickTracking", "Duration", "MediaFile"}

  /* ---------- AdBreak ---------- */

  /**
   * With a single `timeOffset` attribute that reads, the break's offset is
   * what the offset codec makes of its text over the offset the break held.
   */
  lemma BreakSingleOffset(ts: TokenStream, se: Token, i: nat, b: AdBreak, k: nat)
    requires i <= |ts.tokens|
    requires k < |se.attrs| && se.attrs[k].name == "timeOffset"
    requires forall m | 0 <= m < |se.attrs| && m != k :: se.attrs[m].name != "timeOffset"
    requires UnmarshalTimeOffset(TimeOffset(None, 0, 0), se.attrs[k].value).error.None?
    ensures AdBreakElement(ts, se, i, b).value.timeOffset == UnmarshalTimeOffset(b.timeOffset, se.attrs[k].value).offset
  {
    var b0 := b.(adSource := Some(AdSource(Some(VastData(None)))));
    assert OffsetsParse(se.attrs);
    AdBreakAttributes(se.attrs, b0);
    AdBreakSingleOffset(se.attrs, b0, k);
  }

  /**
   * A `Tracking` child of an AdBreak allocates the tracking list when it is
   * nil and appends the event after the ones it had.
   */
  lemma BreakTrackingAppended(ts: TokenStream, se: Token, i: nat, j: nat, b: AdBreak)
    requires i <= j < |ts.tokens| && NoEndBetween(ts, se, i, j + 1) && HasVastData(b)
    requires forall m | i <= m < j :: ts.tokens[m].isEnd || (ts.tokens[m].name != "VAST" && ts.tokens[m].name != "Tracking")
    requires !ts.tokens[j].isEnd && ts.tokens[j].name == "Tracking"
    ensures var events := if b.trackingEvents.Some? then b.trackingEvents.value else [];
      AdBreakChildren(ts, se, i, b) ==
      AdBreakChildren(ts, se, j + 1, b.(trackingEvents := Some(events + [TrackingOf(ts.tokens[j])])))
  {
    AdBreakSkips(ts, se, i, j, b);
    assert !ts.isEndElementOf(ts.tokens[j], se);
  }

  /**
   * A self-closing `<VAST/>` child stores a zero VAST in
   * `AdSource.VASTData.VAST`; with the end token right after it, the AdBreak
   * is complete.
   */
  lemma SelfClosingVastChild(ts: TokenStream, se: Token, i: nat, j: nat, b: AdBreak)
    requires i <= j && j + 1 < |ts.tokens| && NoEndBetween(ts, se, i, j + 1) && HasVastData(b)
    requires forall m | i <= m < j :: ts.tokens[m].isEnd || (ts.tokens[m].name != "VAST" && ts.tokens[m].name != "Tracking")
    requires !ts.tokens[j].isEnd && ts.tokens[j].name == "VAST" && ts.tokens[j].selfClosing
    requires ts.isEndElementOf(ts.tokens[j + 1], se)
    ensures AdBreakChildren(ts, se, i, b) == Parsed(WithVast(b, EmptyVast), j + 2, None)
  {
    AdBreakSkips(ts, se, i, j, b);
    assert !ts.isEndElementOf(ts.tokens[j], se);
  }

  /**
   * A `VAST` child that decodes stores the decoded VAST, and the loop goes
   * on right after the child's end token.
   */
  lemma VastChildStored(ts: TokenStream, se: Token, i: nat, j: nat, b: AdBreak)
    requires i <= j < |ts.tokens| && NoEndBetween(ts, se, i, j + 1) && HasVastData(b)
    requires forall m | i <= m < j :: ts.tokens[m].isEnd || (ts.tokens[m].name != "VAST" && ts.tokens[m].name != "Tracking")
    requires !ts.tokens[j].isEnd && ts.tokens[j].name == "VAST" && !ts.tokens[j].selfClosing
    requires VastElement(ts, ts.tokens[j], j + 1, EmptyVast).failure.None?
    ensures var v := VastElement(ts, ts.tokens[j], j + 1, EmptyVast);
      AdBreakChildren(ts, se, i, b) == AdBreakChildren(ts, se, v.next, WithVast(b, v.value))
  {
    AdBreakSkips(ts, se, i, j, b);
    assert !ts.isEndElementOf(ts.tokens[j], se);
  }

  /**
   * A `timeOffset` attribute that does not parse aborts the AdBreak before
   * any child token is pulled, with the offset error.
   */
  lemma AdBreakBadTimeOffset(ts: TokenStream, se: Token, i: nat, b: AdBreak, k: nat)
    requires i <= |ts.tokens| && k < |se.attrs| && se.attrs[k].name == "timeOffset"
    requires UnmarshalTimeOffset(TimeOffset(None, 0, 0), se.attrs[k].value).error.Some?
    ensures AdBreakElement(ts, se, i, b).next == i
    ensures AdBreakElement(ts, se, i, b).failure.Some? && AdBreakElement(ts, se, i, b).failure.value.BadTimeOffset?
  {
    var b0 := b.(adSource := Some(AdSource(Some(VastData(None)))));
    AdBreakBadOffset(se.attrs, b0, k);
    var kinds := {BadTimeOffset(InvalidDurationFormat), BadTimeOffset(DurationSyntax),
                  BadTimeOffset(PercentSyntax), BadTimeOffset(PositionSyntax)};
    FoldFailureKinds(se.attrs, b0, AdBreakAttr, kinds);
  }

  /* ---------- Ad ---------- */

  /**
   * A `sequence` attribute that `strconv.Atoi` rejects aborts the Ad
   * before any child token is pulled.
   */
  lemma AdBadSequence(ts: TokenStream, se: Token, i: nat, ad: Ad, k: nat)
    requires i <= |ts.tokens| && k < |se.attrs| && se.attrs[k].name == "sequence" && Atoi(se.attrs[k].value).None?
    ensures AdElement(ts, se, i, ad).failure == Some(NumberSyntax)
    ensures AdElement(ts, se, i, ad).next == i
  {
    FoldFails(se.attrs, ad, AdAttr, k);
    FoldFailureKinds(se.attrs, ad, AdAttr, {NumberSyntax});
  }

  /** Attributes other than `id` and `sequence` are ignored by the Ad decoder. */
  lemma AdOtherAttributes(attrs: seq<Attr>, ad: Ad)
    requires forall k | 0 <= k < |attrs| :: attrs[k].name != "id" && attrs[k].name != "sequence"
    ensures FoldAttrs(attrs, ad, AdAttr) == Step(ad, None)
  {
    FoldIdle(attrs, ad, AdAttr);
  }

  /* ---------- Creative ---------- */

  /**
   * A `Duration` child whose text does not decode aborts the Creative: the
   * `Linear` is allocated, its duration is left as it was, and the error
   * is the duration codec's.
   */
  lemma CreativeBadDuration(ts: TokenStream, se: Token, i: nat, j: nat, c: Creative)
    requires i <= j < |ts.tokens| && NoEndBetween(ts, se, i, j + 1)
    requires forall m | i <= m < j :: ts.tokens[m].isEnd || ts.tokens[m].name !in CreativeChildNames
    requires !ts.tokens[j].isEnd && ts.tokens[j].name == "Duration"
    requires UnmarshalDuration(TextOf(ts.tokens[j])).Err?
    ensures CreativeChildren(ts, se, i, c) ==
      Parsed(c.(linear := Some(LinearOf(c))), j + 1, Some(BadDuration(UnmarshalDuration(TextOf(ts.tokens[j])).error)))
  {
    CreativeSkips(ts, se, i, j, c);
    assert !ts.isEndElementOf(ts.tokens[j], se);
  }

  /**
   * A `ClickThrough` met before any child that allocates the `Linear`
   * dereferences nil.
   */
  lemma ClickThroughBeforeLinear(ts: TokenStream, se: Token, i: nat, j: nat, c: Creative)
    requires i <= j < |ts.tokens| && NoEndBetween(ts, se, i, j + 1) && c.linear.None?
    requires forall m | i <= m < j :: ts.tokens[m].isEnd || ts.tokens[m].name !in CreativeChildNames
    requires !ts.tokens[j].isEnd && ts.tokens[j].name == "ClickThrough"
    ensures CreativeChildren(ts, se, i, c) == Parsed(c, j + 1, Some(NilLinear))
  {
    CreativeSkips(ts, se, i, j, c);
    assert !ts.isEndElementOf(ts.tokens[j], se);
  }

  /**
   * A `Tracking` child of a Creative allocates the `Linear` when it is nil
   * and appends the event to its tracking events, after the ones it had.
   */
  lemma TrackingAppended(ts: TokenStream, se: Token, i: nat, j: nat, c: Creative)
    requires i <= j < |ts.tokens| && NoEndBetween(ts, se, i, j + 1)
    requires forall m | i <= m < j :: ts.tokens[m].isEnd || ts.tokens[m].name !in CreativeChildNames
    requires !ts.tokens[j].isEnd && ts.tokens[j].name == "Tracking"
    ensures var l := LinearOf(c);
      CreativeChildren(ts, se, i, c) ==
      CreativeChildren(ts, se, j + 1, c.(linear := Some(l.(trackingEvents := l.trackingEvents + [TrackingOf(ts.tokens[j])]))))
  {
    CreativeSkips(ts, se, i, j, c);
    assert !ts.isEndElementOf(ts.tokens[j], se);
  }

  /** A `ClickTracking` child is appended to the `Linear`'s click trackings in the same way. */
  lemma ClickTrackingAppended(ts: TokenStream, se: Token, i: nat, j: nat, c: Creative)
    requires i <= j < |ts.tokens| && NoEndBetween(ts, se, i, j + 1)
    requires forall m | i <= m < j :: ts.tokens[m].isEnd || ts.tokens[m].name !in CreativeChildNames
    requires !ts.tokens[j].isEnd && ts.tokens[j].name == "ClickTracking"
    ensures var l := LinearOf(c);
      CreativeChildren(ts, se, i, c) ==
      CreativeChildren(ts, se, j + 1, c.(linear := Some(l.(clickTracking := l.clickTracking + [ClickTrackingOf(ts.tokens[j])]))))
  {
    CreativeSkips(ts, se, i, j, c);
    assert !ts.isEndElementOf(ts.tokens[j], se);
  }

  /** A `MediaFile` child whose numbers are readable is appended to the `Linear`'s media files. */
  lemma MediaFileAppended(ts: TokenStream, se: Token, i: nat, j: nat, c: Creative)
    requires i <= j < |ts.tokens| && NoEndBetween(ts, se, i, j + 1)
    requires forall m | i <= m < j :: ts.tokens[m].isEnd || ts.tokens[m].name !in CreativeChildNames
    requires !ts.tokens[j].isEnd && ts.tokens[j].name == "MediaFile"
    requires MediaFileOf(ts.tokens[j]).failure.None?
    ensures var l := LinearOf(c);
      CreativeChildren(ts, se, i, c) ==
      CreativeChildren(ts, se, j + 1, c.(linear := Some(l.(mediaFiles := l.mediaFiles + [MediaFileOf(ts.tokens[j]).value]))))
  {
    CreativeSkips(ts, se, i, j, c);
    assert !ts.isEndElementOf(ts.tokens[j], se);
  }

  /** A `UniversalAdId` child replaces the Creative's universal ad id. */
  lemma UniversalAdIdSet(ts: TokenStream, se: Token, i: nat, j: nat, c: Creative)
    requires i <= j < |ts.tokens| && NoEndBetween(ts, se, i, j + 1)
    requires forall m | i <= m < j :: ts.tokens[m].isEnd || ts.tokens[m].name !in CreativeChildNames
    requires !ts.tokens[j].isEnd && ts.tokens[j].name == "UniversalAdId"
    ensures CreativeChildren(ts, se, i, c) ==
      CreativeChildren(ts, se, j + 1, c.(universalAdId := Some(UniversalAdIdOf(ts.tokens[j]))))
  {
    CreativeSkips(ts, se, i, j, c);
    assert !ts.isEndElementOf(ts.tokens[j], se);
  }

  /** A `ClickThrough` child of a Creative that has a `Linear` replaces its click-through. */
  lemma ClickThroughSet(ts: TokenStream, se: Token, i: nat, j: nat, c: Creative)
    requires i <= j < |ts.tokens| && NoEndBetween(ts, se, i, j + 1) && c.linear.Some?
    requires forall m | i <= m < j :: ts.tokens[m].isEnd || ts.tokens[m].name !in CreativeChildNames
    requires !ts.tokens[j].isEnd && ts.tokens[j].name == "ClickThrough"
    ensures CreativeChildren(ts, se, i, c) ==
      CreativeChildren(ts, se, j + 1, c.(linear := Some(c.linear.value.(clickThrough := Some(ClickThroughOf(ts.tokens[j]))))))
  {
    CreativeSkips(ts, se, i, j, c);
    assert !ts.isEndElementOf(ts.tokens[j], se);
  }

  /**
   * A `Duration` child whose text decodes allocates the `Linear` when it is
   * nil and sets its duration to the decoded value.
   */
  lemma DurationSet(ts: TokenStream, se: Token, i: nat, j: nat, c: Creative)
    requires i <= j < |ts.tokens| && NoEndBetween(ts, se, i, j + 1)
    requires forall m | i <= m < j :: ts.tokens[m].isEnd || ts.tokens[m].name !in CreativeChildNames
    requires !ts.tokens[j].isEnd && ts.tokens[j].name == "Duration"
    requires UnmarshalDuration(TextOf(ts.tokens[j])).Ok?
    ensures CreativeChildren(ts, se, i, c) ==
      CreativeChildren(ts, se, j + 1, c.(linear := Some(LinearOf(c).(duration := UnmarshalDuration(TextOf(ts.tokens[j])).value))))
  {
    CreativeSkips(ts, se, i, j, c);
    assert !ts.isEndElementOf(ts.tokens[j], se);
  }

  /* ---------- InLine ---------- */

  /** The names `InLine.UnmarshalToken` acts on. */
  const InLineChildNames: set<string> := {"Creative", "Extension", "Impression", "AdSystem", "AdTitle", "Error"}

  /** Stray end tokens and unknown children leave an InLine loop where it was. */
  lemma {:induction false} InLineSkips(ts: TokenStream, se: Token, i: nat, j: nat, l: InLine)
    requires i <= j <= |ts.tokens| && NoEndBetween(ts, se, i, j)
    requires forall m | i <= m < j :: ts.tokens[m].isEnd || ts.tokens[m].name !in InLineChildNames
    ensures InLineChildren(ts, se, i, l) == InLineChildren(ts, se, j, l)
    decreases j - i
  {
    if i < j {
      assert !ts.isEndElementOf(ts.tokens[i], se);
      var t := ts.tokens[i];
      assert !t.isEnd ==> InLineLeaf(l, t) == l;
      InLineSkips(ts, se, i + 1, j, l);
    }
  }

  /**
   * A `Creative` child that decodes is appended to the InLine's creatives,
   * and the loop goes on right after the child's end token.
   */
  lemma CreativeAppended(ts: TokenStream, se: Token, i: nat, j: nat, l: InLine)
    requires i <= j < |ts.tokens| && NoEndBetween(ts, se, i, j + 1)
    requires forall m | i <= m < j :: ts.tokens[m].isEnd || ts.tokens[m].name !in InLineChildNames
    requires !ts.tokens[j].isEnd && ts.tokens[j].name == "Creative"
    requires CreativeElement(ts, ts.tokens[j], j + 1, EmptyCreative).failure.None?
    ensures var c := CreativeElement(ts, ts.tokens[j], j + 1, EmptyCreative);
      InLineChildren(ts, se, i, l) == InLineChildren(ts, se, c.next, l.(creatives := l.creatives + [c.value]))
  {
    InLineSkips(ts, se, i, j, l);
    assert !ts.isEndElementOf(ts.tokens[j], se);
  }

  /** An `Extension` child that decodes is appended to the InLine's extensions. */
  lemma ExtensionAppended(ts: TokenStream, se: Token, i: nat, j: nat, l: InLine)
    requires i <= j < |ts.tokens| && NoEndBetween(ts, se, i, j + 1)
    requires forall m | i <= m < j :: ts.tokens[m].isEnd || ts.tokens[m].name !in InLineChildNames
    requires !ts.tokens[j].isEnd && ts.tokens[j].name == "Extension"
    requires ExtensionElement(ts, ts.tokens[j], j + 1, EmptyExtension).failure.None?
    ensures var e := ExtensionElement(ts, ts.tokens[j], j + 1, EmptyExtension);
      InLineChildren(ts, se, i, l) == InLineChildren(ts, se, e.next, l.(extensions := l.extensions + [e.value]))
  {
    InLineSkips(ts, se, i, j, l);
    assert !ts.isEndElementOf(ts.tokens[j], se);
  }

  /** An `Impression` child is appended to the InLine's impressions. */
  lemma ImpressionAppended(ts: TokenStream, se: Token, i: nat, j: nat, l: InLine)
    requires i <= j < |ts.tokens| && NoEndBetween(ts, se, i, j + 1)
    requires forall m | i <= m < j :: ts.tokens[m].isEnd || ts.tokens[m].name !in InLineChildNames
    requires !ts.tokens[j].isEnd && ts.tokens[j].name == "Impression"
    ensures InLineChildren(ts, se, i, l) ==
      InLineChildren(ts, se, j + 1, l.(impression := l.impression + [ImpressionOf(ts.tokens[j])]))
  {
    InLineSkips(ts, se, i, j, l);
    assert !ts.isEndElementOf(ts.tokens[j], se);
  }

  /** An `AdSystem` child replaces the InLine's ad system with its text. */
  lemma AdSystemSet(ts: TokenStream, se: Token, i: nat, j: nat, l: InLine)
    requires i <= j < |ts.tokens| && NoEndBetween(ts, se, i, j + 1)
    requires forall m | i <= m < j :: ts.tokens[m].isEnd || ts.tokens[m].name !in InLineChildNames
    requires !ts.tokens[j].isEnd && ts.tokens[j].name == "AdSystem"
    ensures InLineChildren(ts, se, i, l) == InLineChildren(ts, se, j + 1, l.(adSystem := TextOf(ts.tokens[j])))
  {
    InLineSkips(ts, se, i, j, l);
    assert !ts.isEndElementOf(ts.tokens[j], se);
  }

  /** An `AdTitle` child replaces the InLine's ad title with its text. */
  lemma AdTitleSet(ts: TokenStream, se: Token, i: nat, j: nat, l: InLine)
    requires i <= j < |ts.tokens| && NoEndBetween(ts, se, i, j + 1)
    requires forall m | i <= m < j :: ts.tokens[m].isEnd || ts.tokens[m].name !in InLineChildNames
    requires !ts.tokens[j].isEnd && ts.tokens[j].name == "AdTitle"
    ensures InLineChildren(ts, se, i, l) == InLineChildren(ts, se, j + 1, l.(adTitle := TextOf(ts.tokens[j])))
  {
    InLineSkips(ts, se, i, j, l);
    assert !ts.isEndElementOf(ts.tokens[j], se);
  }

  /** An `Error` child replaces the InLine's error element with one holding its text. */
  lemma ErrorSet(ts: TokenStream, se: Token, i: nat, j: nat, l: InLine)
    requires i <= j < |ts.tokens| && NoEndBetween(ts, se, i, j + 1)
    requires forall m | i <= m < j :: ts.tokens[m].isEnd || ts.tokens[m].name !in InLineChildNames
    requires !ts.tokens[j].isEnd && ts.tokens[j].name == "Error"
    ensures InLineChildren(ts, se, i, l) == InLineChildren(ts, se, j + 1, l.(error := Some(ErrorElement(TextOf(ts.tokens[j])))))
  {
    InLineSkips(ts, se, i, j, l);
    assert !ts.isEndElementOf(ts.tokens[j], se);
  }

  /**
   * A nested Creative that fails stops the InLine loop with its error and
   * the InLine as it was before that child.
   */
  lemma CreativeFailureStops(ts: TokenStream, se: Token, i: nat, j: nat, l: InLine)
    requires i <= j < |ts.tokens| && NoEndBetween(ts, se, i, j + 1)
    requires forall m | i <= m < j :: ts.tokens[m].isEnd || ts.tokens[m].name !in InLineChildNames
    requires !ts.tokens[j].isEnd && ts.tokens[j].name == "Creative"
    requires CreativeElement(ts, ts.tokens[j], j + 1, EmptyCreative).failure.Some?
    ensures var c := CreativeElement(ts, ts.tokens[j], j + 1, EmptyCreative);
      InLineChildren(ts, se, i, l) == Parsed(l, c.next, c.failure)
  {
    InLineSkips(ts, se, i, j, l);
    assert !ts.isEndElementOf(ts.tokens[j], se);
  }

  /**
   * Without its end token, and with no nested Creative or Extension to
   * decode, the InLine loop pulls every token and returns the tokenizer's
   * terminal error; its creatives and extensions are unchanged.
   */
  lemma {:induction false} InLineTruncated(ts: TokenStream, se: Token, i: nat, l: InLine)
    requires i <= |ts.tokens| && NoEndBetween(ts, se, i, |ts.tokens|)
    requires forall m | i <= m < |ts.tokens| :: ts.tokens[m].isEnd || (ts.tokens[m].name != "Creative" && ts.tokens[m].name != "Extension")
    ensures InLineChildren(ts, se, i, l).failure == Some(TokenizerError(ts.terminal))
    ensures InLineChildren(ts, se, i, l).next == |ts.tokens|
    ensures InLineChildren(ts, se, i, l).value.creatives == l.creatives
    ensures InLineChildren(ts, se, i, l).value.extensions == l.extensions
    decreases |ts.tokens| - i
  {
    if i < |ts.tokens| {
      var t := ts.tokens[i];
      assert !ts.isEndElementOf(t, se);
      if t.isEnd {
        InLineTruncated(ts, se, i + 1, l);
      } else {
        InLineTruncated(ts, se, i + 1, InLineLeaf(l, t));
      }
    }
  }

  /* ---------- Ad ---------- */

  /** Stray end tokens and children other than `InLine` leave an Ad loop where it was. */
  lemma {:induction false} AdSkips(ts: TokenStream, se: Token, i: nat, j: nat, ad: Ad)
    requires i <= j <= |ts.tokens| && NoEndBetween(ts, se, i, j)
    requires forall m | i <= m < j :: ts.tokens[m].isEnd || ts.tokens[m].name != "InLine"
    ensures AdChildren(ts, se, i, ad) == AdChildren(ts, se, j, ad)
    decreases j - i
  {
    if i < j {
      assert !ts.isEndElementOf(ts.tokens[i], se);
      AdSkips(ts, se, i + 1, j, ad);
    }
  }

  /**
   * An `InLine` child that decodes is stored as the Ad's `InLine`, and the
   * loop goes on right after the child's end token.
   */
  lemma InLineStored(ts: TokenStream, se: Token, i: nat, j: nat, ad: Ad)
    requires i <= j < |ts.tokens| && NoEndBetween(ts, se, i, j + 1)
    requires forall m | i <= m < j :: ts.tokens[m].isEnd || ts.tokens[m].name != "InLine"
    requires !ts.tokens[j].isEnd && ts.tokens[j].name == "InLine"
    requires InLineChildren(ts, ts.tokens[j], j + 1, EmptyInLine).failure.None?
    ensures var l := InLineChildren(ts, ts.tokens[j], j + 1, EmptyInLine);
      AdChildren(ts, se, i, ad) == AdChildren(ts, se, l.next, ad.(inLine := Some(l.value)))
  {
    AdSkips(ts, se, i, j, ad);
    assert !ts.isEndElementOf(ts.tokens[j], se);
  }

  /**
   * An Ad whose `InLine` child is cut off (no end token for it, and no
   * Creative or Extension inside) returns the tokenizer's terminal error
   * after pulling every token: the nested loop's error is passed up.
   */
  lemma AdTruncatedInLine(ts: TokenStream, se: Token, i: nat, j: nat, ad: Ad)
    requires i <= j < |ts.tokens| && NoEndBetween(ts, se, i, j + 1)
    requires forall m | i <= m < j :: ts.tokens[m].isEnd || ts.tokens[m].name != "InLine"
    requires !ts.tokens[j].isEnd && ts.tokens[j].name == "InLine"
    requires NoEndBetween(ts, ts.tokens[j], j + 1, |ts.tokens|)
    requires forall m | j < m < |ts.tokens| :: ts.tokens[m].isEnd || (ts.tokens[m].name != "Creative" && ts.tokens[m].name != "Extension")
    ensures AdChildren(ts, se, i, ad) == Parsed(ad, |ts.tokens|, Some(TokenizerError(ts.terminal)))
  {
    AdSkips(ts, se, i, j, ad);
    assert !ts.isEndElementOf(ts.tokens[j], se);
    InLineTruncated(ts, ts.tokens[j], j + 1, EmptyInLine);
  }

  /* ---------- VAST ---------- */

  /**
   * An `Ad` child that decodes is appended to the VAST's ads, after the ones
   * it already had, and the loop goes on right after the child's end token.
   */
  lemma AdAppended(ts: TokenStream, se: Token, i: nat, j: nat, v: Vast)
    requires i <= j < |ts.tokens| && NoEndBetween(ts, se, i, j + 1)
    requires forall m | i <= m < j :: ts.tokens[m].isEnd || ts.tokens[m].name != "Ad"
    requires !ts.tokens[j].isEnd && ts.tokens[j].name == "Ad"
    requires AdElement(ts, ts.tokens[j], j + 1, EmptyAd).failure.None?
    ensures var ad := AdElement(ts, ts.tokens[j], j + 1, EmptyAd);
      VastChildren(ts, se, i, v) == VastChildren(ts, se, ad.next, v.(ads := v.ads + [ad.value]))
  {
    VastSkips(ts, se, i, j, v);
    assert !ts.isEndElementOf(ts.tokens[j], se);
  }

  /** An `Ad` child that fails stops the VAST loop with its error, keeping the ads before it. */
  lemma AdFailureStops(ts: TokenStream, se: Token, i: nat, j: nat, v: Vast)
    requires i <= j < |ts.tokens| && NoEndBetween(ts, se, i, j + 1)
    requires forall m | i <= m < j :: ts.tokens[m].isEnd || ts.tokens[m].name != "Ad"
    requires !ts.tokens[j].isEnd && ts.tokens[j].name == "Ad"
    requires AdElement(ts, ts.tokens[j], j + 1, EmptyAd).failure.Some?
    ensures var ad := AdElement(ts, ts.tokens[j], j + 1, EmptyAd);
      VastChildren(ts, se, i, v) == Parsed(v, ad.next, ad.failure)
  {
    VastSkips(ts, se, i, j, v);
    assert !ts.isEndElementOf(ts.tokens[j], se);
  }
}

=== FILE: elements.dfy ===
/**
 * What each `UnmarshalToken` of `decoder.go` does, as functions of the
 * token stream. `XChildren(ts, se, i, x)` is the token loop of element X
 * whose start token is `se`, entered at the cursor `i` with the receiver
 * holding `x`: a pull at the end of the stream returns the terminal error;
 * the end token of `se` finishes; any other end token is skipped; a start
 * token is dispatched on its local name to a nested decoder or a leaf, and
 * every other name is skipped. `XElement` runs the attribute switch first.
 * The methods in `Decoder` are proved to compute these functions.
 */
module Elements {
  import opened ByteText
  import opened Tokens
  import opened Failures
  import opened Attributes
  import opened Records
  import opened Codecs
  import opened Leaves

  /**
   * A successful decoder entered at `i` stopped just after the end token
   * of `se`, which is the last token it pulled.
   */
  predicate EndsAt<T>(ts: TokenStream, se: Token, i: nat, r: Parsed<T>)
  {
    r.failure.None? ==> i < r.next <= |ts.tokens| && ts.isEndElementOf(ts.tokens[r.next - 1], se)
  }

  /* ---------- Extension ---------- */

  function ExtensionChildren(ts: TokenStream, se: Token, i: nat, e: Extension): (r: Parsed<Extension>)
    requires i <= |ts.tokens|
    ensures EndsAt(ts, se, i, r)
    ensures r.value.extensionType == e.extensionType
    ensures e.creativeParameters <= r.value.creativeParameters
    decreases |ts.tokens| - i
  {
    if i == |ts.tokens| then Parsed(e, i, Some(TokenizerError(ts.terminal)))
    else
      var t := ts.tokens[i];
      if ts.isEndElementOf(t, se) then Parsed(e, i + 1, None)
      else if t.isEnd then ExtensionChildren(ts, se, i + 1, e)
      else if t.name == "CreativeParameter" then
        ExtensionChildren(ts, se, i + 1, e.(creativeParameters := e.creativeParameters + [ParameterOf(t)]))
      else ExtensionChildren(ts, se, i + 1, e)
  }

  function ExtensionElement(ts: TokenStream, se: Token, i: nat, e: Extension): (r: Parsed<Extension>)
    requires i <= |ts.tokens|
    ensures EndsAt(ts, se, i, r)
    ensures r.value.extensionType == LastValue(se.attrs, "type", e.extensionType)
    ensures e.creativeParameters <= r.value.creativeParameters
  {
    ExtensionAttributes(se.attrs, e);
    ExtensionChildren(ts, se, i, FoldAttrs(se.attrs, e, ExtensionAttr).value)
  }

  /* ---------- Creative ---------- */

  /** `c.Linear`, allocated empty when it is nil. */
  function LinearOf(c: Creative): Linear
  {
    if c.linear.Some? then c.linear.value else EmptyLinear
  }

  /** The lists of `after` extend those of `before`. */
  predicate LinearGrows(before: Linear, after: Linear)
  {
    before.trackingEvents <= after.trackingEvents &&
    before.mediaFiles <= after.mediaFiles &&
    before.clickTracking <= after.clickTracking
  }

  /**
   * The `switch` of `Creative.UnmarshalToken` on one start token: the
   * creative after it, or the error (or nil-pointer panic) it stops with.
   * `Tracking`, `ClickTracking`, `Duration` and `MediaFile` allocate the
   * `Linear` first; `ClickThrough` does not.
   */
  function CreativeChild(c: Creative, t: Token): (s: Step<Creative>)
    ensures s.value.id == c.id && s.value.adId == c.adId
    ensures c.linear.Some? ==> s.value.linear.Some? && LinearGrows(c.linear.value, s.value.linear.value)
    ensures s.failure == Some(NilLinear) <==> t.name == "ClickThrough" && c.linear.None?
  {
    if t.name == "UniversalAdId" then Step(c.(universalAdId := Some(UniversalAdIdOf(t))), None)
    else if t.name == "Tracking" then
      var l := LinearOf(c);
      Step(c.(linear := Some(l.(trackingEvents := l.trackingEvents + [TrackingOf(t)]))), None)
    else if t.name == "ClickThrough" then
      if c.linear.None? then Step(c, Some(NilLinear))
      else Step(c.(linear := Some(c.linear.value.(clickThrough := Some(ClickThroughOf(t))))), None)
    else if t.name == "ClickTracking" then
      var l := LinearOf(c);
      Step(c.(linear := Some(l.(clickTracking := l.clickTracking + [ClickTrackingOf(t)]))), None)
    else if t.name == "Duration" then
      var l := LinearOf(c);
      match UnmarshalDuration(TextOf(t))
      case Err(e) => Step(c.(linear := Some(l)), Some(BadDuration(e)))
      case Ok(d) => Step(c.(linear := Some(l.(duration := d))), None)
    else if t.name == "MediaFile" then
      var l := LinearOf(c);
      var m := MediaFileOf(t);
      if m.failure.Some? then Step(c.(linear := Some(l)), m.failure)
      else Step(c.(linear := Some(l.(mediaFiles := l.mediaFiles + [m.value]))), None)
    else Step(c, None)
  }

  function CreativeChildren(ts: TokenStream, se: Token, i: nat, c: Creative): (r: Parsed<Creative>)
    requires i <= |ts.tokens|
    ensures EndsAt(ts, se, i, r)
    ensures r.value.id == c.id && r.value.adId == c.adId
    ensures c.linear.Some? ==> r.value.linear.Some? && LinearGrows(c.linear.value, r.value.linear.value)
    ensures c.linear.Some? ==> r.failure != Some(NilLinear)
    decreases |ts.tokens| - i
  {
    if i == |ts.tokens| then Parsed(c, i, Some(TokenizerError(ts.terminal)))
    else
      var t := ts.tokens[i];
      if ts.isEndElementOf(t, se) then Parsed(c, i + 1, None)
      else if t.isEnd then CreativeChildren(ts, se, i + 1, c)
      else
        var s := CreativeChild(c, t);
        if s.failure.Some? then Parsed(s.value, i + 1, s.failure)
        else CreativeChildren(ts, se, i + 1, s.value)
  }

  function CreativeElement(ts: TokenStream, se: Token, i: nat, c: Creative): (r: Parsed<Creative>)
    requires i <= |ts.tokens|
    ensures EndsAt(ts, se, i, r)
    ensures r.value.id == LastValue(se.attrs, "id", c.id) && r.value.adId == LastValue(se.attrs, "adId", c.adId)
  {
    CreativeAttributes(se.attrs, c);
    CreativeChildren(ts, se, i, FoldAttrs(se.attrs, c, CreativeAttr).value)
  }

  /* ---------- InLine ---------- */

  /** The leaf children of an InLine: the receiver after one start token that is not a Creative or an Extension. */
  function InLineLeaf(l: InLine, t: Token): (r: InLine)
    ensures l.impression <= r.impression && r.creatives == l.creatives && r.extensions == l.extensions
  {
    if t.name == "Impression" then l.(impression := l.impression + [ImpressionOf(t)])
    else if t.name == "AdSystem" then l.(adSystem := TextOf(t))
    else if t.name == "AdTitle" then l.(adTitle := TextOf(t))
    else if t.name == "Error" then l.(error := Some(ErrorElement(TextOf(t))))
    else l
  }

  function InLineChildren(ts: TokenStream, se: Token, i: nat, l: InLine): (r: Parsed<InLine>)
    requires i <= |ts.tokens|
    ensures EndsAt(ts, se, i, r)
    ensures l.impression <= r.value.impression && l.creatives <= r.value.creatives && l.extensions <= r.value.extensions
    decreases |ts.tokens| - i
  {
    if i == |ts.tokens| then Parsed(l, i, Some(TokenizerError(ts.terminal)))
    else
      var t := ts.tokens[i];
      if ts.isEndElementOf(t, se) then Parsed(l, i + 1, None)
      else if t.isEnd then InLineChildren(ts, se, i + 1, l)
      else if t.name == "Creative" then
        var c := CreativeElement(ts, t, i + 1, EmptyCreative);
        if c.failure.Some? then Parsed(l, c.next, c.failure)
        else InLineChildren(ts, se, c.next, l.(creatives := l.creatives + [c.value]))
      else if t.name == "Extension" then
        var e := ExtensionElement(ts, t, i + 1, EmptyExtension);
        if e.failure.Some? then Parsed(l, e.next, e.failure)
        else InLineChildren(ts, se, e.next, l.(extensions := l.extensions + [e.value]))
      else InLineChildren(ts, se, i + 1, InLineLeaf(l, t))
  }

  /* ---------- Ad ---------- */

  function AdChildren(ts: TokenStream, se: Token, i: nat, ad: Ad): (r: Parsed<Ad>)
    requires i <= |ts.tokens|
    ensures EndsAt(ts, se, i, r)
    ensures r.value.id == ad.id && r.value.sequence == ad.sequence
    decreases |ts.tokens| - i
  {
    if i == |ts.tokens| then Parsed(ad, i, Some(TokenizerError(ts.terminal)))
    else
      var t := ts.tokens[i];
      if ts.isEndElementOf(t, se) then Parsed(ad, i + 1, None)
      else if t.isEnd then AdChildren(ts, se, i + 1, ad)
      else if t.name == "InLine" then
        var l := InLineChildren(ts, t, i + 1, EmptyInLine);
        if l.failure.Some? then Parsed(ad, l.next, l.failure)
        else AdChildren(ts, se, l.next, ad.(inLine := Some(l.value)))
      else AdChildren(ts, se, i + 1, ad)
  }

  function AdElement(ts: TokenStream, se: Token, i: nat, ad: Ad): (r: Parsed<Ad>)
    requires i <= |ts.tokens|
    ensures EndsAt(ts, se, i, r)
    ensures SequencesParse(se.attrs) ==>
      r.value.id == LastValue(se.attrs, "id", ad.id) && r.value.sequence == LastNumber(se.attrs, "sequence", ad.sequence)
  {
    AdAttributes(se.attrs, ad);
    var a := FoldAttrs(se.attrs, ad, AdAttr);
    if a.failure.Some? then Parsed(a.value, i, a.failure) else AdChildren(ts, se, i, a.value)
  }

  /* ---------- VAST ---------- */

  function VastChildren(ts: TokenStream, se: Token, i: nat, v: Vast): (r: Parsed<Vast>)
    requires i <= |ts.tokens|
    ensures EndsAt(ts, se, i, r)
    ensures r.value.version == v.version && v.ads <= r.value.ads
    decreases |ts.tokens| - i
  {
    if i == |ts.tokens| then Parsed(v, i, Some(TokenizerError(ts.terminal)))
    else
      var t := ts.tokens[i];
      if ts.isEndElementOf(t, se) then Parsed(v, i + 1, None)
      else if t.isEnd then VastChildren(ts, se, i + 1, v)
      else if t.name == "Ad" then
        var ad := AdElement(ts, t, i + 1, EmptyAd);
        if ad.failure.Some? then Parsed(v, ad.next, ad.failure)
        else VastChildren(ts, se, ad.next, v.(ads := v.ads + [ad.value]))
      else VastChildren(ts, se, i + 1, v)
  }

  function VastElement(ts: TokenStream, se: Token, i: nat, v: Vast): (r: Parsed<Vast>)
    requires i <= |ts.tokens|
    ensures EndsAt(ts, se, i, r)
    ensures r.value.version == LastValue(se.attrs, "version", v.version)
    ensures v.ads <= r.value.ads
  {
    VastAttributes(se.attrs, v);
    VastChildren(ts, se, i, FoldAttrs(se.attrs, v, VastAttr).value)
  }

  /* ---------- AdBreak ---------- */

  /** `AdSource` and `AdSource.VASTData` are both non-nil. */
  predicate HasVastData(b: AdBreak)
  {
    b.adSource.Some? && b.adSource.value.vastData.Some?
  }

  /** `adBreak.AdSource.VASTData.VAST = &v`. */
  function WithVast(b: AdBreak, v: Vast): (r: AdBreak)
    requires HasVastData(b)
    ensures HasVastData(r) && r.adSource.value.vastData.value.vast == Some(v)
  {
    b.(adSource := Some(AdSource(Some(VastData(Some(v))))))
  }

  function AdBreakChildren(ts: TokenStream, se: Token, i: nat, b: AdBreak): (r: Parsed<AdBreak>)
    requires i <= |ts.tokens| && HasVastData(b)
    ensures EndsAt(ts, se, i, r)
    ensures HasVastData(r.value)
    ensures r.value.id == b.id && r.value.breakType == b.breakType && r.value.timeOffset == b.timeOffset
    ensures b.trackingEvents.Some? ==> r.value.trackingEvents.Some? && b.trackingEvents.value <= r.value.trackingEvents.value
    decreases |ts.tokens| - i
  {
    if i == |ts.tokens| then Parsed(b, i, Some(TokenizerError(ts.terminal)))
    else
      var t := ts.tokens[i];
      if ts.isEndElementOf(t, se) then Parsed(b, i + 1, None)
      else if t.isEnd then AdBreakChildren(ts, se, i + 1, b)
      else if t.name == "VAST" then
        if t.selfClosing then AdBreakChildren(ts, se, i + 1, WithVast(b, EmptyVast))
        else
          var v := VastElement(ts, t, i + 1, EmptyVast);
          if v.failure.Some? then Parsed(b, v.next, v.failure)
          else AdBreakChildren(ts, se, v.next, WithVast(b, v.value))
      else if t.name == "Tracking" then
        var events := if b.trackingEvents.Some? then b.trackingEvents.value else [];
        AdBreakChildren(ts, se, i + 1, b.(trackingEvents := Some(events + [TrackingOf(t)])))
      else AdBreakChildren(ts, se, i + 1, b)
  }

  /**
   * `AdBreak.UnmarshalToken`: `AdSource` and its `VASTData` are allocated
   * before anything else, so they are present whatever happens next.
   */
  function AdBreakElement(ts: TokenStream, se: Token, i: nat, b: AdBreak): (r: Parsed<AdBreak>)
    requires i <= |ts.tokens|
    ensures EndsAt(ts, se, i, r)
    ensures HasVastData(r.value)
    ensures OffsetsParse(se.attrs) ==>
      r.value.id == LastValue(se.attrs, "breakId", b.id) && r.value.breakType == LastValue(se.attrs, "breakType", b.breakType) &&
      (LastNamed(se.attrs, "timeOffset").None? ==> r.value.timeOffset == b.timeOffset)
  {
    var b0 := b.(adSource := Some(AdSource(Some(VastData(None)))));
    var a := FoldAttrs(se.attrs, b0, AdBreakAttr);
    FoldKeeps(se.attrs, b0, AdBreakAttr, (x: AdBreak) => x.adSource);
    AdBreakAttributes(se.attrs, b0);
    if a.failure.Some? then Parsed(a.value, i, a.failure) else AdBreakChildren(ts, se, i, a.value)
  }
}

=== FILE: entities.dfy ===
/**
 * The in-place XML reference decoder of vmap/decoder.go (`xmlStringToString`
 * and `decodeSpecialCharacterFromHexCode`).
 *
 * The buffer is compacted in place with a read cursor and a write cursor.
 * A reference runs from '&' to the next ';' (or to the end of the buffer).
 * Its '#' and 'x' bytes are dropped; the five predefined entities of
 * section 4.6 of XML 1.0 (`amp`, `lt`, `gt`, `apos`, `quot`) give one byte;
 * anything else is read by `strconv.ParseInt(payload, 16, 32)`, whose error
 * is ignored, and the rune is written out as UTF-8. So a decimal character
 * reference is read as hexadecimal, and a payload that does not parse gives
 * U+0000.
 */
module Entities {
  import opened ByteText

  const AMP: byte := 0x26   // '&'
  const SEMI: byte := 0x3B  // ';'
  const LOWER_X: byte := 0x78  // 'x'

  /** Index of the first ';' at or after `j`, or `|s|` when there is none. */
  function RefEnd(s: Bytes, j: nat): (k: nat)
    requires j <= |s|
    ensures j <= k <= |s|
    decreases |s| - j
  {
    if j == |s| || s[j] == SEMI then j else RefEnd(s, j + 1)
  }

  /** `RefEnd` is the first ';' from `j` on: the position `k` with none in `s[j..k]`. */
  lemma {:induction false} RefEndIs(s: Bytes, j: nat, k: nat)
    requires j <= k <= |s|
    requires k < |s| ==> s[k] == SEMI
    requires forall m | j <= m < k :: s[m] != SEMI
    ensures RefEnd(s, j) == k
    decreases k - j
  {
    if j < k {
      RefEndIs(s, j + 1, k);
    }
  }

  /** The bytes of a reference body that the scratch slice `cb` keeps: all but '#' and 'x'. */
  function Payload(body: Bytes): (cb: Bytes)
    ensures |cb| <= |body|
  {
    if body == [] then []
    else
      var last := body[|body| - 1];
      Payload(body[..|body| - 1]) + (if last == HASH || last == LOWER_X then [] else [last])
  }

  /** `Payload` read one byte at a time, as the loop collects it. */
  lemma PayloadSnoc(body: Bytes, c: byte)
    ensures Payload(body + [c]) == Payload(body) + (if c == HASH || c == LOWER_X then [] else [c])
  {
    assert (body + [c])[..|body|] == body;
  }

  const AmpName: Bytes := [0x61, 0x6D, 0x70]         // "amp"
  const LtName: Bytes := [0x6C, 0x74]                // "lt"
  const GtName: Bytes := [0x67, 0x74]                // "gt"
  const AposName: Bytes := [0x61, 0x70, 0x6F, 0x73]  // "apos"
  const QuotName: Bytes := [0x71, 0x75, 0x6F, 0x74]  // "quot"

  /** The five predefined entities of XML 1.0 and the byte each stands for. */
  function NamedEntity(cb: Bytes): Option<byte>
  {
    if cb == AmpName then Some(AMP)
    else if cb == LtName then Some(0x3C)  // '<'
    else if cb == GtName then Some(0x3E)  // '>'
    else if cb == AposName then Some(0x27)  // '\''
    else if cb == QuotName then Some(0x22)  // '"'
    else None
  }

  predicate IsHexDigit(b: byte)
  {
    0x30 <= b <= 0x39 || 0x61 <= b <= 0x66 || 0x41 <= b <= 0x46
  }

  function HexValue(b: byte): (v: nat)
    requires IsHexDigit(b)
    ensures v < 16
  {
    if b <= 0x39 then (b - 0x30) as nat
    else if b >= 0x61 then (b - 0x61) as nat + 10
    else (b - 0x41) as nat + 10
  }

  const MaxUint32: nat := 0xFFFF_FFFF

  /** Outcome of `strconv.ParseUint(s, 16, 32)`. */
  datatype UintParse = Value(n: nat) | SyntaxError | RangeError

  /**
   * The digit loop of `strconv.ParseUint(s, 16, 32)`, left to right from the
   * accumulated value `acc`; it stops at the first byte that is not a hex
   * digit, or as soon as the value no longer fits in 32 bits.
   */
  function ParseHexDigits(s: Bytes, acc: nat): (r: UintParse)
    requires acc <= MaxUint32
    ensures r.Value? ==> r.n <= MaxUint32
  {
    if s == [] then Value(acc)
    else if !IsHexDigit(s[0]) then SyntaxError
    else
      var n := acc * 16 + HexValue(s[0]);
      if n > MaxUint32 then RangeError else ParseHexDigits(s[1..], n)
  }

  function ParseUint16(s: Bytes): UintParse
  {
    if s == [] then SyntaxError else ParseHexDigits(s, 0)
  }

  const MinInt32: int := -0x8000_0000
  const MaxInt32: int := 0x7FFF_FFFF

  /** The digits `strconv.ParseInt` reads: the payload without one leading sign. */
  function Unsigned(s: Bytes): Bytes
  {
    if s != [] && (s[0] == PLUS || s[0] == MINUS) then s[1..] else s
  }

  /**
   * The value `strconv.ParseInt(s, 16, 32)` returns (its error is ignored by
   * the caller): 0 on a syntax error, the clamped bound on a range error.
   */
  function ParseHexInt32(s: Bytes): (v: int)
    ensures MinInt32 <= v <= MaxInt32
  {
    if s == [] then 0
    else
      var neg := s[0] == MINUS;
      match ParseUint16(Unsigned(s))
      case SyntaxError => 0
      case RangeError => if neg then MinInt32 else MaxInt32
      case Value(u) =>
        if !neg && u > MaxInt32 then MaxInt32
        else if neg && u > -MinInt32 then MinInt32
        else if neg then 0 - u else u
  }

  /** `decodeSpecialCharacterFromHexCode`: the rune a reference payload stands for. */
  function DecodeSpecialCharacter(cb: Bytes): (r: int)
    ensures MinInt32 <= r <= MaxInt32
    ensures NamedEntity(cb).Some? ==> r in {0x26, 0x3C, 0x3E, 0x27, 0x22}
  {
    match NamedEntity(cb)
    case Some(b) => b as int
    case None => ParseHexInt32(cb)
  }

  const ReplacementChar: Bytes := [0xEF, 0xBF, 0xBD]  // U+FFFD

  predicate IsSurrogate(r: int) { 0xD800 <= r <= 0xDFFF }

  /**
   * Go's `[]byte(string(rune(r)))`: UTF-8 of `r`, and U+FFFD for a negative
   * value, a surrogate or a value above U+10FFFF.
   */
  function EncodeRune(r: int): (b: Bytes)
    ensures |b| == if 0 <= r < 0x80 then 1 else if 0x80 <= r < 0x800 then 2
                   else if 0x10000 <= r <= 0x10FFFF then 4 else 3
  {
    if 0 <= r < 0x80 then [r as byte]
    else if 0x80 <= r < 0x800 then [(0xC0 + r / 64) as byte, (0x80 + r % 64) as byte]
    else if r < 0 || r > 0x10FFFF || IsSurrogate(r) then ReplacementChar
    else if r < 0x10000 then
      [(0xE0 + r / 4096) as byte, (0x80 + (r / 64) % 64) as byte, (0x80 + r % 64) as byte]
    else
      [(0xF0 + r / 262144) as byte, (0x80 + (r / 4096) % 64) as byte,
       (0x80 + (r / 64) % 64) as byte, (0x80 + r % 64) as byte]
  }

  /** A Unicode scalar value: a code point up to U+10FFFF that is not a surrogate. */
  predicate IsScalar(r: int)
  {
    0 <= r <= 0x10FFFF && !IsSurrogate(r)
  }

  predicate IsContinuation(b: byte)
  {
    0x80 <= b < 0xC0
  }

  /**
   * The shape of one UTF-8 sequence: a lead byte announcing one to four
   * bytes, then that many continuation bytes.
   */
  predicate WellShaped(b: Bytes)
  {
    if |b| == 1 then b[0] < 0x80
    else if |b| == 2 then 0xC0 <= b[0] < 0xE0 && IsContinuation(b[1])
    else if |b| == 3 then 0xE0 <= b[0] < 0xF0 && IsContinuation(b[1]) && IsContinuation(b[2])
    else if |b| == 4 then 0xF0 <= b[0] < 0xF8 && IsContinuation(b[1]) && IsContinuation(b[2]) && IsContinuation(b[3])
    else false
  }

  /** The six payload bits of a continuation byte. */
  function Bits(b: byte): int
  {
    b as int - 0x80
  }

  /** The code point a UTF-8 sequence stands for: the lead byte's payload bits, then six bits per continuation byte. */
  function Utf8Value(b: Bytes): int
    requires WellShaped(b)
  {
    if |b| == 1 then b[0] as int
    else if |b| == 2 then (b[0] as int - 0xC0) * 64 + Bits(b[1])
    else if |b| == 3 then (b[0] as int - 0xE0) * 4096 + Bits(b[1]) * 64 + Bits(b[2])
    else (b[0] as int - 0xF0) * 262144 + Bits(b[1]) * 4096 + Bits(b[2]) * 64 + Bits(b[3])
  }

  /** `r` in base 64: its last digit, and the digits above it. */
  lemma Base64Digits(r: nat)
    ensures r == r / 64 * 64 + r % 64
    ensures r / 64 / 64 == r / 4096 && r / 4096 / 64 == r / 262144
  {
  }

  /**
   * `EncodeRune` writes a scalar value as the UTF-8 sequence that stands
   * for it, and anything else as U+FFFD.
   */
  lemma EncodeRuneIsUtf8(r: int)
    ensures IsScalar(r) ==> WellShaped(EncodeRune(r)) && Utf8Value(EncodeRune(r)) == r
    ensures !IsScalar(r) ==> EncodeRune(r) == ReplacementChar
  {
    if IsScalar(r) && r >= 0x80 {
      Base64Digits(r);
      Base64Digits(r / 64);
      Base64Digits(r / 4096);
    }
  }

  /** What one reference `&body;` (or `&body` at the end of the buffer) is rewritten to. */
  function Reference(body: Bytes): Bytes
  {
    EncodeRune(DecodeSpecialCharacter(Payload(body)))
  }

  /**
   * The text `xmlStringToString` makes of `s[i..]`, read left to right, with
   * each reference body rewritten by `ref`. How the scan splits the buffer
   * does not depend on how a reference is decoded, so the lemmas about the
   * scan hold for any `ref`; the decoder itself uses `Reference`.
   */
  function Scan(s: Bytes, i: nat, ref: Bytes -> Bytes): Bytes
    decreases |s| - i
  {
    if i >= |s| then []
    else if s[i] != AMP then [s[i]] + Scan(s, i + 1, ref)
    else
      var k := RefEnd(s, i + 1);
      ref(s[i + 1..k]) + Scan(s, k + 1, ref)
  }

  /** The text `xmlStringToString` leaves in the prefix of its buffer. */
  function Unescape(s: Bytes): Bytes
  {
    Scan(s, 0, Reference)
  }

  function Pow16(k: nat): (p: nat)
    ensures p >= 1
  {
    if k == 0 then 1 else 16 * Pow16(k - 1)
  }

  lemma MulMonotone(a: nat, b: nat, c: nat)
    requires a <= b
    ensures a * c <= b * c
  {
  }

  lemma {:induction false} HexDigitsBound(s: Bytes, acc: nat)
    requires acc <= MaxUint32
    ensures ParseHexDigits(s, acc).Value? ==> ParseHexDigits(s, acc).n < (acc + 1) * Pow16(|s|)
  {
    if s != [] && IsHexDigit(s[0]) {
      var n := acc * 16 + HexValue(s[0]);
      if n <= MaxUint32 {
        HexDigitsBound(s[1..], n);
        var p := Pow16(|s| - 1);
        assert Pow16(|s|) == 16 * p;
        MulMonotone(n + 1, (acc + 1) * 16, p);
        assert (acc + 1) * 16 * p == (acc + 1) * (16 * p);
      }
    }
  }

  /** A parsed hex value needs as many digits as its magnitude says. */
  lemma HexDigitsNeeded(s: Bytes)
    requires ParseUint16(s).Value?
    ensures ParseUint16(s).n >= 0x10 ==> |s| >= 2
    ensures ParseUint16(s).n >= 0x100 ==> |s| >= 3
    ensures ParseUint16(s).n >= 0x1000 ==> |s| >= 4
    ensures ParseUint16(s).n >= 0x10000 ==> |s| >= 5
  {
    HexDigitsBound(s, 0);
    assert Pow16(1) == 16 && Pow16(2) == 256 && Pow16(3) == 4096 && Pow16(4) == 65536;
  }

  /** A range error needs at least two digits (one hex digit always fits). */
  lemma RangeNeedsTwoDigits(s: Bytes)
    ensures |s| < 2 ==> !ParseUint16(s).RangeError?
  {
    if |s| == 1 && IsHexDigit(s[0]) {
      assert s[1..] == [];
      assert ParseHexDigits(s, 0) == ParseHexDigits(s[1..], HexValue(s[0]));
    }
  }

  /**
   * The UTF-8 text of a reference is never longer than the payload plus one
   * byte for the '&'. This is what keeps the write cursor behind the read
   * cursor.
   */
  lemma ReferenceFits(cb: Bytes)
    ensures |EncodeRune(DecodeSpecialCharacter(cb))| <= |cb| + 1
  {
    if NamedEntity(cb).None? && cb != [] {
      var neg := cb[0] == MINUS;
      var body := if cb[0] == PLUS || cb[0] == MINUS then cb[1..] else cb;
      match ParseUint16(body)
      case SyntaxError =>
      case RangeError => RangeNeedsTwoDigits(body);
      case Value(u) => HexDigitsNeeded(body);
    }
  }

  /** Consuming `&body;` (or `&body` at the end) never writes more bytes than it read. */
  lemma ReferenceShorter(body: Bytes)
    ensures |Reference(body)| <= |body| + 1
  {
    ReferenceFits(Payload(body));
  }

  /** With references no longer than their text, the scan never outgrows its input. */
  lemma {:induction false} ScanShorter(s: Bytes, i: nat, ref: Bytes -> Bytes)
    requires forall body :: |ref(body)| <= |body| + 1
    ensures |Scan(s, i, ref)| <= if i >= |s| then 0 else |s| - i
    decreases |s| - i
  {
    if i < |s| {
      if s[i] != AMP {
        ScanShorter(s, i + 1, ref);
      } else {
        ScanShorter(s, RefEnd(s, i + 1) + 1, ref);
      }
    }
  }

  /** The decoded text is never longer than the input, so it fits in the input's buffer. */
  lemma UnescapeShorter(s: Bytes)
    ensures |Unescape(s)| <= |s|
  {
    forall body ensures |Reference(body)| <= |body| + 1 {
      ReferenceShorter(body);
    }
    ScanShorter(s, 0, Reference);
  }

  /** Text without '&' is copied unchanged. */
  lemma {:induction false} ScanNoReference(s: Bytes, i: nat, ref: Bytes -> Bytes)
    requires forall m | i <= m < |s| :: s[m] != AMP
    ensures Scan(s, i, ref) == if i >= |s| then [] else s[i..]
    decreases |s| - i
  {
    if i < |s| {
      ScanNoReference(s, i + 1, ref);
      assert s[i..] == [s[i]] + (if i + 1 >= |s| then [] else s[i + 1..]);
    }
  }

  /** A buffer without '&' comes back unchanged. */
  lemma UnescapeIdentity(s: Bytes)
    requires forall m | 0 <= m < |s| :: s[m] != AMP
    ensures Unescape(s) == s
  {
    ScanNoReference(s, 0, Reference);
  }

  /** Text without '&' is copied, then the scan carries on after it. */
  lemma {:induction false} ScanLiteralPrefix(a: Bytes, rest: Bytes, i: nat, ref: Bytes -> Bytes)
    requires i <= |a|
    requires forall m | i <= m < |a| :: a[m] != AMP
    ensures Scan(a + rest, i, ref) == a[i..] + Scan(a + rest, |a|, ref)
    decreases |a| - i
  {
    if i < |a| {
      ScanLiteralPrefix(a, rest, i + 1, ref);
      assert a[i..] == [a[i]] + a[i + 1..];
    }
  }

  /** The scan reads a byte other than '&' as itself. */
  lemma ScanLiteralStep(s: Bytes, i: nat, ref: Bytes -> Bytes)
    requires i < |s| && s[i] != AMP
    ensures Scan(s, i, ref) == [s[i]] + Scan(s, i + 1, ref)
  {
  }

  /** One step of the scan over a reference from `i` to the ';' (or the end) at `k`. */
  lemma ScanReferenceStep(s: Bytes, i: nat, k: nat, ref: Bytes -> Bytes)
    requires i < |s| && s[i] == AMP && RefEnd(s, i + 1) == k
    ensures Scan(s, i, ref) == ref(s[i + 1..k]) + Scan(s, k + 1, ref)
  {
  }

  /** A byte other than '&' inside `a + rest`, at `p`, is copied. */
  lemma ShiftedLiteralStep(a: Bytes, rest: Bytes, j: nat, p: nat, ref: Bytes -> Bytes)
    requires j < |rest| && p == |a| + j && rest[j] != AMP
    ensures Scan(a + rest, p, ref) == [rest[j]] + Scan(a + rest, p + 1, ref)
  {
    assert (a + rest)[p] == rest[j];
    ScanLiteralStep(a + rest, p, ref);
  }

  /** A reference inside `a + rest`, at `p`, is read as it is read in `rest`; it ends at `k` there. */
  lemma ShiftedReferenceStep(a: Bytes, rest: Bytes, j: nat, p: nat, k: nat, ref: Bytes -> Bytes)
    requires j < |rest| && p == |a| + j && rest[j] == AMP && k == RefEnd(rest, j + 1)
    ensures Scan(a + rest, p, ref) == ref(rest[j + 1..k]) + Scan(a + rest, |a| + k + 1, ref)
  {
    var s := a + rest;
    var q := |a| + k;
    assert s[p] == AMP;
    RefEndShift(a, rest, j + 1, p + 1);
    ScanReferenceStep(s, p, q, ref);
    assert s[p + 1..q] == rest[j + 1..k];
  }

  /** The scan from a position only depends on what follows it: `p` is where `rest[j]` sits in `a + rest`. */
  lemma {:induction false} ScanSuffix(a: Bytes, rest: Bytes, j: nat, p: nat, ref: Bytes -> Bytes)
    requires j <= |rest| + 1 && p == |a| + j
    ensures Scan(a + rest, p, ref) == Scan(rest, j, ref)
    decreases |rest| + 1 - j, 1
  {
    if j < |rest| {
      if rest[j] != AMP {
        ScanSuffixLiteral(a, rest, j, p, ref);
      } else {
        ScanSuffixReference(a, rest, j, p, ref);
      }
    }
  }

  lemma {:induction false} ScanSuffixLiteral(a: Bytes, rest: Bytes, j: nat, p: nat, ref: Bytes -> Bytes)
    requires j < |rest| && p == |a| + j && rest[j] != AMP
    ensures Scan(a + rest, p, ref) == Scan(rest, j, ref)
    decreases |rest| + 1 - j, 0
  {
    ShiftedLiteralStep(a, rest, j, p, ref);
    ScanLiteralStep(rest, j, ref);
    ScanSuffix(a, rest, j + 1, p + 1, ref);
  }

  lemma {:induction false} ScanSuffixReference(a: Bytes, rest: Bytes, j: nat, p: nat, ref: Bytes -> Bytes)
    requires j < |rest| && p == |a| + j && rest[j] == AMP
    ensures Scan(a + rest, p, ref) == Scan(rest, j, ref)
    decreases |rest| + 1 - j, 0
  {
    var k := RefEnd(rest, j + 1);
    ScanSuffix(a, rest, k + 1, |a| + k + 1, ref);
    ReferenceJoin(a, rest, j, p, k, ref);
  }

  /** The reference step joined to the scans after it, which agree. */
  lemma ReferenceJoin(a: Bytes, rest: Bytes, j: nat, p: nat, k: nat, ref: Bytes -> Bytes)
    requires j < |rest| && p == |a| + j && rest[j] == AMP && k == RefEnd(rest, j + 1)
    requires Scan(a + rest, |a| + k + 1, ref) == Scan(rest, k + 1, ref)
    ensures Scan(a + rest, p, ref) == Scan(rest, j, ref)
  {
    ShiftedReferenceStep(a, rest, j, p, k, ref);
    ScanReferenceStep(rest, j, k, ref);
  }

  /** Where the reference ends does not depend on what precedes it. */
  lemma {:induction false} RefEndShift(a: Bytes, rest: Bytes, j: nat, q: nat)
    requires j <= |rest| && q == |a| + j
    ensures RefEnd(a + rest, q) == |a| + RefEnd(rest, j)
    decreases |rest| - j
  {
    if j < |rest| {
      assert (a + rest)[q] == rest[j];
      if rest[j] != SEMI {
        RefEndShift(a, rest, j + 1, q + 1);
      }
    }
  }

  predicate NoSemicolon(b: Bytes) { forall m | 0 <= m < |b| :: b[m] != SEMI }

  /** A terminated reference is rewritten, then the scan carries on after the ';'. */
  lemma ReferenceThenRest(body: Bytes, rest: Bytes, ref: Bytes -> Bytes)
    requires NoSemicolon(body)
    ensures Scan([AMP] + body + [SEMI] + rest, 0, ref) == ref(body) + Scan(rest, 0, ref)
  {
    var s := [AMP] + body + [SEMI] + rest;
    var k := 1 + |body|;
    assert s[k] == SEMI;
    assert forall m | 1 <= m < k :: s[m] != SEMI by {
      forall m | 1 <= m < k ensures s[m] != SEMI { assert s[m] == body[m - 1]; }
    }
    RefEndIs(s, 1, k);
    assert s[1..k] == body;
    assert s == ([AMP] + body + [SEMI]) + rest;
    ScanSuffix([AMP] + body + [SEMI], rest, 0, |[AMP] + body + [SEMI]|, ref);
  }

  /** Literal text is copied, then the scan carries on. */
  lemma LiteralThenRest(a: Bytes, rest: Bytes, ref: Bytes -> Bytes)
    requires forall m | 0 <= m < |a| :: a[m] != AMP
    ensures Scan(a + rest, 0, ref) == a + Scan(rest, 0, ref)
  {
    ScanLiteralPrefix(a, rest, 0, ref);
    ScanSuffix(a, rest, 0, |a|, ref);
    assert a[0..] == a;
  }

  /** A body without '#' or 'x' is its own payload. */
  lemma {:induction false} PayloadKeeps(body: Bytes)
    requires forall m | 0 <= m < |body| :: body[m] != HASH && body[m] != LOWER_X
    ensures Payload(body) == body
  {
    if body != [] {
      PayloadKeeps(body[..|body| - 1]);
      assert body[..|body| - 1] + [body[|body| - 1]] == body;
    }
  }

  /** Payload is computed byte by byte, so it can also be read from the front. */
  lemma {:induction false} PayloadCons(c: byte, body: Bytes)
    ensures Payload([c] + body) == (if c == HASH || c == LOWER_X then [] else [c]) + Payload(body)
    decreases |body|
  {
    if body != [] {
      var init, last := body[..|body| - 1], body[|body| - 1];
      assert ([c] + body)[..|body|] == [c] + init;
      PayloadCons(c, init);
    } else {
      assert ([c] + body)[..0] == [];
    }
  }

  /** A predefined entity whose name has no '#' or 'x' decodes to its one byte. */
  lemma NamedReference(e: Bytes)
    requires forall m | 0 <= m < |e| :: e[m] != HASH && e[m] != LOWER_X
    requires NamedEntity(e).Some?
    ensures Reference(e) == [NamedEntity(e).value]
  {
    PayloadKeeps(e);
  }

  /** Each predefined entity decodes to its single byte: `&amp;` to '&', ... */
  lemma AmpReference() ensures Reference(AmpName) == [AMP] { NamedReference(AmpName); }
  lemma LtReference() ensures Reference(LtName) == [0x3C] { NamedReference(LtName); }
  lemma GtReference() ensures Reference(GtName) == [0x3E] { NamedReference(GtName); }
  lemma AposReference() ensures Reference(AposName) == [0x27] { NamedReference(AposName); }
  lemma QuotReference() ensures Reference(QuotName) == [0x22] { NamedReference(QuotName); }

  /** A piece of well-formed text: literal bytes, or the body of a reference. */
  datatype Piece = Text(text: Bytes) | Ref(body: Bytes)

  function PieceBytes(p: Piece): Bytes
  {
    match p
    case Text(t) => t
    case Ref(body) => [AMP] + body + [SEMI]
  }

  function PieceDecoded(p: Piece, ref: Bytes -> Bytes): Bytes
  {
    match p
    case Text(t) => t
    case Ref(body) => ref(body)
  }

  /** The bytes of a sequence of pieces, each reference written `&body;`. */
  function Encoded(ps: seq<Piece>): Bytes
  {
    if ps == [] then [] else PieceBytes(ps[0]) + Encoded(ps[1..])
  }

  /** The same pieces with each reference replaced by what `ref` makes of it. */
  function Decoded(ps: seq<Piece>, ref: Bytes -> Bytes): Bytes
  {
    if ps == [] then [] else PieceDecoded(ps[0], ref) + Decoded(ps[1..], ref)
  }

  lemma {:induction false} EncodedSnoc(ps: seq<Piece>, p: Piece)
    ensures Encoded(ps + [p]) == Encoded(ps) + PieceBytes(p)
  {
    if ps == [] {
      assert [] + [p] == [p];
      assert Encoded([p]) == PieceBytes(p) + Encoded([]);
    } else {
      var q := ps + [p];
      assert q[0] == ps[0] && q[1..] == ps[1..] + [p];
      EncodedSnoc(ps[1..], p);
      assert Encoded(q) == PieceBytes(ps[0]) + (Encoded(ps[1..]) + PieceBytes(p));
      AppendAssoc(PieceBytes(ps[0]), Encoded(ps[1..]), PieceBytes(p));
    }
  }

  lemma {:induction false} DecodedSnoc(ps: seq<Piece>, p: Piece, ref: Bytes -> Bytes)
    ensures Decoded(ps + [p], ref) == Decoded(ps, ref) + PieceDecoded(p, ref)
  {
    if ps == [] {
      assert [] + [p] == [p];
      assert Decoded([p], ref) == PieceDecoded(p, ref) + Decoded([], ref);
    } else {
      var q := ps + [p];
      assert q[0] == ps[0] && q[1..] == ps[1..] + [p];
      DecodedSnoc(ps[1..], p, ref);
      assert Decoded(q, ref) == PieceDecoded(ps[0], ref) + (Decoded(ps[1..], ref) + PieceDecoded(p, ref));
      AppendAssoc(PieceDecoded(ps[0], ref), Decoded(ps[1..], ref), PieceDecoded(p, ref));
    }
  }

  /** Text pieces hold no '&' and reference bodies no ';'. */
  predicate WellFormed(ps: seq<Piece>)
  {
    forall n | 0 <= n < |ps| ::
      match ps[n]
      case Text(t) => forall m | 0 <= m < |t| :: t[m] != AMP
      case Ref(body) => NoSemicolon(body)
  }

  /** The scan of well-formed text rewrites each reference in place and copies the rest. */
  lemma {:induction false} ScanPieces(ps: seq<Piece>, ref: Bytes -> Bytes)
    requires WellFormed(ps)
    ensures Scan(Encoded(ps), 0, ref) == Decoded(ps, ref)
  {
    if ps == [] {
      assert Scan([], 0, ref) == [];
    } else {
      assert WellFormed(ps[1..]) by {
        forall n | 0 <= n < |ps[1..]| ensures ps[1..][n] == ps[n + 1] {}
      }
      ScanPieces(ps[1..], ref);
      match ps[0]
      case Text(t) =>
        assert WellFormed(ps) ==> forall m | 0 <= m < |t| :: t[m] != AMP;
        LiteralThenRest(t, Encoded(ps[1..]), ref);
      case Ref(body) =>
        ReferenceThenRest(body, Encoded(ps[1..]), ref);
    }
  }

  /** `xmlStringToString` on well-formed text: each reference decoded in place, the text around it kept. */
  lemma UnescapePieces(ps: seq<Piece>)
    requires WellFormed(ps)
    ensures Unescape(Encoded(ps)) == Decoded(ps, Reference)
  {
    ScanPieces(ps, Reference);
  }

  const OUmlaut: Bytes := [0xC3, 0xB6]  // 'ö' in UTF-8

  const Hej: Bytes := [0x48, 0x65, 0x6A]  // "Hej"
  const NEWLINE: byte := 0x0A

  /** The ad title of the special-characters sample, `Hej&amp;ö\n&lt;&gt;&quot;`. */
  const SampleTitle: Bytes :=
    Hej + ([AMP] + AmpName + [SEMI]) + (OUmlaut + [NEWLINE]) + ([AMP] + LtName + [SEMI])
    + ([AMP] + GtName + [SEMI]) + ([AMP] + QuotName + [SEMI])

  /** What the sample expects back: `Hej&ö\n<>"`. */
  const SampleText: Bytes := Hej + [AMP] + (OUmlaut + [NEWLINE]) + [0x3C] + [0x3E] + [0x22]

  /** The sample title as pieces. */
  function SamplePieces(): seq<Piece>
  {
    [Text(Hej)] + [Ref(AmpName)] + [Text(OUmlaut + [NEWLINE])] + [Ref(LtName)] + [Ref(GtName)] + [Ref(QuotName)]
  }

  lemma SamplePiecesEncoded()
    ensures Encoded(SamplePieces()) == SampleTitle
  {
    var p1 := [Text(Hej)];
    var p2 := p1 + [Ref(AmpName)];
    var p3 := p2 + [Text(OUmlaut + [NEWLINE])];
    var p4 := p3 + [Ref(LtName)];
    var p5 := p4 + [Ref(GtName)];
    assert Encoded(p1) == Hej + Encoded([]);
    EncodedSnoc(p1, Ref(AmpName));
    EncodedSnoc(p2, Text(OUmlaut + [NEWLINE]));
    EncodedSnoc(p3, Ref(LtName));
    EncodedSnoc(p4, Ref(GtName));
    EncodedSnoc(p5, Ref(QuotName));
  }

  lemma SamplePiecesDecoded(ref: Bytes -> Bytes)
    requires ref(AmpName) == [AMP] && ref(LtName) == [0x3C]
    requires ref(GtName) == [0x3E] && ref(QuotName) == [0x22]
    ensures Decoded(SamplePieces(), ref) == SampleText
  {
    var p1 := [Text(Hej)];
    var p2 := p1 + [Ref(AmpName)];
    var p3 := p2 + [Text(OUmlaut + [NEWLINE])];
    var p4 := p3 + [Ref(LtName)];
    var p5 := p4 + [Ref(GtName)];
    assert Decoded(p1, ref) == Hej + Decoded([], ref);
    DecodedSnoc(p1, Ref(AmpName), ref);
    DecodedSnoc(p2, Text(OUmlaut + [NEWLINE]), ref);
    DecodedSnoc(p3, Ref(LtName), ref);
    DecodedSnoc(p4, Ref(GtName), ref);
    DecodedSnoc(p5, Ref(QuotName), ref);
  }

  /**
   * The special-characters sample: `Hej&amp;ö\n&lt;&gt;&quot;` decodes to
   * `Hej&ö\n<>"`; the two UTF-8 bytes of 'ö' pass through.
   */
  lemma SpecialCharactersSample()
    ensures Unescape(SampleTitle) == SampleText
  {
    assert WellFormed(SamplePieces());
    UnescapePieces(SamplePieces());
    SamplePiecesEncoded();
    AmpReference();
    LtReference();
    GtReference();
    QuotReference();
    SamplePiecesDecoded(Reference);
  }

  /** One reference `&body;` on its own decodes to `Reference(body)`. */
  lemma SingleReference(body: Bytes)
    requires NoSemicolon(body)
    ensures Unescape([AMP] + body + [SEMI]) == Reference(body)
  {
    assert [AMP] + body + [SEMI] == [AMP] + body + [SEMI] + [];
    ReferenceThenRest(body, [], Reference);
    assert Scan([], 0, Reference) == [];
  }

  /** A payload whose first letter starts no predefined entity name is no predefined entity. */
  lemma NotNamed(cb: Bytes)
    requires cb != [] && cb[0] != AmpName[0] && cb[0] != LtName[0] && cb[0] != GtName[0] && cb[0] != QuotName[0]
    ensures NamedEntity(cb).None?
  {
    assert AposName[0] == AmpName[0];
  }

  predicate AllHex(s: Bytes)
  {
    forall k | 0 <= k < |s| :: IsHexDigit(s[k])
  }

  /** The number hexadecimal digits stand for, the most significant first. */
  function HexNumber(s: Bytes): nat
    requires AllHex(s)
  {
    if s == [] then 0 else HexValue(s[0]) * Pow16(|s| - 1) + HexNumber(s[1..])
  }

  /** The arithmetic of one digit step: `acc` followed by digit `h` and a tail of weight `pw` and value `tail`. */
  lemma DigitStep(acc: nat, h: nat, pw: nat, tail: nat)
    requires pw >= 1
    ensures acc * (16 * pw) + (h * pw + tail) == (acc * 16 + h) * pw + tail
    ensures acc * 16 + h <= (acc * 16 + h) * pw + tail
  {
    MulMonotone(1, pw, acc * 16 + h);
  }

  /** Reading the first digit moves it into the accumulated value, which never exceeds the total. */
  lemma HexNumberStep(p: Bytes, acc: nat)
    requires p != [] && AllHex(p)
    ensures var n := acc * 16 + HexValue(p[0]);
      acc * Pow16(|p|) + HexNumber(p) == n * Pow16(|p| - 1) + HexNumber(p[1..]) &&
      n <= acc * Pow16(|p|) + HexNumber(p)
  {
    var pw := Pow16(|p| - 1);
    assert Pow16(|p|) == 16 * pw;
    DigitStep(acc, HexValue(p[0]), pw, HexNumber(p[1..]));
  }

  /**
   * The digit loop reads hex digits `p` as their number after what it has
   * accumulated, and goes on with what follows them; once the value no
   * longer fits in 32 bits it stops with a range error.
   */
  lemma {:induction false} HexDigitsPrefix(p: Bytes, q: Bytes, acc: nat)
    requires acc <= MaxUint32 && AllHex(p)
    ensures var total := acc * Pow16(|p|) + HexNumber(p);
      ParseHexDigits(p + q, acc) == if total <= MaxUint32 then ParseHexDigits(q, total) else RangeError
    decreases |p|
  {
    if p == [] {
      assert [] + q == q;
    } else {
      assert (p + q)[0] == p[0] && (p + q)[1..] == p[1..] + q;
      HexNumberStep(p, acc);
      var n := acc * 16 + HexValue(p[0]);
      if n <= MaxUint32 {
        HexDigitsPrefix(p[1..], q, n);
      }
    }
  }

  /**
   * A payload that is no predefined entity and whose digits (after at most
   * one sign) are all hexadecimal is read as their number, negated after a
   * '-', and clamped to the 32-bit range as `strconv.ParseInt` clamps it.
   */
  lemma UnnamedHexValue(cb: Bytes)
    requires NamedEntity(cb).None?
    requires Unsigned(cb) != [] && AllHex(Unsigned(cb))
    ensures var u: int := HexNumber(Unsigned(cb));
      DecodeSpecialCharacter(cb) ==
        if cb[0] == MINUS then (if u > -MinInt32 then MinInt32 else -u)
        else (if u > MaxInt32 then MaxInt32 else u)
  {
    HexDigitsPrefix(Unsigned(cb), [], 0);
    assert Unsigned(cb) + [] == Unsigned(cb);
  }

  /**
   * A payload that is no predefined entity and whose digits meet a byte
   * that is not hexadecimal before they overflow (or that has no digits at
   * all) does not parse: it decodes to U+0000.
   */
  lemma UnnamedNotHex(cb: Bytes, k: nat)
    requires NamedEntity(cb).None?
    requires var d := Unsigned(cb);
      d == [] || (k < |d| && !IsHexDigit(d[k]) && AllHex(d[..k]) && HexNumber(d[..k]) <= MaxUint32)
    ensures DecodeSpecialCharacter(cb) == 0
  {
    var d := Unsigned(cb);
    if d != [] {
      assert d == d[..k] + d[k..];
      HexDigitsPrefix(d[..k], d[k..], 0);
      assert d[k..][0] == d[k];
    }
  }

  /** The number of two hex digits. */
  lemma HexNumberPair(c0: byte, c1: byte)
    requires IsHexDigit(c0) && IsHexDigit(c1)
    ensures AllHex([c0, c1]) && HexNumber([c0, c1]) == HexValue(c0) * 16 + HexValue(c1)
  {
    assert [c0, c1][1..] == [c1] && [c1][1..] == [];
    assert Pow16(1) == 16 && HexNumber([c1]) == HexValue(c1) * Pow16(0) + HexNumber([]);
  }

  /** The payload of `#65` is `65`, read as hexadecimal: U+0065. */
  lemma DecimalPayload()
    ensures DecodeSpecialCharacter(Payload([HASH, 0x36, 0x35])) == 0x65
  {
    var digits: Bytes := [0x36, 0x35];  // "65"
    assert [HASH, 0x36, 0x35] == [HASH] + digits;
    PayloadCons(HASH, digits);
    PayloadKeeps(digits);
    HexNumberPair(0x36, 0x35);
    NotNamed(digits);
    UnnamedHexValue(digits);
  }

  /** A decimal character reference is read as hexadecimal: `&#65;` gives U+0065 'e', not 'A'. */
  lemma DecimalReferenceReadAsHex()
    ensures Unescape([AMP] + [HASH, 0x36, 0x35] + [SEMI]) == [0x65]
  {
    SingleReference([HASH, 0x36, 0x35]);
    DecimalPayload();
  }

  /** The payload of `#xE9` is `E9`: U+00E9. */
  lemma HexPayload()
    ensures DecodeSpecialCharacter(Payload([HASH, LOWER_X, 0x45, 0x39])) == 0xE9
  {
    var digits: Bytes := [0x45, 0x39];  // "E9"
    assert [HASH, LOWER_X, 0x45, 0x39] == [HASH] + ([LOWER_X] + digits);
    PayloadCons(HASH, [LOWER_X] + digits);
    PayloadCons(LOWER_X, digits);
    PayloadKeeps(digits);
    HexNumberPair(0x45, 0x39);
    NotNamed(digits);
    UnnamedHexValue(digits);
  }

  /** A hexadecimal character reference gives its code point in UTF-8: `&#xE9;` gives é. */
  lemma HexReference()
    ensures Unescape([AMP] + [HASH, LOWER_X, 0x45, 0x39] + [SEMI]) == [0xC3, 0xA9]
  {
    SingleReference([HASH, LOWER_X, 0x45, 0x39]);
    HexPayload();
    assert EncodeRune(0xE9) == [0xC3, 0xA9];
  }

  /** The payload of `#-41` is `-41`, which `strconv.ParseInt` reads as the negative number -0x41. */
  lemma SignedPayload()
    ensures DecodeSpecialCharacter(Payload([HASH, MINUS, 0x34, 0x31])) == -0x41
  {
    var signed: Bytes := [MINUS, 0x34, 0x31];  // "-41"
    assert [HASH, MINUS, 0x34, 0x31] == [HASH] + signed;
    PayloadCons(HASH, signed);
    PayloadKeeps(signed);
    NotNamed(signed);
    assert Unsigned(signed) == [0x34, 0x31];
    HexNumberPair(0x34, 0x31);
    UnnamedHexValue(signed);
  }

  /** A signed reference is read with its sign, and a negative code point gives U+FFFD: `&#-41;`. */
  lemma SignedReference()
    ensures Unescape([AMP] + [HASH, MINUS, 0x34, 0x31] + [SEMI]) == ReplacementChar
  {
    SingleReference([HASH, MINUS, 0x34, 0x31]);
    SignedPayload();
  }

  /** `foo` is no hexadecimal number: U+0000. */
  lemma UnparseablePayload()
    ensures DecodeSpecialCharacter(Payload([0x66, 0x6F, 0x6F])) == 0
  {
    var foo: Bytes := [0x66, 0x6F, 0x6F];  // "foo"
    PayloadKeeps(foo);
    NotNamed(foo);
    assert foo[..1] == [0x66] && [0x66][1..] == [];
    UnnamedNotHex(foo, 1);
  }

  /** A payload that is not a number decodes to U+0000: `&foo;` gives one zero byte. */
  lemma UnparseableReference()
    ensures Unescape([AMP] + [0x66, 0x6F, 0x6F] + [SEMI]) == [0]
  {
    SingleReference([0x66, 0x6F, 0x6F]);
    UnparseablePayload();
  }

  lemma AppendAssoc(a: Bytes, b: Bytes, c: Bytes)
    ensures (a + b) + c == a + (b + c)
  {
  }

  /**
   * `dec` rewrites every reference body as `Reference` does. The proof of
   * the in-place loop works with such a `dec`; the trigger lets the
   * definition of `Reference` be unfolded only where a lemma asks for it.
   */
  ghost predicate DecodesAsReference(dec: Bytes -> Bytes)
  {
    forall body {:trigger Reference(body)} :: dec(body) == Reference(body)
  }

  /**
   * The scan over a reference that starts at `start` and whose ';' (or the
   * end of the text) is at `i`, in the terms the in-place loop keeps: the
   * payload `cb` it collected and the room left between the two cursors.
   */
  lemma ReferenceConsumed(s: Bytes, start: nat, i: nat, cb: Bytes, dec: Bytes -> Bytes)
    requires start < i <= |s| && s[start] == AMP
    requires i < |s| ==> s[i] == SEMI
    requires forall m | start < m < i :: s[m] != SEMI
    requires cb == Payload(s[start + 1..i])
    requires DecodesAsReference(dec)
    ensures Scan(s, start, dec) == EncodeRune(DecodeSpecialCharacter(cb)) + Scan(s, i + 1, dec)
    ensures |EncodeRune(DecodeSpecialCharacter(cb))| <= i - start
  {
    RefEndIs(s, start + 1, i);
    ScanReferenceStep(s, start, i, dec);
    assert dec(s[start + 1..i]) == Reference(s[start + 1..i]);
    ReferenceFits(cb);
  }

  /**
   * The inner loop of `xmlStringToString`: from the '&' at `start`, reads up
   * to the next ';' (or the end of the buffer), collecting every byte except
   * '#' and 'x' into `cb`. `s` is the text the buffer still holds from
   * `start` on.
   */
  method ReadReference(input: array<byte>, start: nat, ghost s: Bytes) returns (i: nat, cb: Bytes)
    requires start < input.Length == |s| && s[start] == AMP
    requires forall m | start <= m < input.Length :: input[m] == s[m]
    ensures start < i <= |s|
    ensures i < |s| ==> s[i] == SEMI
    ensures forall m | start < m < i :: s[m] != SEMI
    ensures cb == Payload(s[start + 1..i])
  {
    i := start;
    cb := [];
    while true
      invariant start <= i < |s|
      invariant forall m | start < m <= i :: s[m] != SEMI
      invariant cb == Payload(s[start + 1..i + 1])
      decreases |s| - i
    {
      i := i + 1;
      if i >= input.Length {
        break;
      }
      var c := input[i];
      assert s[start + 1..i + 1] == s[start + 1..i] + [c];
      PayloadSnoc(s[start + 1..i], c);
      if c == HASH || c == LOWER_X {
      } else if c == SEMI {
        break;
      } else {
        cb := cb + [c];
      }
    }
  }

  /** Writes `encoded` into the buffer from the write cursor `o` on and returns the advanced cursor. */
  method WriteBytes(input: array<byte>, o: nat, encoded: Bytes) returns (o': nat)
    requires o + |encoded| <= input.Length
    modifies input
    ensures o' == o + |encoded|
    ensures input[..o'] == old(input[..o]) + encoded
    ensures forall m | o' <= m < input.Length :: input[m] == old(input[m])
  {
    o' := o;
    for k := 0 to |encoded|
      invariant o' == o + k
      invariant input[..o'] == old(input[..o]) + encoded[..k]
      invariant forall m | o' <= m < input.Length :: input[m] == old(input[m])
    {
      input[o'] := encoded[k];
      assert input[..o' + 1] == input[..o'] + [encoded[k]];
      assert encoded[..k + 1] == encoded[..k] + [encoded[k]];
      o' := o' + 1;
    }
    assert encoded[..|encoded|] == encoded;
  }

  /**
   * The branch of `xmlStringToString` for an '&' at `start`: reads the
   * reference, decodes its payload and writes its UTF-8 bytes at `o`.
   * Returns the new write cursor and the position of the ';' (or the end).
   */
  method RewriteReference(input: array<byte>, o: nat, start: nat, ghost s: Bytes, ghost dec: Bytes -> Bytes,
                           ghost total: Bytes)
    returns (o': nat, next: nat)
    requires o <= start < input.Length == |s| && s[start] == AMP
    requires forall m | o <= m < input.Length :: input[m] == s[m]
    requires DecodesAsReference(dec)
    requires input[..o] + Scan(s, start, dec) == total
    modifies input
    ensures start + 1 < next <= |s| + 1 && o' < next
    ensures input[..o'] + Scan(s, next, dec) == total
    ensures forall m | o' <= m < input.Length :: input[m] == s[m]
  {
    ghost var done := input[..o];
    var i, cb := ReadReference(input, start, s);
    next := i + 1;
    ghost var rest := Scan(s, next, dec);
    var encoded := EncodeRune(DecodeSpecialCharacter(cb));
    ReferenceConsumed(s, start, i, cb, dec);
    o' := WriteBytes(input, o, encoded);
    AppendAssoc(done, encoded, rest);
  }

  /** The default branch of the loop in `xmlStringToString`: copies the byte at `i` to `o`. */
  method CopyByte(input: array<byte>, o: nat, i: nat, ghost s: Bytes, ghost dec: Bytes -> Bytes, ghost total: Bytes)
    returns (o': nat, next: nat)
    requires o <= i < input.Length == |s| && s[i] != AMP
    requires forall m | o <= m < input.Length :: input[m] == s[m]
    requires input[..o] + Scan(s, i, dec) == total
    modifies input
    ensures o' == o + 1 && next == i + 1
    ensures input[..o'] + Scan(s, next, dec) == total
    ensures forall m | o' <= m < input.Length :: input[m] == s[m]
  {
    ghost var done := input[..o];
    ScanLiteralStep(s, i, dec);
    input[o] := input[i];
    assert input[..o + 1] == done + [s[i]];
    AppendAssoc(done, [s[i]], Scan(s, i + 1, dec));
    o', next := o + 1, i + 1;
  }

  /**
   * The loop of `xmlStringToString`, over a buffer holding `s`: the decoded
   * prefix grows from the front while the bytes from the write cursor on are
   * still those of `s`. The proof reads reference bodies through `dec`, which
   * the caller instantiates with `Reference`.
   */
  method RewriteInPlace(input: array<byte>, ghost dec: Bytes -> Bytes) returns (n: nat)
    requires DecodesAsReference(dec)
    modifies input
    ensures n <= input.Length
    ensures input[..n] == Scan(old(input[..]), 0, dec)
    ensures input[n..] == old(input[n..])
  {
    ghost var s := input[..];
    var o := 0;
    var i := 0;
    while i < input.Length
      invariant 0 <= o <= input.Length && o <= i <= input.Length + 1
      invariant input[..o] + Scan(s, i, dec) == Scan(s, 0, dec)
      invariant forall m | o <= m < input.Length :: input[m] == s[m]
      decreases input.Length + 1 - i
    {
      var b := input[i];
      if b == AMP {
        o, i := RewriteReference(input, o, i, s, dec, Scan(s, 0, dec));
      } else {
        o, i := CopyByte(input, o, i, s, dec, Scan(s, 0, dec));
      }
    }
    assert Scan(s, i, dec) == [];
    n := o;
  }

  /**
   * `xmlStringToString`: rewrites the buffer in place and returns the length
   * of the decoded prefix (Go returns the slice `input[0:o]`). The write
   * cursor never passes the read cursor, so no byte is overwritten before it
   * has been read, and nothing at or beyond the returned length is touched.
   */
  method XmlStringToString(input: array<byte>) returns (n: nat)
    modifies input
    ensures n <= input.Length
    ensures input[..n] == Unescape(old(input[..]))
    ensures input[n..] == old(input[n..])
  {
    assert DecodesAsReference(Reference);
    n := RewriteInPlace(input, Reference);
  }
}

=== FILE: failures.dfy ===
/**
 * What an `UnmarshalToken` can stop with, and the shapes of its results.
 */
module Failures {
  import opened ByteText
  import opened Tokens
  import Codecs

  datatype Failure =
    | TokenizerError(error: StreamError)    // returned by the tokenizer, `io.EOF` included
    | NumberSyntax                          // `strconv.Atoi` rejected an attribute value
    | BadTimeOffset(cause: Codecs.TextError) // `TimeOffset.UnmarshalText` failed
    | BadDuration(cause: Codecs.TextError)   // `Duration.UnmarshalText` failed
    | NilLinear                             // a `ClickThrough` dereferenced a nil `Linear`: a panic

  /** The value after reading some attributes, and the error that stopped the reading, if any. */
  datatype Step<T> = Step(value: T, failure: Option<Failure>)

  /**
   * The value an `UnmarshalToken` leaves in its receiver, the index of the
   * next token it has not pulled, and the error it returned, if any.
   */
  datatype Parsed<T> = Parsed(value: T, next: nat, failure: Option<Failure>)
}

=== FILE: goduration.dfy ===
/**
 * Go's `time.ParseDuration`, as far as the VAST duration codec reaches it:
 * an optional sign, then one or more terms made of a decimal integer and a
 * unit ("ns", "us", "µs", "μs", "ms", "s", "m", "h"). The value is summed
 * in an unsigned 64-bit accumulator with Go's overflow checks. Fractional
 * terms ("1.5h") are not modelled: the model rejects them.
 */
module GoDuration {
  import opened ByteText

  const Nanosecond: nat := 1
  const Microsecond: nat := 1000
  const Millisecond: nat := 1_000_000
  const Second: nat := 1_000_000_000
  const Minute: nat := 60_000_000_000
  const Hour: nat := 3_600_000_000_000

  /** 1<<63: the largest magnitude the unsigned accumulator may hold. */
  const Pow63: nat := 0x8000_0000_0000_0000
  /** The accumulator is a `uint64`: sums wrap modulo 1<<64. */
  const Pow64: nat := 0x1_0000_0000_0000_0000

  const LETTER_H: byte := 0x68  // 'h'
  const LETTER_M: byte := 0x6D  // 'm'
  const LETTER_S: byte := 0x73  // 's'

  const HourUnit: Bytes := [LETTER_H]
  const MinuteUnit: Bytes := [LETTER_M]
  const SecondUnit: Bytes := [LETTER_S]
  const MilliUnit: Bytes := [LETTER_M, LETTER_S]
  const MicroUnit: Bytes := [0x75, LETTER_S]             // "us"
  const MicroSignUnit: Bytes := [0xC2, 0xB5, LETTER_S]   // "µs", U+00B5 in UTF-8
  const GreekMuUnit: Bytes := [0xCE, 0xBC, LETTER_S]     // "μs", U+03BC in UTF-8
  const NanoUnit: Bytes := [0x6E, LETTER_S]              // "ns"

  /** The value of a run of digits and the index just past it. */
  datatype Run = Run(value: nat, end: nat)

  /**
   * `leadingInt`: the digits of `s` from `i` on, accumulated onto `x`. It
   * fails as soon as the value would pass 1<<63.
   */
  function LeadingInt(s: Bytes, i: nat, x: nat): (r: Option<Run>)
    requires i <= |s|
    ensures r.Some? ==> i <= r.value.end <= |s|
    ensures r.Some? && i < |s| && IsDigit(s[i]) ==> i < r.value.end
    decreases |s| - i
  {
    if i == |s| || !IsDigit(s[i]) then Some(Run(x, i))
    else if x > Pow63 / 10 then None
    else
      var next := x * 10 + (s[i] - ZERO) as int;
      if next > Pow63 then None else LeadingInt(s, i + 1, next)
  }

  /** A byte that continues a unit name: neither a digit nor '.'. */
  predicate IsUnitByte(b: byte) { b != DOT && !IsDigit(b) }

  /** The end of the unit name that starts at `i`. */
  function UnitEnd(s: Bytes, i: nat): (j: nat)
    requires i <= |s|
    ensures i <= j <= |s|
    decreases |s| - i
  {
    if i == |s| || !IsUnitByte(s[i]) then i else UnitEnd(s, i + 1)
  }

  /** `unitMap`: nanoseconds per unit. */
  function UnitValue(u: Bytes): (r: Option<nat>)
    ensures r.Some? ==> 1 <= r.value <= Hour
  {
    if u == HourUnit then Some(Hour)
    else if u == MinuteUnit then Some(Minute)
    else if u == SecondUnit then Some(Second)
    else if u == MilliUnit then Some(Millisecond)
    else if u == MicroUnit || u == MicroSignUnit || u == GreekMuUnit then Some(Microsecond)
    else if u == NanoUnit then Some(Nanosecond)
    else None
  }

  /**
   * The term loop of `ParseDuration` over the text after the sign; `d` is
   * the unsigned sum of the terms already read. Each term must start with a
   * digit and end with a known unit; the product and the sum are checked
   * against 1<<63 as Go checks them.
   */
  function Terms(s: Bytes, d: nat): (r: Option<nat>)
    requires d <= Pow63
    ensures r.Some? ==> r.value <= Pow63
    decreases |s|
  {
    if s == [] then Some(d)
    else if !IsDigit(s[0]) then None  // a term without digits, or a leading fraction
    else match LeadingInt(s, 0, 0)
      case None => None
      case Some(run) =>
        var k := run.end;
        if k < |s| && s[k] == DOT then None  // a fraction
        else
          var j := UnitEnd(s, k);
          if j == k then None  // missing unit
          else match UnitValue(s[k..j])
            case None => None  // unknown unit
            case Some(unit) =>
              if run.value > Pow63 / unit then None
              else
                var sum := (d + run.value * unit) % Pow64;
                if sum > Pow63 then None else Terms(s[j..], sum)
  }

  /**
   * `time.ParseDuration`: `None` for every text Go reports an error for
   * (and for fractional terms, which the model does not cover).
   */
  function ParseDuration(s: Bytes): (r: Option<int>)
    ensures r.Some? ==> MinInt64 <= r.value <= MaxInt64
  {
    var signed := s != [] && (s[0] == MINUS || s[0] == PLUS);
    var body := if signed then s[1..] else s;
    if body == [ZERO] then Some(0)
    else if body == [] then None
    else match Terms(body, 0)
      case None => None
      case Some(d) =>
        if signed && s[0] == MINUS then Some(0 - d)
        else if d > MaxInt64 then None
        else Some(d)
  }

  /** Every prefix of a run of digits is worth at most the run, and a tenth of it when shorter. */
  lemma {:induction false} DecimalPrefixBound(s: Bytes, i: nat)
    requires AllDigits(s) && i <= |s|
    ensures AllDigits(s[..i]) && DecimalValue(s[..i]) <= DecimalValue(s)
    ensures i < |s| ==> DecimalValue(s[..i]) * 10 <= DecimalValue(s)
    decreases |s| - i
  {
    if i < |s| {
      DecimalPrefixBound(s, i + 1);
      assert s[..i + 1] == s[..i] + [s[i]];
      DecimalValueSnoc(s[..i], s[i]);
    } else {
      assert s[..i] == s;
    }
  }

  /**
   * `leadingInt` over a run of digits `t[..n]` worth at most 1<<63 reads the
   * whole run and returns its value.
   */
  lemma {:induction false} LeadingIntDigits(t: Bytes, n: nat, i: nat)
    requires i <= n <= |t| && AllDigits(t[..n]) && (n < |t| ==> !IsDigit(t[n]))
    requires DecimalValue(t[..n]) <= Pow63
    ensures AllDigits(t[..i])
    ensures LeadingInt(t, i, DecimalValue(t[..i])) == Some(Run(DecimalValue(t[..n]), n))
    decreases n - i
  {
    var g := t[..n];
    assert g[..i] == t[..i];
    DecimalPrefixBound(g, i);
    if i < n {
      assert IsDigit(g[i]);
      assert t[..i + 1] == t[..i] + [t[i]];
      DecimalValueSnoc(t[..i], t[i]);
      assert g[..i + 1] == t[..i + 1];
      DecimalPrefixBound(g, i + 1);
      LeadingIntDigits(t, n, i + 1);
    } else {
      assert g == t[..i];
    }
  }

  /** The unit name that starts at `k` ends where the unit bytes end. */
  lemma {:induction false} UnitEndAt(t: Bytes, k: nat, n: nat)
    requires k <= n <= |t|
    requires forall m | k <= m < n :: IsUnitByte(t[m])
    requires n < |t| ==> !IsUnitByte(t[n])
    ensures UnitEnd(t, k) == n
    decreases n - k
  {
    if k < n {
      UnitEndAt(t, k + 1, n);
    }
  }

  /** One step of the term loop, given where the digits and the unit end. */
  lemma TermStep(s: Bytes, d: nat, v: nat, k: nat, j: nat, unit: nat, total: nat)
    requires d <= Pow63 && 0 < k < j <= |s| && IsDigit(s[0])
    requires LeadingInt(s, 0, 0) == Some(Run(v, k))
    requires s[k] != DOT && UnitEnd(s, k) == j
    requires UnitValue(s[k..j]) == Some(unit)
    requires v <= Pow63 / unit && total == d + v * unit && total <= Pow63
    ensures Terms(s, d) == Terms(s[j..], total)
  {
    assert total % Pow64 == total;
  }

  /**
   * One term: the digits `g` followed by the unit `u` add `g * unit` to the
   * sum, and the loop goes on with what follows the unit.
   */
  lemma TermThenRest(g: Bytes, u: Bytes, unit: nat, rest: Bytes, d: nat, total: nat)
    requires g != [] && AllDigits(g) && DecimalValue(g) <= Pow63
    requires u != [] && (forall m | 0 <= m < |u| :: IsUnitByte(u[m])) && UnitValue(u) == Some(unit)
    requires rest != [] ==> !IsUnitByte(rest[0])
    requires DecimalValue(g) <= Pow63 / unit
    requires total == d + DecimalValue(g) * unit && total <= Pow63
    ensures Terms(g + u + rest, d) == Terms(rest, total)
  {
    var t := g + u + rest;
    var n := |g|;
    assert t[..n] == g;
    assert t[..0] == [];
    LeadingIntDigits(t, n, 0);
    assert t[n] == u[0];
    UnitEndAt(t, n, n + |u|);
    assert t[n..n + |u|] == u;
    TermStep(t, d, DecimalValue(g), n, n + |u|, unit, total);
    assert t[n + |u|..] == rest;
  }

  /** The last term: the digits `g` and the unit `u` end the text. */
  lemma LastTerm(g: Bytes, u: Bytes, unit: nat, d: nat, total: nat)
    requires g != [] && AllDigits(g) && DecimalValue(g) <= Pow63
    requires u != [] && (forall m | 0 <= m < |u| :: IsUnitByte(u[m])) && UnitValue(u) == Some(unit)
    requires DecimalValue(g) <= Pow63 / unit
    requires total == d + DecimalValue(g) * unit && total <= Pow63
    ensures Terms(g + u, d) == Some(total)
  {
    TermThenRest(g, u, unit, [], d, total);
    assert g + u + [] == g + u;
  }
}

=== FILE: leaves.dfy ===
/**
 * The leaf elements and the attribute switches of `decoder.go`: the text a
 * leaf element holds, and one `step` function per `switch` on attribute
 * names. Unknown attribute names fall through every switch unchanged.
 */
module Leaves {
  import opened ByteText
  import opened Tokens
  import opened Failures
  import opened Attributes
  import opened Records
  import opened Codecs
  import Entities

  /**
   * The text of a leaf element: its character data as it stands when the
   * tokenizer read it from a CDATA section, entity-decoded otherwise.
   */
  function TextOf(t: Token): Bytes
  {
    if t.wasCDATA then t.data else Entities.Unescape(t.data)
  }

  /** `if token.WasCDATA { ... } else { xmlStringToString(token.Data) }`, on a copy of the data. */
  method ReadText(t: Token) returns (text: Bytes)
    ensures text == TextOf(t)
    ensures |text| <= |t.data|
  {
    if t.wasCDATA {
      return t.data;
    }
    var buf := new byte[|t.data|](k => if 0 <= k < |t.data| then t.data[k] else 0);
    assert buf[..] == t.data;
    var n := Entities.XmlStringToString(buf);
    text := buf[..n];
  }

  /** CDATA text, and any text without '&', is kept byte for byte. */
  lemma TextVerbatim(t: Token)
    requires t.wasCDATA || forall m | 0 <= m < |t.data| :: t.data[m] != Entities.AMP
    ensures TextOf(t) == t.data
  {
    if !t.wasCDATA {
      Entities.UnescapeIdentity(t.data);
    }
  }

  /* ---------- attribute switches ---------- */

  function TrackingAttr(e: TrackingEvent, a: Attr): Step<TrackingEvent>
  {
    if a.name == "event" then Step(e.(event := a.value), None) else Step(e, None)
  }

  function ImpressionAttr(i: Impression, a: Attr): Step<Impression>
  {
    if a.name == "id" then Step(i.(id := a.value), None) else Step(i, None)
  }

  function UniversalAdIdAttr(u: UniversalAdId, a: Attr): Step<UniversalAdId>
  {
    if a.name == "idRegistry" then Step(u.(idRegistry := a.value), None) else Step(u, None)
  }

  function ClickThroughAttr(c: ClickThrough, a: Attr): Step<ClickThrough>
  {
    if a.name == "id" then Step(c.(id := a.value), None) else Step(c, None)
  }

  function ClickTrackingAttr(c: ClickTracking, a: Attr): Step<ClickTracking>
  {
    if a.name == "id" then Step(c.(id := a.value), None) else Step(c, None)
  }

  function ParameterAttr(p: CreativeParameter, a: Attr): Step<CreativeParameter>
  {
    if a.name == "creativeId" then Step(p.(creativeId := a.value), None)
    else if a.name == "name" then Step(p.(name := a.value), None)
    else if a.name == "type" then Step(p.(creativeParameterType := a.value), None)
    else Step(p, None)
  }

  /**
   * `bitrate`, `height` and `width` go through `strconv.Atoi`. On an error
   * Go stores 0 (syntax) or the clamped bound (range), but the MediaFile is
   * then dropped with the error, so the model stores 0 in both cases.
   */
  function MediaFileAttr(m: MediaFile, a: Attr): Step<MediaFile>
  {
    if a.name == "bitrate" || a.name == "height" || a.name == "width" then
      var n := Atoi(a.value);
      var v := if n.Some? then n.value else 0;
      var m' := if a.name == "bitrate" then m.(bitrate := v)
                else if a.name == "height" then m.(height := v)
                else m.(width := v);
      Step(m', if n.Some? then None else Some(NumberSyntax))
    else if a.name == "delivery" then Step(m.(delivery := a.value), None)
    else if a.name == "type" then Step(m.(mediaType := a.value), None)
    else if a.name == "codec" then Step(m.(codec := a.value), None)
    else Step(m, None)
  }

  function AdAttr(ad: Ad, a: Attr): Step<Ad>
  {
    if a.name == "sequence" then
      match Atoi(a.value)
      case None => Step(ad, Some(NumberSyntax))
      case Some(n) => Step(ad.(sequence := n), None)
    else if a.name == "id" then Step(ad.(id := a.value), None)
    else Step(ad, None)
  }

  function VastAttr(v: Vast, a: Attr): Step<Vast>
  {
    if a.name == "version" then Step(v.(version := a.value), None) else Step(v, None)
  }

  /** The `sequence` attribute of a Creative is not read. */
  function CreativeAttr(c: Creative, a: Attr): Step<Creative>
  {
    if a.name == "id" then Step(c.(id := a.value), None)
    else if a.name == "adId" then Step(c.(adId := a.value), None)
    else Step(c, None)
  }

  function ExtensionAttr(e: Extension, a: Attr): Step<Extension>
  {
    if a.name == "type" then Step(e.(extensionType := a.value), None) else Step(e, None)
  }

  /** `timeOffset` is read into the break's offset in place, which keeps what it held before. */
  function AdBreakAttr(b: AdBreak, a: Attr): Step<AdBreak>
  {
    if a.name == "breakId" then Step(b.(id := a.value), None)
    else if a.name == "breakType" then Step(b.(breakType := a.value), None)
    else if a.name == "timeOffset" then
      var r := UnmarshalTimeOffset(b.timeOffset, a.value);
      Step(b.(timeOffset := r.offset), if r.error.Some? then Some(BadTimeOffset(r.error.value)) else None)
    else Step(b, None)
  }

  /** The root's attributes: every attribute, known or not, also sets `XMLName.Local`. */
  function VmapAttr(v: Vmap, a: Attr): Step<Vmap>
  {
    var v' :=
      if a.name == "version" then v.(version := a.value)
      else if a.name == "vmap" then v.(vmap := a.value, xmlName := v.xmlName.(space := a.value))
      else v;
    Step(v'.(xmlName := v'.xmlName.(local := "VMAP")), None)
  }

  /* ---------- leaf elements ---------- */

  /*
   * Each leaf holds its text and, in each field its switch knows, the value
   * of the last attribute of that name (empty when there is none).
   */

  function TrackingOf(t: Token): (r: TrackingEvent)
    ensures r == TrackingEvent(LastValue(t.attrs, "event", []), TextOf(t))
  {
    var x := TrackingEvent([], []);
    FoldSucceeds(t.attrs, x, TrackingAttr);
    FoldLastWins(t.attrs, x, TrackingAttr, "event", (e: TrackingEvent) => e.event, (a: Attr) => a.value);
    FoldAttrs(t.attrs, x, TrackingAttr).value.(text := TextOf(t))
  }

  function ImpressionOf(t: Token): (r: Impression)
    ensures r == Impression(LastValue(t.attrs, "id", []), TextOf(t))
  {
    var x := Impression([], []);
    FoldSucceeds(t.attrs, x, ImpressionAttr);
    FoldLastWins(t.attrs, x, ImpressionAttr, "id", (i: Impression) => i.id, (a: Attr) => a.value);
    FoldAttrs(t.attrs, x, ImpressionAttr).value.(text := TextOf(t))
  }

  function UniversalAdIdOf(t: Token): (r: UniversalAdId)
    ensures r == UniversalAdId(LastValue(t.attrs, "idRegistry", []), TextOf(t))
  {
    var x := UniversalAdId([], []);
    FoldSucceeds(t.attrs, x, UniversalAdIdAttr);
    FoldLastWins(t.attrs, x, UniversalAdIdAttr, "idRegistry", (u: UniversalAdId) => u.idRegistry, (a: Attr) => a.value);
    FoldAttrs(t.attrs, x, UniversalAdIdAttr).value.(id := TextOf(t))
  }

  function ClickThroughOf(t: Token): (r: ClickThrough)
    ensures r == ClickThrough(LastValue(t.attrs, "id", []), TextOf(t))
  {
    var x := ClickThrough([], []);
    FoldSucceeds(t.attrs, x, ClickThroughAttr);
    FoldLastWins(t.attrs, x, ClickThroughAttr, "id", (c: ClickThrough) => c.id, (a: Attr) => a.value);
    FoldAttrs(t.attrs, x, ClickThroughAttr).value.(text := TextOf(t))
  }

  function ClickTrackingOf(t: Token): (r: ClickTracking)
    ensures r == ClickTracking(LastValue(t.attrs, "id", []), TextOf(t))
  {
    var x := ClickTracking([], []);
    FoldSucceeds(t.attrs, x, ClickTrackingAttr);
    FoldLastWins(t.attrs, x, ClickTrackingAttr, "id", (c: ClickTracking) => c.id, (a: Attr) => a.value);
    FoldAttrs(t.attrs, x, ClickTrackingAttr).value.(text := TextOf(t))
  }

  function ParameterOf(t: Token): (r: CreativeParameter)
    ensures r == CreativeParameter(LastValue(t.attrs, "creativeId", []), LastValue(t.attrs, "name", []),
                                   TextOf(t), LastValue(t.attrs, "type", []))
  {
    var x := CreativeParameter([], [], [], []);
    FoldSucceeds(t.attrs, x, ParameterAttr);
    FoldLastWins(t.attrs, x, ParameterAttr, "creativeId", (p: CreativeParameter) => p.creativeId, (a: Attr) => a.value);
    FoldLastWins(t.attrs, x, ParameterAttr, "name", (p: CreativeParameter) => p.name, (a: Attr) => a.value);
    FoldLastWins(t.attrs, x, ParameterAttr, "type", (p: CreativeParameter) => p.creativeParameterType, (a: Attr) => a.value);
    FoldAttrs(t.attrs, x, ParameterAttr).value.(value := TextOf(t))
  }

  const EmptyMediaFile: MediaFile := MediaFile([], 0, 0, 0, [], [], [])

  /**
   * The media file a `MediaFile` element describes: its text, and in each
   * field the last attribute of that name, read as an integer for
   * `bitrate`, `width` and `height`.
   */
  function DescribedMediaFile(t: Token): MediaFile
  {
    MediaFile(TextOf(t), LastNumber(t.attrs, "bitrate", 0), LastNumber(t.attrs, "width", 0),
              LastNumber(t.attrs, "height", 0), LastValue(t.attrs, "delivery", []),
              LastValue(t.attrs, "type", []), LastValue(t.attrs, "codec", []))
  }

  /** A `MediaFile` element: its attributes, stopping at a bad number, then its text. */
  function MediaFileOf(t: Token): (r: Step<MediaFile>)
    ensures r.failure.Some? ==> r.failure == Some(NumberSyntax)
    ensures r.failure.None? ==> r.value == DescribedMediaFile(t)
  {
    var s := FoldAttrs(t.attrs, EmptyMediaFile, MediaFileAttr);
    FoldFailureKinds(t.attrs, EmptyMediaFile, MediaFileAttr, {NumberSyntax});
    MediaFileAttrsRead(t.attrs);
    if s.failure.Some? then s else Step(s.value.(text := TextOf(t)), None)
  }

  /** Each field of a media file that its attributes fill holds the last attribute of its name. */
  lemma MediaFileAttrsRead(attrs: seq<Attr>)
    ensures var s := FoldAttrs(attrs, EmptyMediaFile, MediaFileAttr);
      s.failure.None? ==>
        s.value.bitrate == LastNumber(attrs, "bitrate", 0) && s.value.width == LastNumber(attrs, "width", 0) &&
        s.value.height == LastNumber(attrs, "height", 0) && s.value.delivery == LastValue(attrs, "delivery", []) &&
        s.value.mediaType == LastValue(attrs, "type", []) && s.value.codec == LastValue(attrs, "codec", [])
  {
    MediaFileNumbers(attrs);
    var m := EmptyMediaFile;
    FoldLastWins(attrs, m, MediaFileAttr, "delivery", (f: MediaFile) => f.delivery, (a: Attr) => a.value);
    FoldLastWins(attrs, m, MediaFileAttr, "type", (f: MediaFile) => f.mediaType, (a: Attr) => a.value);
    FoldLastWins(attrs, m, MediaFileAttr, "codec", (f: MediaFile) => f.codec, (a: Attr) => a.value);
  }

  /** The numeric fields of a media file hold the last attributes of their names, read as integers. */
  lemma MediaFileNumbers(attrs: seq<Attr>)
    ensures var s := FoldAttrs(attrs, EmptyMediaFile, MediaFileAttr);
      s.failure.None? ==>
        s.value.bitrate == LastNumber(attrs, "bitrate", 0) && s.value.width == LastNumber(attrs, "width", 0) &&
        s.value.height == LastNumber(attrs, "height", 0)
  {
    var m := EmptyMediaFile;
    FoldLastWins(attrs, m, MediaFileAttr, "bitrate", (f: MediaFile) => f.bitrate, NumberOf);
    FoldLastWins(attrs, m, MediaFileAttr, "width", (f: MediaFile) => f.width, NumberOf);
    FoldLastWins(attrs, m, MediaFileAttr, "height", (f: MediaFile) => f.height, NumberOf);
  }

  /** A numeric attribute of a `MediaFile` that `strconv.Atoi` rejects makes the element fail. */
  lemma MediaFileBadNumber(t: Token, k: nat)
    requires k < |t.attrs| && t.attrs[k].name in {"bitrate", "height", "width"} && Atoi(t.attrs[k].value).None?
    ensures MediaFileOf(t).failure == Some(NumberSyntax)
  {
    FoldFails(t.attrs, EmptyMediaFile, MediaFileAttr, k);
  }

  /** With any other attribute values a `MediaFile` is read whole: every field its attributes describe, and its text. */
  lemma MediaFileNumbersRead(t: Token)
    requires forall k | 0 <= k < |t.attrs| :: t.attrs[k].name in {"bitrate", "height", "width"} ==> Atoi(t.attrs[k].value).Some?
    ensures MediaFileOf(t) == Step(DescribedMediaFile(t), None)
  {
    MediaFileAttrsSucceed(t.attrs, EmptyMediaFile);
  }

  lemma {:induction false} MediaFileAttrsSucceed(attrs: seq<Attr>, m: MediaFile)
    requires forall k | 0 <= k < |attrs| :: attrs[k].name in {"bitrate", "height", "width"} ==> Atoi(attrs[k].value).Some?
    ensures FoldAttrs(attrs, m, MediaFileAttr).failure.None?
    decreases |attrs|
  {
    if attrs != [] {
      MediaFileAttrsSucceed(attrs[1..], MediaFileAttr(m, attrs[0]).value);
    }
  }

  /**
   * `XMLName.Local` becomes "VMAP" exactly when the root has at least one
   * attribute; with none, the name keeps what it held.
   */
  lemma {:induction false} VmapNameNeedsAttribute(attrs: seq<Attr>, v: Vmap)
    ensures FoldAttrs(attrs, v, VmapAttr).failure.None?
    ensures FoldAttrs(attrs, v, VmapAttr).value.xmlName.local == if attrs == [] then v.xmlName.local else "VMAP"
    decreases |attrs|
  {
    if attrs != [] {
      VmapNameNeedsAttribute(attrs[1..], VmapAttr(v, attrs[0]).value);
    }
  }

  /** A `timeOffset` attribute that does not parse makes the break's attributes fail. */
  lemma AdBreakBadOffset(attrs: seq<Attr>, b: AdBreak, k: nat)
    requires k < |attrs| && attrs[k].name == "timeOffset"
    requires UnmarshalTimeOffset(TimeOffset(None, 0, 0), attrs[k].value).error.Some?
    ensures FoldAttrs(attrs, b, AdBreakAttr).failure.Some?
  {
    forall y: AdBreak
      ensures AdBreakAttr(y, attrs[k]).failure.Some?
    {
      OffsetErrorIgnoresPrior(y.timeOffset, TimeOffset(None, 0, 0), attrs[k].value);
    }
    FoldFails(attrs, b, AdBreakAttr, k);
  }

  /**
   * The root's `version` and `vmap` hold the last attributes of those
   * names, `vmap` also going to `XMLName.Space`; the ad breaks are kept.
   */
  lemma VmapRootAttributes(attrs: seq<Attr>, v: Vmap)
    ensures var s := FoldAttrs(attrs, v, VmapAttr);
      s.failure.None? && s.value.adBreaks == v.adBreaks &&
      s.value.version == LastValue(attrs, "version", v.version) && s.value.vmap == LastValue(attrs, "vmap", v.vmap) &&
      s.value.xmlName.space == LastValue(attrs, "vmap", v.xmlName.space)
  {
    FoldSucceeds(attrs, v, VmapAttr);
    FoldKeeps(attrs, v, VmapAttr, (x: Vmap) => x.adBreaks);
    FoldLastWins(attrs, v, VmapAttr, "version", (x: Vmap) => x.version, (a: Attr) => a.value);
    FoldLastWins(attrs, v, VmapAttr, "vmap", (x: Vmap) => x.vmap, (a: Attr) => a.value);
    FoldLastWins(attrs, v, VmapAttr, "vmap", (x: Vmap) => x.xmlName.space, (a: Attr) => a.value);
  }

  /** Whether every `sequence` attribute holds a number `strconv.Atoi` reads. */
  predicate SequencesParse(attrs: seq<Attr>)
  {
    forall k | 0 <= k < |attrs| :: attrs[k].name == "sequence" ==> Atoi(attrs[k].value).Some?
  }

  /** An Ad's `id` and `sequence` hold the last attributes of those names once every `sequence` is a number. */
  lemma AdAttributes(attrs: seq<Attr>, ad: Ad)
    ensures var s := FoldAttrs(attrs, ad, AdAttr);
      SequencesParse(attrs) ==>
        s.failure.None? && s.value.inLine == ad.inLine &&
        s.value.id == LastValue(attrs, "id", ad.id) && s.value.sequence == LastNumber(attrs, "sequence", ad.sequence)
  {
    if SequencesParse(attrs) {
      FoldSucceeds(attrs, ad, AdAttr);
      FoldKeeps(attrs, ad, AdAttr, (x: Ad) => x.inLine);
      FoldLastWins(attrs, ad, AdAttr, "id", (x: Ad) => x.id, (a: Attr) => a.value);
      FoldLastWins(attrs, ad, AdAttr, "sequence", (x: Ad) => x.sequence, NumberOf);
    }
  }

  /** A VAST's `version` holds the last attribute of that name; its ads are kept. */
  lemma VastAttributes(attrs: seq<Attr>, v: Vast)
    ensures var s := FoldAttrs(attrs, v, VastAttr);
      s.failure.None? && s.value.ads == v.ads && s.value.version == LastValue(attrs, "version", v.version)
  {
    FoldSucceeds(attrs, v, VastAttr);
    FoldKeeps(attrs, v, VastAttr, (x: Vast) => x.ads);
    FoldLastWins(attrs, v, VastAttr, "version", (x: Vast) => x.version, (a: Attr) => a.value);
  }

  /** A Creative's `id` and `adId` hold the last attributes of those names; the rest is kept. */
  lemma CreativeAttributes(attrs: seq<Attr>, c: Creative)
    ensures var s := FoldAttrs(attrs, c, CreativeAttr);
      s.failure.None? && s.value.universalAdId == c.universalAdId && s.value.linear == c.linear &&
      s.value.id == LastValue(attrs, "id", c.id) && s.value.adId == LastValue(attrs, "adId", c.adId)
  {
    FoldSucceeds(attrs, c, CreativeAttr);
    FoldKeeps(attrs, c, CreativeAttr, (x: Creative) => (x.universalAdId, x.linear));
    FoldLastWins(attrs, c, CreativeAttr, "id", (x: Creative) => x.id, (a: Attr) => a.value);
    FoldLastWins(attrs, c, CreativeAttr, "adId", (x: Creative) => x.adId, (a: Attr) => a.value);
  }

  /** An Extension's `type` holds the last attribute of that name; its parameters are kept. */
  lemma ExtensionAttributes(attrs: seq<Attr>, e: Extension)
    ensures var s := FoldAttrs(attrs, e, ExtensionAttr);
      s.failure.None? && s.value.creativeParameters == e.creativeParameters &&
      s.value.extensionType == LastValue(attrs, "type", e.extensionType)
  {
    FoldSucceeds(attrs, e, ExtensionAttr);
    FoldKeeps(attrs, e, ExtensionAttr, (x: Extension) => x.creativeParameters);
    FoldLastWins(attrs, e, ExtensionAttr, "type", (x: Extension) => x.extensionType, (a: Attr) => a.value);
  }

  /** Whether every `timeOffset` attribute holds a text the offset codec reads. */
  predicate OffsetsParse(attrs: seq<Attr>)
  {
    forall k | 0 <= k < |attrs| :: attrs[k].name == "timeOffset" ==> UnmarshalTimeOffset(TimeOffset(None, 0, 0), attrs[k].value).error.None?
  }

  /**
   * Once every `timeOffset` reads, an AdBreak's attributes do not fail: the
   * break's id and type hold the last `breakId` and `breakType`, and with no
   * `timeOffset` the offset is kept; `AdSource` and the tracking events are
   * kept in any case.
   */
  lemma AdBreakAttributes(attrs: seq<Attr>, b: AdBreak)
    ensures var s := FoldAttrs(attrs, b, AdBreakAttr);
      OffsetsParse(attrs) ==>
        s.failure.None? && s.value.adSource == b.adSource && s.value.trackingEvents == b.trackingEvents &&
        s.value.id == LastValue(attrs, "breakId", b.id) && s.value.breakType == LastValue(attrs, "breakType", b.breakType) &&
        (LastNamed(attrs, "timeOffset").None? ==> s.value.timeOffset == b.timeOffset)
  {
    if OffsetsParse(attrs) {
      forall k, y: AdBreak | 0 <= k < |attrs|
        ensures AdBreakAttr(y, attrs[k]).failure.None?
      {
        if attrs[k].name == "timeOffset" {
          OffsetErrorIgnoresPrior(y.timeOffset, TimeOffset(None, 0, 0), attrs[k].value);
        }
      }
      FoldSucceeds(attrs, b, AdBreakAttr);
      FoldKeeps(attrs, b, AdBreakAttr, (x: AdBreak) => x.adSource);
      FoldKeeps(attrs, b, AdBreakAttr, (x: AdBreak) => x.trackingEvents);
      FoldLastWins(attrs, b, AdBreakAttr, "breakId", (x: AdBreak) => x.id, (a: Attr) => a.value);
      FoldLastWins(attrs, b, AdBreakAttr, "breakType", (x: AdBreak) => x.breakType, (a: Attr) => a.value);
      if LastNamed(attrs, "timeOffset").None? {
        FoldKeepsUnnamed(attrs, b, AdBreakAttr, "timeOffset", (x: AdBreak) => x.timeOffset);
      }
    }
  }

  /**
   * With a single `timeOffset` attribute, the break's offset is what the
   * offset codec makes of that attribute's text over the offset it held.
   */
  lemma AdBreakSingleOffset(attrs: seq<Attr>, b: AdBreak, k: nat)
    requires k < |attrs| && attrs[k].name == "timeOffset"
    requires forall m | 0 <= m < |attrs| && m != k :: attrs[m].name != "timeOffset"
    requires FoldAttrs(attrs, b, AdBreakAttr).failure.None?
    ensures FoldAttrs(attrs, b, AdBreakAttr).value.timeOffset == UnmarshalTimeOffset(b.timeOffset, attrs[k].value).offset
  {
    FoldOnlyNamed(attrs, b, AdBreakAttr, "timeOffset", (x: AdBreak) => x.timeOffset,
                  (o: TimeOffset, a: Attr) => UnmarshalTimeOffset(o, a.value).offset, k);
  }
}

=== FILE: records.dfy ===
/**
 * The typed tree the decoders fill in: one value type per Go struct of the
 * VMAP/VAST data model. A Go pointer field is an `Option`; a slice is a
 * `seq`; `string` fields hold the bytes of the text. Every `Empty...`
 * constant is the Go zero value of its struct.
 */
module Records {
  import opened ByteText
  import opened Codecs

  /** `xml.Name`. */
  datatype XmlName = XmlName(space: Bytes, local: string)

  datatype TrackingEvent = TrackingEvent(event: Bytes, text: Bytes)
  datatype Impression = Impression(id: Bytes, text: Bytes)
  /** The `Error` struct of an InLine: the text of its `<Error>` element. */
  datatype ErrorElement = ErrorElement(value: Bytes)
  datatype UniversalAdId = UniversalAdId(idRegistry: Bytes, id: Bytes)
  datatype ClickThrough = ClickThrough(id: Bytes, text: Bytes)
  datatype ClickTracking = ClickTracking(id: Bytes, text: Bytes)

  datatype MediaFile = MediaFile(
    text: Bytes, bitrate: int, width: int, height: int,
    delivery: Bytes, mediaType: Bytes, codec: Bytes)

  /** `Linear`; `duration` is the `Duration` in nanoseconds. */
  datatype Linear = Linear(
    duration: int,
    trackingEvents: seq<TrackingEvent>,
    mediaFiles: seq<MediaFile>,
    clickThrough: Option<ClickThrough>,
    clickTracking: seq<ClickTracking>)

  datatype Creative = Creative(id: Bytes, adId: Bytes, universalAdId: Option<UniversalAdId>, linear: Option<Linear>)

  datatype CreativeParameter = CreativeParameter(creativeId: Bytes, name: Bytes, value: Bytes, creativeParameterType: Bytes)
  datatype Extension = Extension(extensionType: Bytes, creativeParameters: seq<CreativeParameter>)

  datatype InLine = InLine(
    adSystem: Bytes,
    adTitle: Bytes,
    impression: seq<Impression>,
    creatives: seq<Creative>,
    extensions: seq<Extension>,
    error: Option<ErrorElement>)

  datatype Ad = Ad(id: Bytes, sequence: int, inLine: Option<InLine>)

  datatype Vast = Vast(version: Bytes, ads: seq<Ad>)

  datatype VastData = VastData(vast: Option<Vast>)
  datatype AdSource = AdSource(vastData: Option<VastData>)

  /** `AdBreak`; `trackingEvents` is `None` until the first `Tracking` child. */
  datatype AdBreak = AdBreak(
    adSource: Option<AdSource>,
    trackingEvents: Option<seq<TrackingEvent>>,
    id: Bytes,
    breakType: Bytes,
    timeOffset: TimeOffset)

  datatype Vmap = Vmap(xmlName: XmlName, vmap: Bytes, version: Bytes, adBreaks: seq<AdBreak>)

  const EmptyLinear: Linear := Linear(0, [], [], None, [])
  const EmptyCreative: Creative := Creative([], [], None, None)
  const EmptyExtension: Extension := Extension([], [])
  const EmptyInLine: InLine := InLine([], [], [], [], [], None)
  const EmptyAd: Ad := Ad([], 0, None)
  const EmptyVast: Vast := Vast([], [])
  const EmptyAdBreak: AdBreak := AdBreak(None, None, [], [], TimeOffset(None, 0, 0))
  const EmptyVmap: Vmap := Vmap(XmlName([], ""), [], [], [])
}

=== FILE: tokens.dfy ===
/**
 * The XML tokenizer the element decoders pull from, as an abstract finite
 * stream. A token is a start or an end element (or text, which carries no
 * name the decoders dispatch on) with its local name, its attributes, the
 * character data that follows it, and the `SelfClosing` and `WasCDATA`
 * flags. After the last token every pull returns the stream's terminal
 * error: `EndOfInput` is Go's `io.EOF`, `Malformed` any other error of the
 * tokenizer. Whether a token closes a given start token is the tokenizer's
 * own test `IsEndElementOf`, kept abstract as a function of the stream.
 */
module Tokens {
  import opened ByteText

  /** An attribute: its local name and its raw value. */
  datatype Attr = Attr(name: string, value: Bytes)

  datatype Token = Token(
    isEnd: bool,          // `IsEndElement`
    name: string,         // `Name.Local`
    attrs: seq<Attr>,
    data: Bytes,          // the character data of the element
    selfClosing: bool,
    wasCDATA: bool)

  datatype StreamError = EndOfInput | Malformed

  /**
   * The tokens of one document in order, the error that follows them, and
   * `IsEndElementOf`: `isEndElementOf(t, se)` holds when `t` ends the
   * element that the start token `se` opened.
   */
  datatype TokenStream = TokenStream(tokens: seq<Token>, terminal: StreamError, isEndElementOf: (Token, Token) -> bool)
}
